=== FILE: README.md ===
# Transport back office: the CRUD core, in Dafny

This project models the server side of a French transport-logistics back office. The system is an Express application over MongoDB that manages clients, carriers (*transporteurs*), freight forwarders (*commissionnaires*), estimates, contact messages, users, notes and settings. The model covers the following parts.

- **`CrudService`** (`Service.CrudService`). This is the generic service over one collection. It covers:
  - required-field, e-mail and phone validation;
  - `create`, which stamps the document and hashes a password;
  - the paginated and searchable `findAll`;
  - `findById`, `update`, `delete`, `bulkCreate` and `getStats`.
- **`CrudController`** (`Controller.CrudController`). This maps an HTTP request onto the service and picks the status code of each outcome. It also holds the specialised finders that the entity controllers share.
- **The three entity controllers**: `Clients`, `Transporteurs` and `Commissionnaires`. Each has:
  - its field lists;
  - its `customValidation` hook with the SIRET, VAT-number, postal-code, company-size and capacity formats (`Formats`);
  - its finders;
  - its distinct-value and statistics routes.
- **The legacy handlers**:
  - `RouteHandlers`: `handleGet`, `handlePost`, `handlePut` and `handleDelete`;
  - `ClientList`: the client-list controller.
- **The request rules of the API router** (`ApiRoutes`). These cover the company record, the estimate builder, contact messages, user administration, notes, settings, and the logo and stamp images.
- **The middleware** (`Middleware`): the CORS origin allow-list, the header-echo/preflight middleware and the `Bearer` token check.

## Modelling choices

- **JavaScript values.** A small JavaScript value type (`JsValues.Value`) stands in for the values. It comes with JavaScript truthiness, `||`, `String(v)`, `parseInt` and `split`.
- **The store.** A collection is a class (`Documents.Collection`) whose `docs` map is keyed by ObjectId text, written in lower-case hex. An id received in either letter case is read into that key by `Documents.ObjectIdOf`, as `new ObjectId(id)` does. Its methods are the driver calls the core makes:
  - `insertOne` and `insertMany`;
  - `findOne`;
  - `updateOne` with `$set`;
  - the notes/settings upsert;
  - `deleteOne`.
- **Queries.** A query is a `Documents.Query`:
  - exact match, `$in`, `$gte`/`$lte` and case-insensitive `$regex` conditions per path;
  - an optional `$or`;
  - exact, `$in` and range conditions hold of a field's value or of one element of an array value, and a dotted path `a.b` reaches `b` in the object held in `a` or in each object of an array held in `a`, as MongoDB does;
  - the case-insensitive `$regex` is read as literal text containment (see "## Left out").
- **Responses.** The Express `res` object is a class (`Http.Response`) whose status, headers and body the handlers set.
- **Parameters.** The following are parameters of the operations that use them:
  - the clock (`now`, `isoNow`);
  - fresh ObjectIds (`newId`, `ids`);
  - the cursor order of a sorted find (`order`);
  - the result of `jwt.verify` (`verify`);
  - the list of values `distinct` returns (`listed`);
  - file existence (`fileExists`).
- **Stray lines.** Several source files hold stray `);` lines left over from removed logging calls. Examples:
  - backEnd/src/utils/crudService.js:15, 209, 235, 247 and 265;
  - backEnd/src/utils/crudController.js:118 and 121;
  - backEnd/src/controllers/transporteurController.js:42;
  - backEnd/src/controllers/clientListController.js:41.

  As written, these lines keep the files from parsing. The model reads each file as if they were absent.

## Model

| member | source | states |
|---|---|---|
| JsValues.Or | backEnd/src/routes/apiRoutes.js:136 | `a \|\| b`: the left value when truthy, the right one otherwise |
| JsValues.Hash | backEnd/src/utils/crudService.js:89-92 | a bcrypt digest is truthy and never equal to the password it hides |
| JsValues.BcryptHash | backEnd/src/utils/crudService.js:89-92 | `bcrypt.hash` succeeds exactly for a text, giving a truthy digest unlike the password; `null`/`undefined` are refused as missing and any other value as being of the wrong type |
| JsValues.ParseInt | backEnd/src/utils/crudController.js:51-52 | `parseInt` yields a number or NaN, never any other value |
| JsValues.ParseIntRoundTrip | backEnd/src/utils/crudController.js:51-52 | `parseInt(String(n)) === n` and `parseInt(n) === n` for every integer `n` the model writes in decimal, that is `|n| < 10^21` |
| JsValues.Split | src/utils/middleware.js:108 | `split` on one character gives at least one piece |
| JsValues.IndexOf | src/utils/middleware.js:108 | the position found holds the character and none comes before it; no position only when the character is absent |
| JsValues.NatToStringInjective | backEnd/src/utils/crudService.js:318-322 | different array indices are written as different keys |
| JsValues.IndexKeysExact | backEnd/src/utils/crudService.js:318-322 | every index key of an array of length `n` is the decimal text of an index below `n` |
| JsValues.IndexKeysBelow | backEnd/src/utils/crudService.js:318-322 | the decimal text of an index at or past the length is not a key |
| JsValues.IndexKeysCount | backEnd/src/utils/crudService.js:318-322 | an array of length `n` spreads to exactly `n` keys |
| JsValues.Indexed | backEnd/src/utils/crudService.js:318-322 | `{ ...array }` has one key per index, written in decimal, holding that element |
| JsValues.Spread | backEnd/src/utils/crudService.js:318-322 | `{ ...v }` holds an object's own fields, an array's elements or a text's characters under their decimal indices, and no key for any other value |
| Documents.Get | backEnd/src/utils/crudService.js:21 | `data[f]` is `undefined` exactly for an absent field |
| Documents.ResolvePlain | backEnd/src/controllers/transporteurController.js:185 | a path without a dot reads the top-level field |
| Documents.ReachEachPlain | src/controllers/clientController.js:192 | inside an array, a plain field is reached in each object element and in nothing else |
| Documents.ResolveDotted | src/controllers/clientController.js:192 | `a.b` reaches `b` of the object in `a`, and `b` of each object of an array in `a`; any other value in `a` reaches nothing |
| Documents.DocValue | backEnd/src/utils/crudService.js:98 | a returned document carries its `_id` and every stored field |
| Documents.LowerHexValue | backEnd/src/utils/crudService.js:182 | lower-casing hex text keeps the number it denotes |
| Documents.HexValueInjective | backEnd/src/utils/crudService.js:182 | two lower-case hex ids of the same length with the same value are the same text |
| Documents.ObjectIdOf | backEnd/src/utils/crudService.js:182 | `new ObjectId(id)` reads 24 hex digits in either letter case into the lower-case key with the same value |
| Documents.ObjectIdOfCanonical | backEnd/src/utils/crudService.js:182 | a lower-case key is read as itself |
| Documents.SameObjectId | backEnd/src/utils/crudService.js:182 | two id texts name the same document exactly when they denote the same number, such as when they differ only in letter case |
| Documents.WithoutId | src/utils/routeHandlers.js:67 | removing `_id` keeps every other field and value |
| Documents.MatchesSingle | backEnd/src/utils/crudService.js:142 | a one-path filter matches exactly when its condition holds at that path |
| Documents.PathMatchesOne | backEnd/src/utils/crudService.js:142 | on a path that reaches one value, a condition holds exactly when it holds of that value |
| Documents.AtLeastMatches | src/controllers/clientController.js:192 | `{ $gte: n }` holds of numbers at least `n`, of arrays holding one, and of nothing else |
| Documents.SinceMatches | backEnd/src/utils/crudService.js:346-348 | `{ $gte: date }` holds of dates no earlier than it, of arrays holding one, and of nothing else |
| Documents.MatchingIds | backEnd/src/utils/crudService.js:142-146 | the cursor yields exactly the matching documents |
| Documents.MatchingIdsInOrder | backEnd/src/utils/crudService.js:142-146 | the cursor yields the matching documents in cursor order |
| Documents.MatchingIdsDistinct | backEnd/src/utils/crudService.js:142-146 | the cursor yields each document at most once |
| Documents.MatchingIdsCount | backEnd/src/utils/crudService.js:141-148 | the cursor before paging yields as many documents as `countDocuments` counts for the same query |
| Documents.MatchAllCount | backEnd/src/utils/crudService.js:344 | `countDocuments()` counts the whole collection |
| Documents.Keyed | backEnd/src/utils/crudService.js:324 | `insertMany` adds a document under each fresh id and no other key |
| Documents.KeyedAt | backEnd/src/utils/crudService.js:324 | the `i`-th fresh id stores the `i`-th document |
| Documents.Collection.constructor | backEnd/src/utils/crudService.js:6-11 | the collection starts with the given documents |
| Documents.Collection.InsertOne | backEnd/src/utils/crudService.js:95 | `insertOne` adds one document under the new id and changes nothing else |
| Documents.Collection.InsertMany | backEnd/src/utils/crudService.js:324 | `insertMany` adds every document of a non-empty batch and fails on an empty one, with the store unchanged |
| Documents.Collection.FindOne | backEnd/src/utils/crudService.js:182 | `findOne({ _id })` returns the stored document, or nothing for an absent id |
| Documents.Collection.FindOneWhere | backEnd/src/routes/apiRoutes.js:174 | `findOne({ [field]: v })` returns a matching document when one exists and nothing only when none does |
| Documents.Collection.FindAny | backEnd/src/routes/apiRoutes.js:211 | `findOne({})` returns nothing exactly for an empty collection |
| Documents.Collection.UpdateOne | backEnd/src/utils/crudService.js:250-253 | `updateOne` with `$set` merges the patch into the one matched document; no match, or an `_id` in the patch, changes nothing |
| Documents.Collection.Upsert | backEnd/src/routes/apiRoutes.js:186-195 | an upsert keyed on one field merges into a matching document, or inserts a new one holding the key and the patch |
| Documents.Collection.DeleteOne | backEnd/src/utils/crudService.js:292 | `deleteOne` removes exactly that document and reports whether it existed |
| Service.RequiredMessageInjective | backEnd/src/utils/crudService.js:22 | two required-field messages are equal only for the same field |
| Service.MissingFieldsMembership | backEnd/src/utils/crudService.js:19-25 | a field is reported missing exactly when it is required and its value is falsy |
| Service.MissingFieldsInOrder | backEnd/src/utils/crudService.js:19-25 | missing fields are reported once each, in declaration order |
| Service.RequiredMessages | backEnd/src/utils/crudService.js:22 | one message per missing field |
| Service.RequiredMessagesMembership | backEnd/src/utils/crudService.js:19-25 | the messages name exactly the missing fields and never hold a format error |
| Service.EmailPatternOneAt | backEnd/src/utils/crudService.js:54-60 | an address the e-mail pattern accepts holds exactly one `@`, with text on both sides |
| Service.IsValidEmail | backEnd/src/utils/crudService.js:48-61 | an empty e-mail is accepted; a text without `@` is accepted; a text with `@` must match the pattern; a truthy value with no `includes` throws |
| Service.IsValidPhone | backEnd/src/utils/crudService.js:64-70 | every phone value is accepted |
| Service.FormatErrors | backEnd/src/utils/crudService.js:29-39 | the only format error is the e-mail one |
| Service.Validate | backEnd/src/utils/crudService.js:14-45 | `isValid` holds exactly when no error is reported; validation throws exactly for a truthy e-mail the check cannot read |
| Service.CreateValidationReportsMissing | backEnd/src/utils/crudService.js:17-44 | on create, one "requis" error per falsy required field, in declaration order, before any format error; the phone never fails |
| Service.UpdateValidationIgnoresRequired | backEnd/src/utils/crudService.js:18-26 | on update, no required-field error is reported |
| Service.CeilDivBounds | backEnd/src/utils/crudService.js:157 | `Math.ceil(total / limit)` is the least page count covering `total`, and is not finite for a zero limit |
| Service.Paginate | backEnd/src/utils/crudService.js:150-161 | `hasNext` holds iff `page * limit < total`; `hasPrev` holds iff `page > 1`; `totalPages` is the ceiling |
| Service.SearchClauses | backEnd/src/utils/crudService.js:130-133 | one case-insensitive pattern clause per search field, in field order |
| Service.BuildQuery | backEnd/src/utils/crudService.js:127-135 | the query is the filter, plus an `$or` exactly when the search is truthy and there are search fields; a non-text search is refused |
| Service.SearchClausesMatch | backEnd/src/utils/crudService.js:130-134 | the `$or` holds exactly when one search field holds the pattern |
| Service.SearchMatches | backEnd/src/utils/crudService.js:127-135 | with a search, a document matches iff it passes the filter and one search field contains the search as literal text, in any ASCII letter case |
| Service.Window | backEnd/src/utils/crudService.js:138-145 | `skip(skip).limit(take)` returns at most `take` items, the ones after `skip`, in order |
| Service.Timestamped | backEnd/src/utils/crudService.js:318-322 | `{ ...entity, createdAt, updatedAt }` stamps both dates with `now` and keeps every other field |
| Service.Stamped | backEnd/src/utils/crudService.js:82-92 | the created record is the input stamped with `createdAt = updatedAt = now`, with a truthy password replaced by its digest |
| Service.Patch | backEnd/src/utils/crudService.js:230-244 | the update `$set` is the input without `_id`, with `updatedAt = now` and a truthy password hashed |
| Service.TimestampedAll | backEnd/src/utils/crudService.js:318-322 | `bulkCreate` stamps every entity, in order, and hashes nothing |
| Service.HashPassword | backEnd/src/utils/crudService.js:89-92 | a truthy text password is replaced by its digest and nothing else changes; a falsy one leaves the record as is; a truthy non-text one is refused with bcrypt's message |
| Service.CrudService.constructor | backEnd/src/utils/crudService.js:6-11 | the service keeps its collection, entity name and field lists |
| Service.CrudService.ValidateData | backEnd/src/utils/crudService.js:14-45 | pushing errors field by field yields exactly the `Validate` result |
| Service.CrudService.Create | backEnd/src/utils/crudService.js:73-112 | invalid data fails with the joined errors and a password bcrypt refuses fails with bcrypt's message, storing nothing; otherwise exactly one stamped record is stored under the new id and returned |
| Service.CrudService.InsertStamped | backEnd/src/utils/crudService.js:82-102 | after validation: a refused password stores nothing; otherwise the stamped record is stored under the new id, read back and found by that id |
| Service.CrudService.FindAll | backEnd/src/utils/crudService.js:115-169 | a listing holds at most `limit` documents, all matching; `total` counts every match; the pagination is computed from `page`, `limit` and `total`; a refused query fails with the read error |
| Service.CrudService.FindAllPage | backEnd/src/utils/crudService.js:138-146 | the `k`-th listed document is the `(skip + k)`-th match in cursor order, `skip` being `(page - 1) * limit` |
| Service.CrudService.PageValues | backEnd/src/utils/crudService.js:141-146 | each listed document is a stored document that matches the query |
| Service.CrudService.HasNextMeansMoreMatches | backEnd/src/utils/crudService.js:158 | for a positive limit, `hasNext` holds exactly when matches remain after the page returned |
| Service.CrudService.FindById | backEnd/src/utils/crudService.js:172-204 | a malformed id gives "ID invalide"; otherwise the id, in either letter case, gives the document stored under it or "Entité non trouvée" |
| Service.CrudService.FindByIdSameNumber | backEnd/src/utils/crudService.js:182 | two ids denoting the same number, such as the same hex in two letter cases, find the same result |
| Service.CrudService.Update | backEnd/src/utils/crudService.js:207-279 | checks the id first; reports only format errors; a password bcrypt refuses fails; an id naming no document gives "not found"; otherwise merges the patch into that record only, never writes `_id`, and returns what `findById` then finds |
| Service.CrudService.Delete | backEnd/src/utils/crudService.js:282-313 | a malformed id leaves the store alone; otherwise exactly the record the id names goes, in either letter case; an absent id is "not found" |
| Service.CrudService.BulkCreate | backEnd/src/utils/crudService.js:316-338 | a non-empty batch is stored stamped under the fresh ids; an empty batch fails and stores nothing |
| Service.CrudService.GetStats | backEnd/src/utils/crudService.js:341-364 | `total` counts the collection; `recent24h` counts records created in the last 24 hours and never exceeds `total` |
| Service.RecentMeansLastDay | backEnd/src/utils/crudService.js:345-348 | a record is recent exactly when its `createdAt` is a date at most 24 hours before `now`, or an array holding such a date |
| Controller.QueryParam | backEnd/src/utils/crudController.js:40-47 | a destructured parameter takes its default exactly when absent or `undefined` |
| Controller.FindAllOptions | backEnd/src/utils/crudController.js:40-57 | the filter is the query minus exactly `page`, `limit`, `sort`, `order` and `search`; direction -1 iff `order` is `desc`; an empty search becomes null; the search fields are the controller's |
| Controller.FindAllDefaults | backEnd/src/utils/crudController.js:41-44 | without paging parameters the listing is page 1 of 10, by `createdAt`, newest first |
| Controller.FindAllPageFromText | backEnd/src/utils/crudController.js:51 | a page given as decimal text is the page listed |
| Controller.StatusFor | backEnd/src/utils/crudController.js:97 | a failure answers 404 exactly for "Entité non trouvée" and 400 otherwise |
| Controller.BulkEntities | backEnd/src/utils/crudController.js:177-185 | only a non-empty `entities` array passes the bulk guard |
| Controller.InsertedIdsByIndex | backEnd/src/utils/crudService.js:324-330 | the bulk reply's `insertedIds` has exactly `insertedCount` entries, and index `i` names the id stored for the `i`-th entity |
| Controller.DefaultCustomValidation | backEnd/src/utils/crudController.js:244-246 | the default hook accepts every body, with no errors |
| Controller.CrudController.constructor | backEnd/src/utils/crudController.js:5-8 | the controller builds its service over the collection with the given fields |
| Controller.CrudController.Create | backEnd/src/utils/crudController.js:11-35 | 201 with the stored document on success; 400 with the validation error or bcrypt's refusal, storing nothing |
| Controller.CrudController.FindAll | backEnd/src/utils/crudController.js:38-82 | 200 with the page, its pagination and the message; 400 with the service error |
| Controller.CrudController.FindById | backEnd/src/utils/crudController.js:85-111 | 200 with the document the id names in either letter case; otherwise the status picked by the error |
| Controller.CrudController.Update | backEnd/src/utils/crudController.js:114-144 | 200 with the updated document; 404 with "Entité non trouvée" when the id names no document; 400 with "ID invalide" for a malformed id, with the joined errors and "Données invalides" for invalid data, with the validation error for an unreadable e-mail, or with bcrypt's refusal; the store changes only on success |
| Controller.CrudController.Delete | backEnd/src/utils/crudController.js:147-172 | 200 and exactly the record the id names removed; 404 with "Entité non trouvée" when it names none; 400 with "ID invalide" for a malformed id; the store is untouched on failure |
| Controller.CrudController.BulkCreate | backEnd/src/utils/crudController.js:175-209 | a missing, non-array or empty `entities` is refused with 400 before the service runs; otherwise each entity is spread and stamped, and 201 answers the driver's result: acknowledged, the count, and the id inserted at each index |
| Controller.CrudController.GetStats | backEnd/src/utils/crudController.js:212-236 | 200 with the total, the last-day count and the entity name |
| Controller.CrudController.ListBy | src/controllers/clientController.js:94-123 | a specialised finder lists page 1 of 10 for its filter, answering 200 with the page or 400 with the service error |
| Controller.FilterOptions | src/controllers/clientController.js:98-100 | a specialised finder uses the default page, limit and no search, with its own filter |
| Controller.ContainsFilterMatches | src/controllers/commissionnaireController.js:85-87 | `{ $in: [v] }` selects records whose field is `v` or an array holding it |
| Controller.EqFilterMatches | src/controllers/clientController.js:129-131 | `{ field: v }` selects records whose field is `v` or an array holding it |
| Controller.TextFilterMatches | src/controllers/clientController.js:98-100 | a case-insensitive `$regex` selects records whose field contains the text as literal text, in any ASCII letter case |
| Controller.KeepTruthy | src/controllers/clientController.js:285 | `filter(s => s)` keeps exactly the truthy values |
| Controller.KeepTruthyDistinct | src/controllers/clientController.js:285 | filtering a duplicate-free list leaves it duplicate-free |
| Controller.DistinctTruthyListing | src/controllers/clientController.js:281-285 | the corrected listing holds every truthy stored value once, and nothing else |
| Controller.UnsetCollectionReply | src/controllers/clientController.js:289-294 | a route reading the unset `this.collection` answers the internal error, 500 |
| Controller.DistinctTruthy | src/controllers/clientController.js:279-295 | the corrected distinct route answers 200 with the truthy stored values |
| Formats.NumericSiret | src/controllers/clientController.js:70-73 | a number passes the SIRET pattern exactly when it has 14 digits |
| Formats.EmptyRejected | src/controllers/commissionnaireController.js:63-78 | neither `""` nor `undefined` has the SIRET, VAT or postal-code format |
| Formats.FieldErrorsSnoc | src/controllers/clientController.js:40-67 | one more check adds at most its own message, at the end |
| Formats.FieldErrorsMembership | src/controllers/clientController.js:40-67 | a message is reported exactly when a check carrying it flags a truthy, invalid field |
| Formats.FieldErrorsExact | src/controllers/clientController.js:40-67 | with distinct messages, each check reports exactly when it flags its field |
| Formats.FieldErrorsInOrder | src/controllers/clientController.js:40-67 | the messages keep the check order, each at most once |
| Formats.CheckResult | src/controllers/clientController.js:63-66 | a hook is valid exactly when it reports no error |
| Clients.NewController | src/controllers/clientController.js:5-37 | the client controller's required, optional and search fields |
| Clients.CustomValidation | src/controllers/clientController.js:40-67 | the hook's errors, pushed field by field, are the check list's result |
| Clients.CustomValidationSpec | src/controllers/clientController.js:40-91 | siret, tva, codePostal and tailleEntreprise are each reported exactly when truthy and of the wrong format, in that order |
| Clients.VipOptions | src/controllers/clientController.js:189-196 | VIP clients have an order count of at least `parseInt(seuil)`, largest first |
| Clients.VipDefaultThreshold | src/controllers/clientController.js:189 | without `seuil` the threshold is 10 |
| Clients.CountPathMatches | src/controllers/clientController.js:192 | `{ $gte: n }` on a path holds when one value it reaches is a number of at least `n` or an array holding one |
| Clients.DottedCount | src/controllers/clientController.js:192 | the counts `a.b` reaches are that of the object in `a` or of each object of an array in `a` |
| Clients.VipSelection | src/controllers/clientController.js:189-193 | without `seuil`, a client is VIP exactly when its order history, or one object of an order-history array, has an order count of at least 10 (a number, or an array holding one) |
| Clients.FindBySecteurActivite | src/controllers/clientController.js:94-123 | lists the clients whose sector contains the text as literal text, in any ASCII letter case |
| Clients.FindByTailleEntreprise | src/controllers/clientController.js:125-154 | lists the clients of exactly that size |
| Clients.FindByStatut | src/controllers/clientController.js:156-184 | lists the clients of exactly that status |
| Clients.GetClientsVIP | src/controllers/clientController.js:187-218 | lists the VIP page and names the threshold in the message |
| Clients.StatutPayloadValid | src/controllers/clientController.js:311 | a payload holding only `statutClient` always passes update validation |
| Clients.UpdateStatut | src/controllers/clientController.js:298-334 | a falsy `statutClient` gives 400 with no update; a malformed id gives 400 "ID invalide" and an id naming no record 404 "Entité non trouvée", both with the service's message and no update; otherwise only `statutClient` (and `updatedAt`) of the record the id names changes |
| Clients.GetStatsBySecteurAsWritten | src/controllers/clientController.js:221-247 | always answers the internal error, 500 |
| Clients.GetStatsByTailleAsWritten | src/controllers/clientController.js:250-276 | always answers the internal error, 500 |
| Clients.GetSecteursActiviteAsWritten | src/controllers/clientController.js:279-295 | always answers the internal error, 500 |
| Clients.GetSecteursActivite | src/controllers/clientController.js:279-295 | answers 200 with every truthy stored sector |
| Transporteurs.NewController | backEnd/src/controllers/transporteurController.js:5-38 | the carrier controller's fields; only `nom_de_entreprise` is required |
| Transporteurs.CustomValidation | backEnd/src/controllers/transporteurController.js:41-74 | the hook's errors, pushed field by field, are the check list's result |
| Transporteurs.LenientIsStrict | backEnd/src/controllers/transporteurController.js:77-106 | the lenient validators, asked only about truthy values, report what the strict patterns would |
| Transporteurs.CustomValidationSpec | backEnd/src/controllers/transporteurController.js:41-110 | registrationNumber, taxID, zipCode and capaciteTransport are each reported exactly when truthy and invalid, in that order; a capacity must be a positive number |
| Transporteurs.CapaciteFilter | backEnd/src/controllers/transporteurController.js:177-189 | the capacity condition is present exactly when a bound is truthy |
| Transporteurs.CapaciteFilterOfBounds | backEnd/src/controllers/transporteurController.js:177-189 | both bounds give `[min, max]`, one bound gives a half-range, none gives an empty filter |
| Transporteurs.CapaciteSelection | backEnd/src/controllers/transporteurController.js:175-213 | a carrier is listed exactly when its capacity meets every bound given: a number within them, or an array with an element above the minimum and one below the maximum |
| Transporteurs.NumRangeMatches | backEnd/src/controllers/transporteurController.js:180-188 | a numeric range holds of a value meeting each bound, as a number or through an array element, and of nothing else |
| Transporteurs.FindByTypeTransport | backEnd/src/controllers/transporteurController.js:113-142 | lists the carriers offering that transport type |
| Transporteurs.FindByZoneGeographique | backEnd/src/controllers/transporteurController.js:144-173 | lists the carriers whose zone is exactly that value or an array holding it |
| Transporteurs.FindByCapacite | backEnd/src/controllers/transporteurController.js:175-213 | lists the carriers within the capacity bounds |
| Transporteurs.GetStatsByTypeTransportAsWritten | backEnd/src/controllers/transporteurController.js:216-246 | always answers the internal error, 500 |
| Transporteurs.GetTypesTransportAsWritten | backEnd/src/controllers/transporteurController.js:248-265 | always answers the internal error, 500 |
| Transporteurs.GetTypesTransport | backEnd/src/controllers/transporteurController.js:248-265 | answers 200 with every truthy stored transport type |
| Transporteurs.GetZonesGeographiquesAsWritten | backEnd/src/controllers/transporteurController.js:267-283 | always answers the internal error, 500 |
| Transporteurs.GetZonesGeographiques | backEnd/src/controllers/transporteurController.js:267-283 | answers 200 with every truthy stored zone |
| Commissionnaires.NewController | src/controllers/commissionnaireController.js:5-35 | the forwarder controller's required, optional and search fields |
| Commissionnaires.CustomValidation | src/controllers/commissionnaireController.js:38-60 | the hook's errors, pushed field by field, are the check list's result |
| Commissionnaires.CustomValidationSpec | src/controllers/commissionnaireController.js:38-78 | siret, tva and codePostal are each reported exactly when truthy and of the wrong format, in that order |
| Commissionnaires.CreateWithoutPrenom | src/controllers/commissionnaireController.js:7-16 | creating a forwarder without a first name fails, naming that field |
| Commissionnaires.FindBySpecialite | src/controllers/commissionnaireController.js:81-110 | lists the forwarders whose specialities hold that value |
| Commissionnaires.FindByPays | src/controllers/commissionnaireController.js:112-141 | lists the forwarders whose country contains the text as literal text, in any ASCII letter case |
| Commissionnaires.GetStatsByPaysAsWritten | src/controllers/commissionnaireController.js:143-170 | always answers the internal error, 500 |
| Commissionnaires.GetSpecialitesAsWritten | src/controllers/commissionnaireController.js:172-188 | always answers the internal error, 500 |
| Commissionnaires.GetSpecialites | src/controllers/commissionnaireController.js:172-188 | answers 200 with every truthy stored speciality |
| RouteHandlers.AllDocs | src/utils/routeHandlers.js:7-8 | the listing holds one entry per stored document, in cursor order |
| RouteHandlers.AllDocsComplete | src/utils/routeHandlers.js:7-8 | every stored document is listed, and only those |
| RouteHandlers.HandleGet | src/utils/routeHandlers.js:5-12 | 200 with every document |
| RouteHandlers.Hashed | src/utils/routeHandlers.js:33-36 | for a password bcrypt accepts, only a truthy password changes, to its digest |
| RouteHandlers.HandlePost | src/utils/routeHandlers.js:15-45 | 400 naming the missing fields and nothing inserted; 500 and nothing inserted when bcrypt refuses the password; otherwise one insert and 201 with the stored document |
| RouteHandlers.PostRefusal | src/utils/routeHandlers.js:27-30 | refused exactly when a required field is falsy; the message lists those fields in declaration order |
| RouteHandlers.HandlePut | src/utils/routeHandlers.js:48-82 | missing fields, then a malformed id, then an empty body each give 400 with the store untouched; `_id` is never written; an id naming no document gives 404; the id is read in either letter case |
| RouteHandlers.EmptyBodyCaughtEarlier | src/utils/routeHandlers.js:53-64 | with a required field, a body that passed the field check is never empty |
| RouteHandlers.HandleDelete | src/utils/routeHandlers.js:85-103 | 400 for a malformed id, 404 when it names no document, otherwise exactly the document it names goes |
| ClientList.GetAllClients | backEnd/src/controllers/clientListController.js:2-9 | 200 with every client |
| ClientList.AddClient | backEnd/src/controllers/clientListController.js:11-22 | 400 and nothing stored unless the three identifying fields are truthy; otherwise the body stored as sent and 201 |
| ClientList.StripTruthyId | backEnd/src/controllers/clientListController.js:26-28 | a truthy `_id` is removed and every other field kept |
| ClientList.NoDataUnreachable | backEnd/src/controllers/clientListController.js:31-37 | a payload that passed the field check is never empty |
| ClientList.UpdateClient | backEnd/src/controllers/clientListController.js:24-53 | 400 without the three fields; 500 for a malformed id or a falsy `_id`; 404 when the id names no client; otherwise the merge into that client and 200 |
| ClientList.DeleteClient | backEnd/src/controllers/clientListController.js:55-70 | 400 for a malformed id, 404 when it names no client, otherwise exactly that client goes |
| ApiRoutes.CompanyAdd | backEnd/src/routes/apiRoutes.js:209-219 | 409 with the store unchanged when a company exists; otherwise the checked insert, including its 400 and 500 refusals; starting from at most one company record, never leaves two |
| ApiRoutes.CompanyUpdate | backEnd/src/routes/apiRoutes.js:222-268 | a malformed id, then missing `name`/`description` give 400; an id naming no company gives 404; otherwise only the supplied fields are overwritten |
| ApiRoutes.FieldNamesDistinct | backEnd/src/routes/apiRoutes.js:302-335 | the estimate's field groups do not overlap |
| ApiRoutes.TruthyCopies | backEnd/src/routes/apiRoutes.js:327-335 | the three conditional copies add exactly the truthy partners |
| ApiRoutes.ListedPartnersStep | backEnd/src/routes/apiRoutes.js:338-345 | one more key of the `forEach` copies a partner key and skips any other |
| ApiRoutes.ListedAllPartners | backEnd/src/routes/apiRoutes.js:338-345 | with no truthy partner, the pass copies the partner keys the body has |
| ApiRoutes.CopyListedPartners | backEnd/src/routes/apiRoutes.js:338-345 | the `forEach` loop copies exactly the listed partner keys |
| ApiRoutes.BuildEstimate | backEnd/src/routes/apiRoutes.js:302-345 | the step-by-step build yields the estimate document |
| ApiRoutes.EstimateKeepsBase | backEnd/src/routes/apiRoutes.js:302-316 | fields other than delivery and partners keep their base value |
| ApiRoutes.EstimateDefaults | backEnd/src/routes/apiRoutes.js:302-316 | each defaulted field holds the body's truthy value or its default (`''`, `[]`, 0, `Brouillon`, false); the date is set |
| ApiRoutes.DeliveryPointsKinds | backEnd/src/routes/apiRoutes.js:319 | `pointsLivraison.length > 0` holds for a non-empty list or text and for an object whose own `length` field is above zero (a positive number exactly when it is a number), and for no other value |
| ApiRoutes.EstimateDelivery | backEnd/src/routes/apiRoutes.js:319-324 | delivery points whose `length` is above zero are stored, otherwise a truthy arrival address, never both |
| ApiRoutes.EstimatePartners | backEnd/src/routes/apiRoutes.js:327-345 | each truthy partner is copied; a falsy one only when none is truthy; no unknown field is kept |
| ApiRoutes.EstimateAdd | backEnd/src/routes/apiRoutes.js:276-460 | the built estimate is inserted and 201 names its id |
| ApiRoutes.MessageData | backEnd/src/routes/apiRoutes.js:757-763 | the stored message has the five fields; `phone` defaults to `''` and the date to the time of receipt |
| ApiRoutes.MessageAdd | backEnd/src/routes/apiRoutes.js:747-823 | 400 and nothing stored unless name, email and message are truthy; otherwise one insert and 201 |
| ApiRoutes.NewUser | backEnd/src/routes/apiRoutes.js:883-900 | for a text password, the new user's password is its digest; the role is "user" unless given |
| ApiRoutes.AddKeepsMailsDistinct | backEnd/src/routes/apiRoutes.js:888-901 | adding a user whose mail is not taken keeps mails distinct |
| ApiRoutes.UsersAdd | backEnd/src/routes/apiRoutes.js:878-906 | non-admin 403, incomplete 400, taken mail 409, a password bcrypt refuses 500, each storing nothing; otherwise one hashed user and 201; mails stay distinct |
| ApiRoutes.UserPatch | backEnd/src/routes/apiRoutes.js:926-933 | for a password bcrypt accepts: `_id` stripped; an empty password dropped; a truthy one hashed; every other field as sent |
| ApiRoutes.EmptyPasswordKeepsStored | backEnd/src/routes/apiRoutes.js:928 | an empty password keeps the stored one |
| ApiRoutes.UsersUpdate | backEnd/src/routes/apiRoutes.js:920-946 | non-admin 403; a password bcrypt refuses leaves the request unanswered and the store unchanged; a malformed id 500; no match 404; otherwise the cleaned payload is merged into the user the id names |
| ApiRoutes.UsersDelete | backEnd/src/routes/apiRoutes.js:949-964 | non-admin 403; a malformed id 500; no match 404; otherwise exactly the user the id names goes |
| ApiRoutes.FindForUser | backEnd/src/routes/apiRoutes.js:134-136 | the user's entry when one exists, the fallback exactly when none does |
| ApiRoutes.NotesGet | backEnd/src/routes/apiRoutes.js:171-179 | the stored notes, or `{ userId, notes: [] }` |
| ApiRoutes.NotesSaved | backEnd/src/routes/apiRoutes.js:186-195 | a saved entry holds the user id, the notes or `[]`, and the time, keeping other fields |
| ApiRoutes.NotesPost | backEnd/src/routes/apiRoutes.js:181-206 | an upsert keyed on the user, then 200 |
| ApiRoutes.SettingsGet | backEnd/src/routes/apiRoutes.js:132-140 | the stored settings, or `{ autoRefreshInterval: 60000 }` |
| ApiRoutes.SettingsPatch | backEnd/src/routes/apiRoutes.js:148-157 | the interval sent, or 60000 |
| ApiRoutes.SettingsPost | backEnd/src/routes/apiRoutes.js:142-168 | an upsert keyed on the user, then 200 echoing the interval |
| ApiRoutes.ImageValue | backEnd/src/routes/apiRoutes.js:1034 | `undefined` or `null` clears the image to `''` |
| ApiRoutes.SetOneField | backEnd/src/routes/apiRoutes.js:1050-1053 | a one-field `$set` updates that field only |
| ApiRoutes.PatchImage | backEnd/src/routes/apiRoutes.js:1030-1099 | 400 for a malformed id, 404 when it names no company, otherwise only the logo (or stamp) of that company changes |
| ApiRoutes.LogoGet | backEnd/src/routes/apiRoutes.js:987-1027 | 400 for a malformed id, 404 without a company or a logo; `{ logo, type: 'external' }` for a logo starting with `http`; otherwise the stored file when it exists, 404 when it does not; a non-text logo 500 |
| Middleware.LocalOriginInjective | src/utils/middleware.js:19-49 | two localhost origins are the same text only for the same port |
| Middleware.PortOriginsMembership | src/utils/middleware.js:49 | a generated run holds exactly the origins of its ports |
| Middleware.AllowedOriginsExactly | src/utils/middleware.js:18-50 | the list holds exactly port 3000 and ports 5173 to 5272 of localhost |
| Middleware.AllowedPorts | src/utils/middleware.js:18-52 | a localhost port is allowed exactly when it is 3000 or lies in 5173 to 5272 |
| Middleware.CheckOrigin | src/utils/middleware.js:13-57 | no origin is allowed; a listed origin is allowed; any other is refused with "Not allowed by CORS" |
| Middleware.RangeEdges | src/utils/middleware.js:18-56 | 5173 and 5272 are allowed; 5172, 5273 and 3001 are refused |
| Middleware.AllowOrigin | src/utils/middleware.js:78-83 | the request origin is echoed when present, `*` otherwise |
| Middleware.CorsHeaders | src/utils/middleware.js:76-96 | sets the five headers; an `OPTIONS` request is answered 200 and stops there |
| Middleware.BearerSplit | src/utils/middleware.js:108 | after `Bearer `, the second piece is the text up to the next space |
| Middleware.SplitHead | src/utils/middleware.js:108 | the first piece of a split is the text before the first separator |
| Middleware.TokenShape | src/utils/middleware.js:108 | the token follows the prefix, holds no space, and ends the header or meets a space |
| Middleware.VerifyToken | src/utils/middleware.js:103-116 | 401 without a `Bearer ` header and without verifying; 401 for a refused token; otherwise the request passes with the payload as `req.user` |

## Left out

- E-mail notifications (nodemailer) and their HTML templates in the estimate, message and user routes: I/O whose failures are swallowed.
- The bcrypt salt: `Hash` is a symbolic digest, distinct from the password and truthy, and identical for equal passwords.
- JWT signature and expiry checking: `verify` is a parameter of `Middleware.VerifyToken`.
- The `cors` package beyond the `origin` option, and `server.js` (helmet, compression, rate limiting, static files, `listen`).
- `bd.js`: connection pooling, reconnection, indexes, mock collections and signal handlers.
- Route registration (`crudRouter.js`, `clientRoutes.js`, `transporteurRoutes.js`, `clientListRoutes.js`, `optimizedRoutes.js`): it only wires handlers.
- The multer upload routes `/upload/logo` and `/upload/stamp` (backEnd/src/routes/apiRoutes.js:970 and :1062): file storage on disk.
- The other API routes, none of them part of this model:
  - estimate update and listing;
  - invoices and transport orders;
  - transport conditions;
  - login;
  - the user list;
  - the phone route;
  - the health, company-info and test routes.
- The clock, ISO time text and fresh ObjectIds: parameters (`now`, `isoNow`, `newId`, `ids`).
- Sort order: the cursor order of a sorted find is a parameter (`order`), required to list each document once. The order the sort produces is not modelled.
- The order in which `distinct` returns values: a parameter (`listed`), required to list each stored value once.
- Aggregation pipelines (`getStatsBySecteur`, `getStatsByTaille`, `getStatsByTypeTransport`, `getStatsByPays`): they read the unset `this.collection` (see Findings). The model keeps them as written, always 500. The intended group-and-count is not modelled.
- Floating point: numbers are integers, so a fractional page, limit or capacity is out of scope.
- `ObjectId.isValid` also accepts any 12-character string. `Documents.ValidId` accepts only 24 hexadecimal characters, the external identifier format.
- Documents.Collection.InsertOne: MongoDB keeps an `_id` supplied in an inserted body; the model always stores under the fresh id and drops a body `_id`. The same holds for Documents.Collection.InsertMany and Documents.Keyed (each batch entry), Service.Timestamped and Service.Stamped (the create and bulk records), and the inserting routes RouteHandlers.HandlePost, ClientList.AddClient and ApiRoutes.CompanyAdd: "stored as sent" means without a body `_id`.
- Documents.Collection.UpdateOne: every key of the `$set` document is merged as a literal top-level field. MongoDB reads a dotted key such as `contactPrincipal.nom` as a path into the nested object. It also refuses a key that starts with `$` or is empty: the update throws and the caller's `catch` answers. The update routes that hand a request body to `$set` inherit this through their contracts: Service.CrudService.Update (and the controller's Update), RouteHandlers.HandlePut, ClientList.UpdateClient, ApiRoutes.CompanyUpdate and ApiRoutes.UsersUpdate.
- ApiRoutes.UsersAdd: the body's `mail` is compared with the stored mails as a literal value. MongoDB's `findOne({ mail })` reads an object mail such as `{ "$ne": null }` as an operator: it matches any user that has a mail, and the route answers 409. The model finds no equal mail and stores the user.
- Database and driver failures (the `catch` paths taken when a call to the store throws) are not modelled. The `catch` paths taken when the handler's own code throws are modelled: a malformed ObjectId, an unreadable e-mail value, and the unset collection. Concurrency (`Promise.all`) is not modelled.
- The `customValidation` hooks are never called by `CrudService`, so the model keeps them standalone and does not wire them into `create` or `update`.
- ClientList.UpdateClient: the 500 body's `details` and `stack` fields are not modelled; only the status and the error text are.
- ApiRoutes.CompanyUpdate: for an `_id` in the body, only the 500 status is stated, not the body.
- ApiRoutes.UsersUpdate: for a malformed id or a leftover falsy `_id`, only the 500 status is stated, not the body.
- ApiRoutes.UsersDelete: for a malformed id, only the 500 status is stated, not the body.
- ApiRoutes.LogoGet: `res.sendFile` is modelled as sending the stored name, not the path resolved against the upload directory. A non-text logo is stated as 500, without its body.
- JsValues.ToJsString: `String(v)` of a date or a bcrypt digest is a fixed placeholder text, not JavaScript's date text or the digest's characters.
- JsValues.ParseIntRoundTrip: JavaScript writes an integer of magnitude 10^21 or more in exponent form (`String(1e21)` is "1e+21", which `parseInt` reads as 1); the model writes every integer in decimal, so the round trip is stated only below 10^21.
- Service.SearchMatches: `$regex` with option `i` is a regular expression; the model reads the search as literal text. Metacharacters (`a.c` matching "abc") and anchors (`^Par`) are taken literally, and case folding covers ASCII letters only ("é" and "É" differ).
- Service.BuildQuery: a search that is not a valid pattern, such as "+33" or "(", makes the database refuse the find; the model builds the query and matches it as literal text.
- Service.CrudService.FindAll: an invalid search pattern fails the listing with the read error in the source; the model lists the documents containing the search text.
- Controller.CrudController.FindAll: an invalid search pattern answers 400 in the source; the model answers 200 with the literal-text matches.
- Controller.TextFilterMatches: the case-insensitive filter is read as literal, ASCII-folded containment, not as a regular expression.
- Clients.FindBySecteurActivite: the sector is read as literal, ASCII-folded text, not as a regular expression; an invalid pattern is not refused.
- Commissionnaires.FindByPays: the country is read as literal, ASCII-folded text, not as a regular expression; an invalid pattern is not refused.
- Controller.FindAllOptions: a query value is compared as a literal value. Express 4's extended query parser turns `?statut[$ne]=x` into the object `{ $ne: 'x' }`, which the source's spread hands to MongoDB as an operator; operator objects in the query string are not modelled. Likewise a query key that starts with `$` (`?$or=abc`, `?$where=…`) is passed on as a top-level query operator, which the database refuses or evaluates (a refusal makes the listing fail with 400); the model compares it as a plain field, so Controller.CrudController.FindAll answers 200 with the documents equal on that field (none, for a field no document holds).
- JsValues.AboveZero: JavaScript converts a text or an array to a number before comparing (`"3" > 0` holds), so an object's `length` field sent as text counts as delivery points in the source and not in the model (ApiRoutes.HasDeliveryPoints, ApiRoutes.BuildEstimate, ApiRoutes.EstimateAdd).

## Findings

| source | as written | input that shows it | evidently intended | confidence | as-written member | corrected member |
|---|---|---|---|---|---|---|
| src/controllers/clientController.js:281 | `this.collection.distinct(...)`, but no controller assigns `this.collection`: the base constructor keeps only the service. This rests on backEnd/src/utils/crudController.js:5-8; the copy under src/utils that this controller extends is not part of this model | any `GET` of the sectors: the call throws and the answer is 500 | the truthy distinct sectors of the client collection, 200 | not executed | Clients.GetSecteursActiviteAsWritten | Clients.GetSecteursActivite |
| src/controllers/commissionnaireController.js:174 | `this.collection.distinct('specialites')` on the unset field, as read from backEnd/src/utils/crudController.js:5-8 (the src/utils copy is not part of this model) | any `GET` of the specialities: 500 | the truthy distinct specialities, 200 | not executed | Commissionnaires.GetSpecialitesAsWritten | Commissionnaires.GetSpecialites |
| backEnd/src/controllers/transporteurController.js:250 | `this.collection.distinct(...)` on the unset field | any `GET` of the transport types: 500 | the truthy distinct transport types, 200 | not executed | Transporteurs.GetTypesTransportAsWritten | Transporteurs.GetTypesTransport |
| backEnd/src/controllers/transporteurController.js:269 | `this.collection.distinct(...)` on the unset field | any `GET` of the zones: 500 | the truthy distinct zones, 200 | not executed | Transporteurs.GetZonesGeographiquesAsWritten | Transporteurs.GetZonesGeographiques |

=== FILE: api_routes.dfy ===
/**
 * The request rules of the main API router: the single company record,
 * the estimate payload, contact messages, user administration, per-user
 * notes and settings, and the company logo and stamp.
 */
module ApiRoutes {
  import opened Wrappers
  import opened JsValues
  import opened Seqs
  import opened Documents
  import opened Http
  import opened Service
  import opened RouteHandlers

  // The answers of these routes.
  const CompanyExistsText: string := "Une fiche entreprise existe déjà. Veuillez la modifier."
  const CompanyNotFoundText: string := "Entreprise non trouvée"
  const CompanyUpdatedText: string := "Informations modifiées avec succès"
  const CompanyUpdateFailedText: string := "Erreur lors de la modification des informations"
  const EstimateCreatedText: string := "Devis créé avec succès"
  const MessageIncompleteText: string := "Nom, email et message sont requis"
  const MessageSentText: string := "Message envoyé avec succès"
  const AdminRequiredText: string := "Accès refusé - Admin requis"
  const AccessDeniedText: string := "Accès refusé"
  const UserIncompleteText: string := "Nom, email et mot de passe requis"
  const MailTakenText: string := "Un utilisateur avec cet email existe déjà."
  const UserCreatedText: string := "Utilisateur créé avec succès."
  const UserUpdateFailedText: string := "Erreur lors de la modification de l'utilisateur"
  const UserNotFoundText: string := "Utilisateur non trouvé"
  const UserUpdatedText: string := "Utilisateur mis à jour"
  const UserDeleteFailedText: string := "Erreur lors de la suppression de l'utilisateur"
  const UserDeletedText: string := "Utilisateur supprimé"
  const NotesSavedText: string := "Notes sauvegardées avec succès"
  const SettingsSavedText: string := "Paramètres sauvegardés avec succès"
  const LogoMissingText: string := "Logo non trouvé"
  const LogoFileMissingText: string := "Fichier logo non trouvé"
  const LogoFailedText: string := "Erreur lors de la récupération du logo"
  const BadIdText: string := "ID invalide"
  const UserAddFailedText: string := "Erreur lors de l'ajout de l'utilisateur"

  function ErrorJson(text: string): Value {
    Obj(map["error" := Str(text)])
  }

  function MessageJson(text: string): Value {
    Obj(map["message" := Str(text)])
  }

  /** `{ success: true, message, id: result.insertedId }` */
  function CreatedJson(text: string, id: Id): Value {
    Obj(map["success" := Bool(true), "message" := Str(text), "id" := Str(id)])
  }

  // ------------------------------------------------------------- company

  const CompanyRequired: seq<string> := ["name", "description"]

  /**
   * `POST /myCompanyInfo/add`: refused with 409 whenever a company record
   * exists; otherwise the legacy insert with `name` and `description`
   * required. Starting from at most one company record, it never leaves two.
   */
  method CompanyAdd(c: Collection, req: Request, res: Response, newId: Id)
    requires c.Valid() && res.Fresh() && CanonicalId(newId) && newId !in c.docs
    modifies c, res
    ensures c.Valid() && res.finished && res.headers == old(res.headers)
    ensures old(c.docs) != map[] ==>
      && res.status == 409
      && res.body == Json(ErrorJson(CompanyExistsText))
      && c.docs == old(c.docs)
    ensures old(c.docs) == map[] ==>
      var missing := MissingFields(CompanyRequired, req.body);
      && (missing != [] ==> res.status == 400 && res.body == Text(MissingText(missing)) && c.docs == map[])
      && (missing == [] && !PasswordAccepted(req.body) ==>
            res.status == 500 && res.body == Text(InsertErrorText) && c.docs == map[])
      && (missing == [] && PasswordAccepted(req.body) ==>
            res.status == 201 && c.docs == map[newId := WithoutId(RouteHandlers.Hashed(req.body))])
    ensures |old(c.docs)| <= 1 ==> |c.docs| <= 1
  {
    var existing := c.FindAny();
    if existing.Some? {
      res.Reply(409, ErrorJson(CompanyExistsText));
      return;
    }
    HandlePost(c, req, res, CompanyRequired, newId);
  }

  function CompanyMissingText(missing: seq<string>): string {
    "Champs requis manquants: " + Join(missing, ", ")
  }

  /**
   * `PUT /myCompanyInfo/update/:id`: a malformed id, then missing
   * `name`/`description` (400), then an unknown id (404); the body is then
   * merged as sent, and an `_id` in it is refused by the database (500).
   */
  method CompanyUpdate(c: Collection, req: Request, res: Response)
    requires c.Valid() && res.Fresh()
    modifies c, res
    ensures c.Valid() && res.finished && res.headers == old(res.headers)
    ensures var id := Param(req, "id");
      var missing := MissingFields(CompanyRequired, req.body);
      && (!ValidId(id) ==> res.status == 400 && res.body == Json(ErrorJson(BadIdText)))
      && (ValidId(id) && missing != [] ==> res.status == 400 && res.body == Json(ErrorJson(CompanyMissingText(missing))))
      && (ValidId(id) && missing == [] && ObjectIdOf(id) !in old(c.docs) ==>
            res.status == 404 && res.body == Json(ErrorJson(CompanyNotFoundText)))
      && (ValidId(id) && missing == [] && ObjectIdOf(id) in old(c.docs) && "_id" in req.body ==> res.status == 500)
      && (ValidId(id) && missing == [] && ObjectIdOf(id) in old(c.docs) && "_id" !in req.body ==>
            var k := ObjectIdOf(id);
            && res.status == 200
            && res.body == Json(Obj(map["success" := Bool(true), "message" := Str(CompanyUpdatedText), "updatedData" := Obj(req.body)]))
            && c.docs == old(c.docs)[k := old(c.docs)[k] + req.body])
      && (res.status != 200 ==> c.docs == old(c.docs))
  {
    var id := Param(req, "id");
    var updatedData := req.body;
    if !ValidId(id) {
      res.Reply(400, ErrorJson(BadIdText));
      return;
    }
    var missing := MissingFields(CompanyRequired, updatedData);
    if |missing| > 0 {
      res.Reply(400, ErrorJson(CompanyMissingText(missing)));
      return;
    }
    var key := ObjectIdOf(id);
    var existing := c.FindOne(key);
    if existing.None? {
      res.Reply(404, ErrorJson(CompanyNotFoundText));
      return;
    }
    var result := c.UpdateOne(key, updatedData);
    if result == ImmutableId {
      res.Reply(500, ErrorJson(CompanyUpdateFailedText));
      return;
    }
    res.SendJson(Obj(map["success" := Bool(true), "message" := Str(CompanyUpdatedText), "updatedData" := Obj(updatedData)]));
  }

  // ------------------------------------------------------------- estimates

  const Partners: seq<string> := ["client", "transporteur", "commissionnaire"]

  /** The fields of the estimate literal that fall back to a default when the body's value is falsy. */
  const DefaultedFields: set<string> :=
    {"devisID", "companyInfo", "items", "totalHT", "tvaRate", "tva", "totalTTC", "route", "adresseDepart",
     "status", "message", "tvaManuallyModified"}

  /** The default of each such field: {} for objects, [] for items, 0 for amounts, "Brouillon" for the status. */
  function Default(f: string): Value {
    if f == "companyInfo" || f == "route" || f == "adresseDepart" then Obj(map[])
    else if f == "items" then Arr([])
    else if f == "totalHT" || f == "tvaRate" || f == "tva" || f == "totalTTC" then Num(0)
    else if f == "status" then Str("Brouillon")
    else if f == "tvaManuallyModified" then Bool(false)
    else Str("")
  }

  /** Every field the estimate route may keep; every other field of the body is dropped. */
  const EstimateFields: set<string> := DefaultedFields + {"date", "pointsLivraison", "adresseArrivee"} + set p | p in Partners

  /** The defaulted fields, the date, the delivery fields and the partners are distinct names. */
  lemma FieldNamesDistinct()
    ensures "date" !in DefaultedFields && "pointsLivraison" !in DefaultedFields && "adresseArrivee" !in DefaultedFields
    ensures forall p | p in Partners :: p !in DefaultedFields && p != "date" && p != "pointsLivraison" && p != "adresseArrivee"
    ensures "_id" !in EstimateFields
  {
  }

  /** The object literal the estimate starts from: each defaulted field, and the creation time as ISO text. */
  function EstimateBase(body: Record, isoNow: string): Record {
    (map f | f in DefaultedFields :: Or(Get(body, f), Default(f)))["date" := Str(isoNow)]
  }

  /** `pointsLivraison && pointsLivraison.length > 0` */
  predicate HasDeliveryPoints(v: Value) {
    Truthy(v) && AboveZero(LengthProperty(v))
  }

  /**
   * Which delivery points pass the test: a non-empty list or text, and an
   * object whose own `length` field is above zero; nothing else.
   */
  lemma DeliveryPointsKinds(v: Value)
    ensures v.Arr? ==> (HasDeliveryPoints(v) <==> |v.items| > 0)
    ensures v.Str? ==> (HasDeliveryPoints(v) <==> |v.s| > 0)
    ensures v.Obj? ==>
      (HasDeliveryPoints(v) <==> "length" in v.fields && AboveZero(v.fields["length"]))
    ensures v.Obj? && "length" in v.fields && v.fields["length"].Num? ==>
      (HasDeliveryPoints(v) <==> v.fields["length"].n > 0)
    ensures !(v.Arr? || v.Str? || v.Obj?) ==> !HasDeliveryPoints(v)
  {
  }

  predicate AnyPartner(body: Record) {
    Truthy(Get(body, "client")) || Truthy(Get(body, "transporteur")) || Truthy(Get(body, "commissionnaire"))
  }

  /** The base with the delivery points (new format) or else a truthy arrival address (old format). */
  function WithDelivery(body: Record, isoNow: string): Record {
    var base := EstimateBase(body, isoNow);
    if HasDeliveryPoints(Get(body, "pointsLivraison")) then base["pointsLivraison" := body["pointsLivraison"]]
    else if Truthy(Get(body, "adresseArrivee")) then base["adresseArrivee" := body["adresseArrivee"]]
    else base
  }

  /**
   * The partner fields the estimate copies: the truthy ones; when none is
   * truthy, whichever of the three keys the body has, falsy values included.
   */
  predicate CopiesPartner(body: Record, p: string) {
    p in Partners && p in body && (Truthy(body[p]) || !AnyPartner(body))
  }

  /** The partner fields the estimate copies, with the body's values. */
  function CopiedPartners(body: Record): map<string, Value> {
    map p | p in body && CopiesPartner(body, p) :: body[p]
  }

  /** The document `POST /estimate/add` stores. */
  function Estimate(body: Record, isoNow: string): Record {
    WithDelivery(body, isoNow) + CopiedPartners(body)
  }

  /** The body's keys in the order `Object.keys` lists them. */
  ghost predicate ListsKeys(keys: seq<string>, body: Record) {
    forall k :: k in keys <==> k in body
  }

  /** `if (partner) estimateData[p] = partner` */
  function CopyIfTruthy(e: Record, body: Record, p: string): Record {
    if Truthy(Get(body, p)) then e[p := body[p]] else e
  }

  /** With some partner truthy, the three conditional copies add exactly the copied partners. */
  lemma TruthyCopies(d: Record, body: Record)
    requires AnyPartner(body)
    ensures CopyIfTruthy(CopyIfTruthy(CopyIfTruthy(d, body, "client"), body, "transporteur"), body, "commissionnaire")
      == d + CopiedPartners(body)
  {
    var l := CopyIfTruthy(CopyIfTruthy(CopyIfTruthy(d, body, "client"), body, "transporteur"), body, "commissionnaire");
    var r := d + CopiedPartners(body);
    forall k | k in l
      ensures k in r && l[k] == r[k]
    {
      if k in Partners && k in body && Truthy(body[k]) {
        assert CopiesPartner(body, k);
      }
    }
    forall k | k in r
      ensures k in l
    {
    }
  }

  /** The partner keys among `ks` that the body has, with its values. */
  function ListedPartners(body: Record, ks: seq<string>): map<string, Value> {
    map p | p in body && p in Partners && p in ks :: body[p]
  }

  /** One more key of the `forEach` pass: a partner key is copied, any other skipped. */
  lemma ListedPartnersStep(d: Record, body: Record, ks: seq<string>, k: string)
    requires k in body
    ensures d + ListedPartners(body, ks + [k])
      == if k in Partners then (d + ListedPartners(body, ks))[k := body[k]] else d + ListedPartners(body, ks)
  {
    var l := d + ListedPartners(body, ks + [k]);
    var r := if k in Partners then (d + ListedPartners(body, ks))[k := body[k]] else d + ListedPartners(body, ks);
    forall x | x in l
      ensures x in r && l[x] == r[x]
    {
    }
    forall x | x in r
      ensures x in l
    {
    }
  }

  /** With no partner truthy, a pass over all the body's keys copies exactly the copied partners. */
  lemma ListedAllPartners(body: Record, keys: seq<string>)
    requires ListsKeys(keys, body) && !AnyPartner(body)
    ensures ListedPartners(body, keys) == CopiedPartners(body)
  {
  }

  /** `Object.keys(req.body).forEach(...)`: each partner key among `keys` is copied from the body, in turn. */
  method CopyListedPartners(start: Record, body: Record, keys: seq<string>) returns (e: Record)
    requires forall k | k in keys :: k in body
    ensures e == start + ListedPartners(body, keys)
  {
    e := start;
    assert ListedPartners(body, keys[..0]) == map[];
    for i := 0 to |keys|
      invariant e == start + ListedPartners(body, keys[..i])
    {
      var key := keys[i];
      assert keys[..i + 1] == keys[..i] + [key];
      ListedPartnersStep(start, body, keys[..i], key);
      if key in Partners {
        e := e[key := body[key]];
      }
    }
    assert keys[..|keys|] == keys;
  }

  /**
   * The estimate built step by step as the route does: the base literal,
   * the delivery fields, the truthy partners, then, when no partner was
   * truthy, a pass over the body's keys copying the partner keys it has.
   */
  method BuildEstimate(body: Record, keys: seq<string>, isoNow: string) returns (e: Record)
    requires ListsKeys(keys, body)
    ensures e == Estimate(body, isoNow)
  {
    e := EstimateBase(body, isoNow);
    var pointsLivraison := Get(body, "pointsLivraison");
    var adresseArrivee := Get(body, "adresseArrivee");
    if HasDeliveryPoints(pointsLivraison) {
      e := e["pointsLivraison" := pointsLivraison];
    } else if Truthy(adresseArrivee) {
      e := e["adresseArrivee" := adresseArrivee];
    }
    ghost var delivered := e;
    assert delivered == WithDelivery(body, isoNow);
    var client := Get(body, "client");
    var transporteur := Get(body, "transporteur");
    var commissionnaire := Get(body, "commissionnaire");
    if Truthy(client) {
      e := e["client" := client];
    }
    assert e == CopyIfTruthy(delivered, body, "client");
    if Truthy(transporteur) {
      e := e["transporteur" := transporteur];
    }
    assert e == CopyIfTruthy(CopyIfTruthy(delivered, body, "client"), body, "transporteur");
    if Truthy(commissionnaire) {
      e := e["commissionnaire" := commissionnaire];
    }
    if !Truthy(client) && !Truthy(transporteur) && !Truthy(commissionnaire) {
      e := CopyListedPartners(e, body, keys);
      ListedAllPartners(body, keys);
    } else {
      TruthyCopies(delivered, body);
    }
  }

  /** A field other than the delivery and partner fields keeps its value from the base literal. */
  lemma EstimateKeepsBase(body: Record, isoNow: string, f: string)
    requires f !in Partners && f != "pointsLivraison" && f != "adresseArrivee"
    ensures f in Estimate(body, isoNow) <==> f in EstimateBase(body, isoNow)
    ensures f in EstimateBase(body, isoNow) ==> Estimate(body, isoNow)[f] == EstimateBase(body, isoNow)[f]
  {
  }

  /** Each defaulted field holds the body's value when truthy and its default otherwise; the creation time is always set. */
  lemma EstimateDefaults(body: Record, isoNow: string)
    ensures var e := Estimate(body, isoNow);
      && (forall f | f in DefaultedFields :: f in e && e[f] == if Truthy(Get(body, f)) then body[f] else Default(f))
      && "date" in e && e["date"] == Str(isoNow)
  {
    FieldNamesDistinct();
    var e := Estimate(body, isoNow);
    forall f | f in DefaultedFields
      ensures f in e && e[f] == if Truthy(Get(body, f)) then body[f] else Default(f)
    {
      EstimateKeepsBase(body, isoNow, f);
    }
    EstimateKeepsBase(body, isoNow, "date");
  }

  /**
   * An estimate carries the delivery points when their `length` is above
   * zero (a non-empty list or text, or an object with a positive `length`
   * field), otherwise the arrival address when truthy, never both.
   */
  lemma EstimateDelivery(body: Record, isoNow: string)
    ensures var e := Estimate(body, isoNow);
      && ("pointsLivraison" in e <==> HasDeliveryPoints(Get(body, "pointsLivraison")))
      && ("adresseArrivee" in e <==> !HasDeliveryPoints(Get(body, "pointsLivraison")) && Truthy(Get(body, "adresseArrivee")))
      && ("pointsLivraison" in e ==> e["pointsLivraison"] == body["pointsLivraison"])
      && ("adresseArrivee" in e ==> e["adresseArrivee"] == body["adresseArrivee"])
  {
    FieldNamesDistinct();
  }

  /**
   * Every truthy partner is copied unchanged; a partner field appears only
   * as the body sent it; a falsy one appears only when no partner is
   * truthy. No field outside the known ones is kept.
   */
  lemma EstimatePartners(body: Record, isoNow: string)
    ensures var e := Estimate(body, isoNow);
      && (forall p | p in Partners && Truthy(Get(body, p)) :: p in e && e[p] == body[p])
      && (forall p | p in Partners && p in e :: p in body && e[p] == body[p])
      && (forall p | p in Partners && p in e && !Truthy(body[p]) :: !AnyPartner(body))
      && e.Keys <= EstimateFields
  {
    FieldNamesDistinct();
  }

  /** `POST /estimate/add`: the built estimate is inserted and 201 names its id. */
  method EstimateAdd(c: Collection, req: Request, res: Response, keys: seq<string>, isoNow: string, newId: Id)
    requires c.Valid() && res.Fresh() && CanonicalId(newId) && newId !in c.docs && ListsKeys(keys, req.body)
    modifies c, res
    ensures c.Valid() && res.finished && res.headers == old(res.headers)
    ensures c.docs == old(c.docs)[newId := Estimate(req.body, isoNow)]
    ensures res.status == 201 && res.body == Json(CreatedJson(EstimateCreatedText, newId))
  {
    var estimate := BuildEstimate(req.body, keys, isoNow);
    EstimatePartners(req.body, isoNow);
    FieldNamesDistinct();
    assert WithoutId(estimate) == estimate;
    c.InsertOne(newId, estimate);
    res.Reply(201, CreatedJson(EstimateCreatedText, newId));
  }

  // ------------------------------------------------------ received messages

  /** The stored contact message: phone defaults to "" and the date to the time of receipt. */
  function MessageData(body: Record, isoNow: string): (m: Record)
    ensures m.Keys == {"name", "email", "phone", "message", "date"}
    ensures m["phone"] == (if Truthy(Get(body, "phone")) then body["phone"] else Str(""))
    ensures m["date"] == (if Truthy(Get(body, "date")) then body["date"] else Str(isoNow))
  {
    map[
      "name" := Get(body, "name"),
      "email" := Get(body, "email"),
      "phone" := Or(Get(body, "phone"), Str("")),
      "message" := Get(body, "message"),
      "date" := Or(Get(body, "date"), Str(isoNow))]
  }

  /** `POST /receivedMessage/add`: 400 and nothing stored unless name, email and message are truthy. */
  method MessageAdd(c: Collection, req: Request, res: Response, isoNow: string, newId: Id)
    requires c.Valid() && res.Fresh() && CanonicalId(newId) && newId !in c.docs
    modifies c, res
    ensures c.Valid() && res.finished && res.headers == old(res.headers)
    ensures var ok := Truthy(Get(req.body, "name")) && Truthy(Get(req.body, "email")) && Truthy(Get(req.body, "message"));
      && (!ok ==> res.status == 400 && res.body == Json(ErrorJson(MessageIncompleteText)) && c.docs == old(c.docs))
      && (ok ==>
            && res.status == 201
            && res.body == Json(CreatedJson(MessageSentText, newId))
            && c.docs == old(c.docs)[newId := MessageData(req.body, isoNow)])
  {
    var body := req.body;
    if !Truthy(Get(body, "name")) || !Truthy(Get(body, "email")) || !Truthy(Get(body, "message")) {
      res.Reply(400, ErrorJson(MessageIncompleteText));
      return;
    }
    var m := MessageData(body, isoNow);
    assert WithoutId(m) == m;
    c.InsertOne(newId, m);
    res.Reply(201, CreatedJson(MessageSentText, newId));
  }

  // ------------------------------------------------------------------ users

  /** `req.user && req.user.role === "admin"` */
  predicate IsAdmin(user: Value) {
    user.Obj? && Get(user.fields, "role") == Str("admin")
  }

  /** The user `POST /users/add` stores: the password hashed, the role "user" unless one was given. */
  function NewUser(body: Record): (u: Record)
    requires IsText(Get(body, "password"))
    ensures u.Keys == {"name", "mail", "password", "role"}
    ensures u["password"] == Hash(Get(body, "password"))
    ensures u["role"] == if Get(body, "role") == Undefined then Str("user") else Get(body, "role")
  {
    var role := Get(body, "role");
    map[
      "name" := Get(body, "name"),
      "mail" := Get(body, "mail"),
      "password" := Hash(Get(body, "password")),
      "role" := if role == Undefined then Str("user") else role]
  }

  /** No two users share a mail address. */
  predicate DistinctMails(docs: map<Id, Record>) {
    forall a, b | a in docs && b in docs && a != b :: Get(docs[a], "mail") != Get(docs[b], "mail")
  }

  /** Adding a user whose mail no stored user matches keeps the mails distinct. */
  lemma AddKeepsMailsDistinct(docs: map<Id, Record>, id: Id, u: Record)
    requires DistinctMails(docs) && id !in docs
    requires forall d | d in docs :: !EqMatches(Get(u, "mail"), Get(docs[d], "mail"))
    ensures DistinctMails(docs[id := u])
  {
  }

  /**
   * `POST /users/add`: non-admin 403, missing name/mail/password 400, a
   * mail already stored 409, a password bcrypt refuses 500, each with
   * nothing stored; otherwise one new user and 201.
   */
  method UsersAdd(users: Collection, req: Request, res: Response, newId: Id)
    requires users.Valid() && res.Fresh() && CanonicalId(newId) && newId !in users.docs
    modifies users, res
    ensures users.Valid() && res.finished && res.headers == old(res.headers)
    ensures var body := req.body;
      var complete := Truthy(Get(body, "name")) && Truthy(Get(body, "mail")) && Truthy(Get(body, "password"));
      var taken := exists d | d in old(users.docs) :: EqMatches(Get(body, "mail"), Get(old(users.docs)[d], "mail"));
      && (!IsAdmin(req.user) ==> res.status == 403 && res.body == Json(ErrorJson(AdminRequiredText)))
      && (IsAdmin(req.user) && !complete ==> res.status == 400 && res.body == Json(ErrorJson(UserIncompleteText)))
      && (IsAdmin(req.user) && complete && taken ==> res.status == 409 && res.body == Json(ErrorJson(MailTakenText)))
      && (IsAdmin(req.user) && complete && !taken && !IsText(Get(body, "password")) ==>
            res.status == 500 && res.body == Json(ErrorJson(UserAddFailedText)))
      && (IsAdmin(req.user) && complete && !taken && IsText(Get(body, "password")) ==>
            && res.status == 201
            && res.body == Json(MessageJson(UserCreatedText))
            && users.docs == old(users.docs)[newId := NewUser(body)])
      && (res.status != 201 ==> users.docs == old(users.docs))
    ensures DistinctMails(old(users.docs)) ==> DistinctMails(users.docs)
  {
    if !IsAdmin(req.user) {
      res.Reply(403, ErrorJson(AdminRequiredText));
      return;
    }
    var body := req.body;
    if !Truthy(Get(body, "name")) || !Truthy(Get(body, "mail")) || !Truthy(Get(body, "password")) {
      res.Reply(400, ErrorJson(UserIncompleteText));
      return;
    }
    var existing := users.FindOneWhere("mail", Get(body, "mail"));
    if existing.Some? {
      res.Reply(409, ErrorJson(MailTakenText));
      return;
    }
    var digest := BcryptHash(Get(body, "password"));
    if digest.Err? {
      res.Reply(500, ErrorJson(UserAddFailedText));
      return;
    }
    ghost var before := users.docs;
    var user := NewUser(body);
    assert WithoutId(user) == user;
    users.InsertOne(newId, user);
    if DistinctMails(before) {
      AddKeepsMailsDistinct(before, newId, user);
    }
    res.Reply(201, MessageJson(UserCreatedText));
  }

  /**
   * The `$set` of `PUT /users/update/:id`: a truthy `_id` removed, an empty
   * password removed, a truthy one hashed; every other field as sent.
   */
  function UserPatch(body: Record): (u: Record)
    requires PasswordAccepted(body)
    ensures Truthy(Get(body, "_id")) ==> "_id" !in u
    ensures Get(body, "password") == Str("") ==> "password" !in u
    ensures Truthy(Get(body, "password")) ==> "password" in u && u["password"] == Hash(body["password"])
    ensures forall f | f in body && f != "_id" && f != "password" :: f in u && u[f] == body[f]
    ensures forall f | f in u :: f in body
  {
    var a := if Truthy(Get(body, "_id")) then body - {"_id"} else body;
    var b := if Get(a, "password") == Str("") then a - {"password"} else a;
    if Truthy(Get(b, "password")) then b["password" := Hash(b["password"])] else b
  }

  /** Sending an empty password keeps the stored one. */
  lemma EmptyPasswordKeepsStored(stored: Record, body: Record)
    requires Get(body, "password") == Str("") && PasswordAccepted(body)
    ensures Get(stored + UserPatch(body), "password") == Get(stored, "password")
  {
  }

  /**
   * `PUT /users/update/:id`: non-admin 403; the payload is cleaned step by
   * step; a password bcrypt refuses is hashed outside the handler's `try`,
   * so no answer is ever sent; a malformed id makes `new ObjectId` throw
   * (500); no match 404; a falsy `_id` left in the payload is refused by
   * the database (500).
   */
  method UsersUpdate(users: Collection, req: Request, res: Response)
    requires users.Valid() && res.Fresh()
    modifies users, res
    ensures users.Valid() && res.headers == old(res.headers)
    ensures res.finished <==> !(IsAdmin(req.user) && !PasswordAccepted(req.body))
    ensures !IsAdmin(req.user) ==> res.status == 403 && res.body == Json(ErrorJson(AccessDeniedText))
    ensures IsAdmin(req.user) && !PasswordAccepted(req.body) ==> res.Fresh()
    ensures IsAdmin(req.user) && PasswordAccepted(req.body) ==>
      var id := Param(req, "id");
      var patch := UserPatch(req.body);
      && (!ValidId(id) ==> res.status == 500)
      && (ValidId(id) && ObjectIdOf(id) !in old(users.docs) ==>
            res.status == 404 && res.body == Json(ErrorJson(UserNotFoundText)))
      && (ValidId(id) && ObjectIdOf(id) in old(users.docs) && "_id" in patch ==> res.status == 500)
      && (ValidId(id) && ObjectIdOf(id) in old(users.docs) && "_id" !in patch ==>
            var k := ObjectIdOf(id);
            && res.status == 200
            && res.body == Json(MessageJson(UserUpdatedText))
            && users.docs == old(users.docs)[k := old(users.docs)[k] + patch])
    ensures res.status != 200 || !res.finished ==> users.docs == old(users.docs)
  {
    if !IsAdmin(req.user) {
      res.Reply(403, ErrorJson(AccessDeniedText));
      return;
    }
    var id := Param(req, "id");
    var updatedData := req.body;
    if Truthy(Get(updatedData, "_id")) {
      updatedData := updatedData - {"_id"};
    }
    if Get(updatedData, "password") == Str("") {
      updatedData := updatedData - {"password"};
    }
    if Truthy(Get(updatedData, "password")) {
      var digest := BcryptHash(updatedData["password"]);
      if digest.Err? {
        // the rejected promise escapes the route: nothing is answered
        return;
      }
      updatedData := updatedData["password" := digest.value];
    }
    assert updatedData == UserPatch(req.body);
    if !ValidId(id) {
      res.Reply(500, ErrorJson(UserUpdateFailedText));
      return;
    }
    var result := users.UpdateOne(ObjectIdOf(id), updatedData);
    if result == NoMatch {
      res.Reply(404, ErrorJson(UserNotFoundText));
    } else if result == ImmutableId {
      res.Reply(500, ErrorJson(UserUpdateFailedText));
    } else {
      res.SendJson(MessageJson(UserUpdatedText));
    }
  }

  /** `DELETE /users/delete/:id`: non-admin 403; a malformed id makes `new ObjectId` throw (500); no match 404. */
  method UsersDelete(users: Collection, req: Request, res: Response)
    requires users.Valid() && res.Fresh()
    modifies users, res
    ensures users.Valid() && res.finished && res.headers == old(res.headers)
    ensures var id := Param(req, "id");
      && (!IsAdmin(req.user) ==> res.status == 403 && res.body == Json(ErrorJson(AccessDeniedText)) && users.docs == old(users.docs))
      && (IsAdmin(req.user) && !ValidId(id) ==>
            res.status == 500 && res.body == Json(ErrorJson(UserDeleteFailedText)) && users.docs == old(users.docs))
      && (IsAdmin(req.user) && ValidId(id) && ObjectIdOf(id) !in old(users.docs) ==>
            res.status == 404 && res.body == Json(ErrorJson(UserNotFoundText)) && users.docs == old(users.docs))
      && (IsAdmin(req.user) && ValidId(id) && ObjectIdOf(id) in old(users.docs) ==>
            && res.status == 200 && res.body == Json(MessageJson(UserDeletedText))
            && users.docs == old(users.docs) - {ObjectIdOf(id)})
  {
    if !IsAdmin(req.user) {
      res.Reply(403, ErrorJson(AccessDeniedText));
      return;
    }
    var id := Param(req, "id");
    if !ValidId(id) {
      res.Reply(500, ErrorJson(UserDeleteFailedText));
      return;
    }
    var deleted := users.DeleteOne(ObjectIdOf(id));
    if !deleted {
      res.Reply(404, ErrorJson(UserNotFoundText));
      return;
    }
    res.SendJson(MessageJson(UserDeletedText));
  }

  // ------------------------------------------------------ notes and settings

  /**
   * `findOne({ userId }) || fallback`: the stored entry of the user when
   * there is one, the fallback otherwise.
   */
  method FindForUser(c: Collection, userId: string, fallback: Value) returns (v: Value)
    ensures (forall id | id in c.docs :: !EqMatches(Str(userId), Get(c.docs[id], "userId"))) ==> v == fallback
    ensures (exists id | id in c.docs :: EqMatches(Str(userId), Get(c.docs[id], "userId"))) ==>
      exists id | id in c.docs :: EqMatches(Str(userId), Get(c.docs[id], "userId")) && v == DocValue(id, c.docs[id])
  {
    var found := c.FindOneWhere("userId", Str(userId));
    if found.Some? {
      v := DocValue(found.value, c.docs[found.value]);
    } else {
      v := fallback;
    }
  }

  /** `GET /notes/:userId`: the stored notes entry, or `{ userId, notes: [] }`. */
  method NotesGet(c: Collection, req: Request, res: Response)
    requires res.Fresh()
    modifies res
    ensures res.finished && res.status == 200 && res.headers == old(res.headers) && res.body.Json?
    ensures var userId := Param(req, "userId");
      (forall id | id in c.docs :: !EqMatches(Str(userId), Get(c.docs[id], "userId"))) ==>
        res.body.value == Obj(map["userId" := Str(userId), "notes" := Arr([])])
    ensures var userId := Param(req, "userId");
      (exists id | id in c.docs :: EqMatches(Str(userId), Get(c.docs[id], "userId"))) ==>
        exists id | id in c.docs :: EqMatches(Str(userId), Get(c.docs[id], "userId")) && res.body.value == DocValue(id, c.docs[id])
  {
    var userId := Param(req, "userId");
    var notes := FindForUser(c, userId, Obj(map["userId" := Str(userId), "notes" := Arr([])]));
    res.SendJson(notes);
  }

  /** The `$set` of a notes save: the user, the notes or [], the time. */
  function NotesPatch(userId: string, body: Record, now: int): Record {
    map["userId" := Str(userId), "notes" := Or(Get(body, "notes"), Arr([])), "updatedAt" := Date(now)]
  }

  /** A saved notes entry holds the user's id, the notes sent or an empty list, and the save time. */
  lemma NotesSaved(stored: Record, userId: string, body: Record, now: int)
    ensures var d := stored + NotesPatch(userId, body, now);
      && d["userId"] == Str(userId)
      && d["notes"] == (if Truthy(Get(body, "notes")) then body["notes"] else Arr([]))
      && d["updatedAt"] == Date(now)
      && (forall f | f in stored && f !in {"userId", "notes", "updatedAt"} :: d[f] == stored[f])
  {
  }

  /**
   * `POST /notes/:userId`: an upsert keyed on the user; the reply echoes
   * the notes as sent (absent when none were sent).
   */
  method NotesPost(c: Collection, req: Request, res: Response, now: int, newId: Id)
    requires c.Valid() && res.Fresh() && CanonicalId(newId) && newId !in c.docs
    modifies c, res
    ensures c.Valid() && res.finished && res.status == 200 && res.headers == old(res.headers)
    ensures var userId := Param(req, "userId");
      var patch := NotesPatch(userId, req.body, now);
      || (exists id | id in old(c.docs) && EqMatches(Str(userId), Get(old(c.docs)[id], "userId")) ::
            c.docs == old(c.docs)[id := old(c.docs)[id] + patch])
      || ((forall id | id in old(c.docs) :: !EqMatches(Str(userId), Get(old(c.docs)[id], "userId")))
            && c.docs == old(c.docs)[newId := map["userId" := Str(userId)] + patch])
    ensures res.body == Json(Obj(JsonObject([
      ("success", Bool(true)), ("message", Str(NotesSavedText)), ("notes", Get(req.body, "notes"))])))
  {
    var userId := Param(req, "userId");
    var notes := Get(req.body, "notes");
    var updated := c.Upsert("userId", Str(userId), NotesPatch(userId, req.body, now), newId);
    res.SendJson(Obj(JsonObject([("success", Bool(true)), ("message", Str(NotesSavedText)), ("notes", notes)])));
  }

  const DefaultRefreshInterval: int := 60000

  /** `GET /userSettings/:userId`: the stored settings, or `{ autoRefreshInterval: 60000 }`. */
  method SettingsGet(c: Collection, req: Request, res: Response)
    requires res.Fresh()
    modifies res
    ensures res.finished && res.status == 200 && res.headers == old(res.headers) && res.body.Json?
    ensures var userId := Param(req, "userId");
      (forall id | id in c.docs :: !EqMatches(Str(userId), Get(c.docs[id], "userId"))) ==>
        res.body.value == Obj(map["autoRefreshInterval" := Num(DefaultRefreshInterval)])
    ensures var userId := Param(req, "userId");
      (exists id | id in c.docs :: EqMatches(Str(userId), Get(c.docs[id], "userId"))) ==>
        exists id | id in c.docs :: EqMatches(Str(userId), Get(c.docs[id], "userId")) && res.body.value == DocValue(id, c.docs[id])
  {
    var userId := Param(req, "userId");
    var settings := FindForUser(c, userId, Obj(map["autoRefreshInterval" := Num(DefaultRefreshInterval)]));
    res.SendJson(settings);
  }

  /** The `$set` of a settings save: the user, the interval or 60000, the time. */
  function SettingsPatch(userId: string, body: Record, now: int): (p: Record)
    ensures p.Keys == {"userId", "autoRefreshInterval", "updatedAt"} && p["userId"] == Str(userId)
    ensures p["autoRefreshInterval"] == (if Truthy(Get(body, "autoRefreshInterval")) then body["autoRefreshInterval"] else Num(DefaultRefreshInterval))
  {
    map["userId" := Str(userId), "autoRefreshInterval" := Or(Get(body, "autoRefreshInterval"), Num(DefaultRefreshInterval)),
        "updatedAt" := Date(now)]
  }

  /** `POST /userSettings/:userId`: an upsert keyed on the user; the reply echoes the interval as sent. */
  method SettingsPost(c: Collection, req: Request, res: Response, now: int, newId: Id)
    requires c.Valid() && res.Fresh() && CanonicalId(newId) && newId !in c.docs
    modifies c, res
    ensures c.Valid() && res.finished && res.status == 200 && res.headers == old(res.headers)
    ensures var userId := Param(req, "userId");
      var patch := SettingsPatch(userId, req.body, now);
      || (exists id | id in old(c.docs) && EqMatches(Str(userId), Get(old(c.docs)[id], "userId")) ::
            c.docs == old(c.docs)[id := old(c.docs)[id] + patch])
      || ((forall id | id in old(c.docs) :: !EqMatches(Str(userId), Get(old(c.docs)[id], "userId")))
            && c.docs == old(c.docs)[newId := map["userId" := Str(userId)] + patch])
    ensures res.body == Json(Obj(JsonObject([
      ("success", Bool(true)), ("message", Str(SettingsSavedText)),
      ("autoRefreshInterval", Get(req.body, "autoRefreshInterval"))])))
  {
    var userId := Param(req, "userId");
    var interval := Get(req.body, "autoRefreshInterval");
    var updated := c.Upsert("userId", Str(userId), SettingsPatch(userId, req.body, now), newId);
    res.SendJson(Obj(JsonObject([("success", Bool(true)), ("message", Str(SettingsSavedText)),
                                 ("autoRefreshInterval", interval)])));
  }

  // -------------------------------------------------------- logo and stamp

  /** `undefined` or `null` clears the image to "". */
  function ImageValue(v: Value): (w: Value)
    ensures w == Str("") <==> v.Undefined? || v.Null? || v == Str("")
    ensures !v.Undefined? && !v.Null? ==> w == v
  {
    if v.Undefined? || v.Null? then Str("") else v
  }

  /** A `$set` of one field is the update of that field. */
  lemma SetOneField(r: Record, f: string, v: Value)
    ensures r + map[f := v] == r[f := v]
  {
  }

  /**
   * `PATCH /myCompanyInfo/logo/:id` (and, with `stamp`, the stamp route):
   * 400 for a malformed id, 404 for an unknown company, otherwise only that
   * field of the company changes.
   */
  method PatchImage(c: Collection, req: Request, res: Response, field: string)
    requires field == "logo" || field == "stamp"
    requires c.Valid() && res.Fresh()
    modifies c, res
    ensures c.Valid() && res.finished && res.headers == old(res.headers)
    ensures var id := Param(req, "id");
      var v := ImageValue(Get(req.body, field));
      && (!ValidId(id) ==> res.status == 400 && res.body == Json(ErrorJson(BadIdText)) && c.docs == old(c.docs))
      && (ValidId(id) && ObjectIdOf(id) !in old(c.docs) ==>
            res.status == 404 && res.body == Json(ErrorJson(CompanyNotFoundText)) && c.docs == old(c.docs))
      && (ValidId(id) && ObjectIdOf(id) in old(c.docs) ==>
            var k := ObjectIdOf(id);
            && res.status == 200
            && res.body == Json(Obj(map["success" := Bool(true), field := v]))
            && c.docs == old(c.docs)[k := old(c.docs)[k][field := v]])
  {
    var id := Param(req, "id");
    var value := Get(req.body, field);
    if value == Undefined || value == Null {
      value := Str("");
    }
    if !ValidId(id) {
      res.Reply(400, ErrorJson(BadIdText));
      return;
    }
    var key := ObjectIdOf(id);
    var existing := c.FindOne(key);
    if existing.None? {
      res.Reply(404, ErrorJson(CompanyNotFoundText));
      return;
    }
    var result := c.UpdateOne(key, map[field := value]);
    SetOneField(old(c.docs)[key], field, value);
    res.SendJson(Obj(map["success" := Bool(true), field := value]));
  }

  /**
   * `GET /myCompanyInfo/logo/:id`: 400, 404 for an unknown company or an
   * empty logo, the logo itself for an `http` address, the stored file
   * when `fileExists` (whether the uploaded file is on disk), 404
   * otherwise; a logo that is not text makes `startsWith` throw (500).
   */
  method LogoGet(c: Collection, req: Request, res: Response, fileExists: bool)
    requires res.Fresh()
    modifies res
    ensures res.finished && res.headers == old(res.headers)
    ensures var id := Param(req, "id");
      && (!ValidId(id) ==> res.status == 400 && res.body == Json(ErrorJson(BadIdText)))
      && (ValidId(id) && ObjectIdOf(id) !in c.docs ==> res.status == 404 && res.body == Json(ErrorJson(CompanyNotFoundText)))
      && (ValidId(id) && ObjectIdOf(id) in c.docs ==>
            var logo := Get(c.docs[ObjectIdOf(id)], "logo");
            && (!Truthy(logo) ==> res.status == 404 && res.body == Json(ErrorJson(LogoMissingText)))
            && (Truthy(logo) && !logo.Str? ==> res.status == 500)
            && (logo.Str? && logo.s != "" && StartsWith(logo.s, "http") ==>
                  res.status == 200 && res.body == Json(Obj(map["logo" := logo, "type" := Str("external")])))
            && (logo.Str? && logo.s != "" && !StartsWith(logo.s, "http") ==>
                  && (fileExists ==> res.status == 200 && res.body == File(logo.s))
                  && (!fileExists ==> res.status == 404 && res.body == Json(ErrorJson(LogoFileMissingText)))))
  {
    var id := Param(req, "id");
    if !ValidId(id) {
      res.Reply(400, ErrorJson(BadIdText));
      return;
    }
    var company := c.FindOne(ObjectIdOf(id));
    if company.None? {
      res.Reply(404, ErrorJson(CompanyNotFoundText));
      return;
    }
    var logo := Get(company.value, "logo");
    if !Truthy(logo) || logo == Str("") {
      res.Reply(404, ErrorJson(LogoMissingText));
      return;
    }
    if !logo.Str? {
      res.Reply(500, ErrorJson(LogoFailedText));
      return;
    }
    if StartsWith(logo.s, "http") {
      res.SendJson(Obj(map["logo" := logo, "type" := Str("external")]));
      return;
    }
    if fileExists {
      res.SendFile(logo.s);
    } else {
      res.Reply(404, ErrorJson(LogoFileMissingText));
    }
  }
}

=== FILE: client_list_controller.dfy ===
/**
 * The older client-list handlers: list, add (three required fields, body
 * stored as sent), update (truthy `_id` stripped first, same three
 * fields) and delete by id. They answer with `{ error }` or `{ message }`
 * objects.
 */
module ClientList {
  import opened JsValues
  import opened Documents
  import opened Http
  import opened RouteHandlers

  const Required: seq<string> := ["nom_de_entreprise", "representant", "registrationNumber"]

  const AddRefusedText: string := "Champs nom_de_entreprise, representant et registrationNumber requis"
  const AddedText: string := "Client ajouté avec succès"
  const UpdateRefusedText: string := "Champs nom_de_entreprise, representant et registrationNumber obligatoires"
  const UpdateFailedText: string := "Erreur lors de la mise à jour du client"
  const NotFoundText: string := "Client non trouvé"
  const UpdatedText: string := "Client mis à jour avec succès"
  const BadIdText: string := "Format d'identifiant invalide"
  const DeletedText: string := "Client supprimé avec succès"

  /** All three identifying fields are truthy. */
  predicate HasIdentity(data: Record) {
    Truthy(Get(data, "nom_de_entreprise")) && Truthy(Get(data, "representant")) && Truthy(Get(data, "registrationNumber"))
  }

  function ErrorJson(text: string): Value {
    Obj(map["error" := Str(text)])
  }

  function MessageJson(text: string): Value {
    Obj(map["message" := Str(text)])
  }

  /** `getAllClients`: every document, the cursor order being `order`. */
  method GetAllClients(c: Collection, res: Response, order: seq<Id>)
    requires res.Fresh() && Enumerates(order, c.docs)
    modifies res
    ensures res.finished && res.status == 200 && res.headers == old(res.headers)
    ensures res.body == Json(Arr(AllDocs(c.docs, order)))
  {
    res.SendJson(Arr(AllDocs(c.docs, order)));
  }

  /** `addClient`: 400 and no insert unless the three fields are truthy; otherwise the body goes in unchanged and 201. */
  method AddClient(c: Collection, req: Request, res: Response, newId: Id)
    requires c.Valid() && res.Fresh() && CanonicalId(newId) && newId !in c.docs
    modifies c, res
    ensures c.Valid() && res.finished && res.headers == old(res.headers)
    ensures !HasIdentity(req.body) ==>
      && res.status == 400
      && res.body == Json(ErrorJson(AddRefusedText))
      && c.docs == old(c.docs)
    ensures HasIdentity(req.body) ==>
      && res.status == 201
      && res.body == Json(MessageJson(AddedText))
      && c.docs == old(c.docs)[newId := WithoutId(req.body)]
  {
    var body := req.body;
    if !Truthy(Get(body, "nom_de_entreprise")) || !Truthy(Get(body, "representant")) || !Truthy(Get(body, "registrationNumber")) {
      res.Reply(400, ErrorJson(AddRefusedText));
      return;
    }
    c.InsertOne(newId, body);
    res.Reply(201, MessageJson(AddedText));
  }

  /** The payload `updateClient` sends: the body with a truthy `_id` deleted. */
  function StripTruthyId(body: Record): (u: Record)
    ensures Truthy(Get(body, "_id")) ==> "_id" !in u
    ensures !Truthy(Get(body, "_id")) ==> u == body
    ensures forall f | f in body && f != "_id" :: f in u && u[f] == body[f]
    ensures u.Keys <= body.Keys
  {
    if Truthy(Get(body, "_id")) then body - {"_id"} else body
  }

  /** Passing the three-field check leaves a non-empty payload, so the "nothing to update" answer is never given. */
  lemma NoDataUnreachable(u: Record)
    requires HasIdentity(u)
    ensures u != map[]
  {
    assert "nom_de_entreprise" in u;
  }

  /**
   * `updateClient`: the three-field check on the stripped payload (400),
   * then the update; a malformed id makes `new ObjectId(id)` throw (500),
   * an absent one gives 404, and a falsy `_id` left in the payload is
   * refused by the database (500).
   */
  method UpdateClient(c: Collection, req: Request, res: Response)
    requires c.Valid() && res.Fresh()
    modifies c, res
    ensures c.Valid() && res.finished && res.headers == old(res.headers)
    ensures var id := Param(req, "id");
      var u := StripTruthyId(req.body);
      && (!HasIdentity(u) ==>
            res.status == 400 && res.body == Json(ErrorJson(UpdateRefusedText)))
      && (HasIdentity(u) && !ValidId(id) ==>
            res.status == 500 && res.body == Json(ErrorJson(UpdateFailedText)))
      && (HasIdentity(u) && ValidId(id) && ObjectIdOf(id) !in old(c.docs) ==>
            res.status == 404 && res.body == Json(ErrorJson(NotFoundText)))
      && (HasIdentity(u) && ValidId(id) && ObjectIdOf(id) in old(c.docs) && "_id" in u ==>
            res.status == 500 && res.body == Json(ErrorJson(UpdateFailedText)))
      && (HasIdentity(u) && ValidId(id) && ObjectIdOf(id) in old(c.docs) && "_id" !in u ==>
            && res.status == 200
            && res.body == Json(MessageJson(UpdatedText))
            && c.docs == old(c.docs)[ObjectIdOf(id) := old(c.docs)[ObjectIdOf(id)] + u])
      && (res.status != 200 ==> c.docs == old(c.docs))
  {
    var id := Param(req, "id");
    var updatedData := req.body;
    if Truthy(Get(updatedData, "_id")) {
      updatedData := updatedData - {"_id"};
    }
    assert updatedData == StripTruthyId(req.body);
    if !HasIdentity(updatedData) {
      res.Reply(400, ErrorJson(UpdateRefusedText));
      return;
    }
    if |updatedData| == 0 {
      NoDataUnreachable(updatedData);
      assert false;
    }
    if !ValidId(id) {
      res.Reply(500, ErrorJson(UpdateFailedText));
      return;
    }
    var result := c.UpdateOne(ObjectIdOf(id), updatedData);
    if result == NoMatch {
      res.Reply(404, ErrorJson(NotFoundText));
    } else if result == ImmutableId {
      res.Reply(500, ErrorJson(UpdateFailedText));
    } else {
      res.SendJson(MessageJson(UpdatedText));
    }
  }

  /** `deleteClient`: 400 for a malformed id, 404 when absent, otherwise exactly that document goes. */
  method DeleteClient(c: Collection, req: Request, res: Response)
    requires c.Valid() && res.Fresh()
    modifies c, res
    ensures c.Valid() && res.finished && res.headers == old(res.headers)
    ensures var id := Param(req, "id");
      && (!ValidId(id) ==> res.status == 400 && res.body == Json(ErrorJson(BadIdText)) && c.docs == old(c.docs))
      && (ValidId(id) && ObjectIdOf(id) !in old(c.docs) ==> res.status == 404 && res.body == Json(ErrorJson(NotFoundText)) && c.docs == old(c.docs))
      && (ValidId(id) && ObjectIdOf(id) in old(c.docs) ==>
            res.status == 200 && res.body == Json(MessageJson(DeletedText)) && c.docs == old(c.docs) - {ObjectIdOf(id)})
  {
    var id := Param(req, "id");
    if !ValidId(id) {
      res.Reply(400, ErrorJson(BadIdText));
      return;
    }
    var deleted := c.DeleteOne(ObjectIdOf(id));
    if !deleted {
      res.Reply(404, ErrorJson(NotFoundText));
      return;
    }
    res.SendJson(MessageJson(DeletedText));
  }
}

=== FILE: clients.dfy ===
/**
 * The client controller: its field lists, its `customValidation` hook
 * (SIRET, VAT number, postal code, company size), its finders and the
 * status update.
 */
module Clients {
  import opened Wrappers
  import opened JsValues
  import opened Seqs
  import opened Documents
  import opened Http
  import opened Service
  import opened Formats
  import opened Controller

  const RequiredFields: seq<string> := ["nom", "email", "telephone", "adresse", "ville", "codePostal", "pays"]
  const OptionalFields: seq<string> :=
    ["siret", "tva", "siteWeb", "notes", "secteurActivite", "tailleEntreprise", "contactPrincipal",
     "historiqueCommandes", "preferences", "statutClient"]
  const SearchFields: seq<string> := ["nom", "email", "telephone", "ville", "pays", "siret", "secteurActivite"]

  const TailleMessage: string := "Taille d'entreprise invalide"

  /** `['TPE', 'PME', 'ETI', 'GE'].includes(taille)`: strict equality with one of the four sizes. */
  predicate IsValidTailleEntreprise(taille: Value) {
    taille in [Str("TPE"), Str("PME"), Str("ETI"), Str("GE")]
  }

  /** The checks `customValidation` makes, in order. */
  const Checks: seq<Check> := [
    Check("siret", MatchesSiret, SiretMessage),
    Check("tva", MatchesTva, TvaMessage),
    Check("codePostal", MatchesCodePostal, CodePostalMessage),
    Check("tailleEntreprise", IsValidTailleEntreprise, TailleMessage)]

  method NewController(collection: Collection) returns (c: CrudController)
    ensures fresh(c) && fresh(c.service) && c.service.collection == collection
    ensures c.entityName == "Client" && c.service.entityName == "Client"
    ensures c.service.requiredFields == RequiredFields && c.service.optionalFields == OptionalFields
    ensures c.searchFields == SearchFields
  {
    c := new CrudController(collection, "Client", RequiredFields, OptionalFields, SearchFields);
  }

  /** `customValidation(data)`: one message per truthy field whose format is rejected. */
  method CustomValidation(data: Record) returns (v: Validation)
    ensures v == CheckResult(Checks, data)
  {
    var errors: seq<string> := [];
    assert Checks[..0] == [];
    var siret := Get(data, "siret");
    if Truthy(siret) && !MatchesSiret(siret) {
      errors := errors + [SiretMessage];
    }
    FieldErrorsSnoc(Checks[..0], Checks[0], data);
    assert Checks[..1] == Checks[..0] + [Checks[0]];
    assert errors == FieldErrors(Checks[..1], data);
    var tva := Get(data, "tva");
    if Truthy(tva) && !MatchesTva(tva) {
      errors := errors + [TvaMessage];
    }
    FieldErrorsSnoc(Checks[..1], Checks[1], data);
    assert Checks[..2] == Checks[..1] + [Checks[1]];
    assert errors == FieldErrors(Checks[..2], data);
    var codePostal := Get(data, "codePostal");
    if Truthy(codePostal) && !MatchesCodePostal(codePostal) {
      errors := errors + [CodePostalMessage];
    }
    FieldErrorsSnoc(Checks[..2], Checks[2], data);
    assert Checks[..3] == Checks[..2] + [Checks[2]];
    assert errors == FieldErrors(Checks[..3], data);
    var taille := Get(data, "tailleEntreprise");
    if Truthy(taille) && !IsValidTailleEntreprise(taille) {
      errors := errors + [TailleMessage];
    }
    FieldErrorsSnoc(Checks[..3], Checks[3], data);
    assert Checks == Checks[..3] + [Checks[3]];
    assert errors == FieldErrors(Checks, data);
    v := Validation(|errors| == 0, errors);
  }

  /**
   * Each field is checked only when truthy, yields its own message when
   * rejected, and the messages keep the order siret, tva, codePostal,
   * tailleEntreprise.
   */
  lemma CustomValidationSpec(data: Record)
    ensures var errs := CheckResult(Checks, data).errors;
      && (SiretMessage in errs <==> Truthy(Get(data, "siret")) && !MatchesSiret(Get(data, "siret")))
      && (TvaMessage in errs <==> Truthy(Get(data, "tva")) && !MatchesTva(Get(data, "tva")))
      && (CodePostalMessage in errs <==> Truthy(Get(data, "codePostal")) && !MatchesCodePostal(Get(data, "codePostal")))
      && (TailleMessage in errs <==> Truthy(Get(data, "tailleEntreprise")) && !IsValidTailleEntreprise(Get(data, "tailleEntreprise")))
      && InOrder(errs, [SiretMessage, TvaMessage, CodePostalMessage, TailleMessage])
  {
    assert Messages(Checks) == [SiretMessage, TvaMessage, CodePostalMessage, TailleMessage];
    FieldErrorsExact(Checks, data);
    FieldErrorsInOrder(Checks, data);
    assert Checks[0].message == SiretMessage && Checks[1].message == TvaMessage;
    assert Checks[2].message == CodePostalMessage && Checks[3].message == TailleMessage;
  }

  // ------------------------------------------------------------------ finders

  /** The order-count path the VIP listing filters and sorts on. */
  const OrderCountPath: string := "historiqueCommandes" + "." + "nombre"

  /** The VIP listing: `historiqueCommandes.nombre >= parseInt(seuil)` (seuil 10 by default), largest first. */
  function VipOptions(query: map<string, Value>): (o: FindOptions)
    ensures o.page == Num(1) && o.limit == Num(10) && o.search == Null
    ensures o.sort == SortSpec(OrderCountPath, -1)
    ensures o.filter == map[OrderCountPath := Range(Some(ParseInt(QueryParam(query, "seuil", Num(10)))), None)]
  {
    DefaultFindOptions.(
      filter := map[OrderCountPath := Range(Some(ParseInt(QueryParam(query, "seuil", Num(10)))), None)],
      sort := SortSpec(OrderCountPath, -1))
  }

  /** Without `seuil` in the query the threshold is 10. */
  lemma VipDefaultThreshold(query: map<string, Value>)
    requires "seuil" !in query
    ensures VipOptions(query).filter == map[OrderCountPath := Range(Some(Num(10)), None)]
  {
    ParseIntRoundTrip(10);
  }

  /** An order count of at least `n`: a number, or an array holding one. */
  predicate CountAtLeast(x: Value, n: int) {
    (x.Num? && x.n >= n) || (x.Arr? && exists e | e in x.items :: e.Num? && e.n >= n)
  }

  /** `{ $gte: n }` on a path holds when one value it reaches is an order count of at least `n`. */
  lemma CountPathMatches(xs: seq<Value>, n: int)
    ensures PathMatches(Range(Some(Num(n)), None), xs) <==> exists x | x in xs :: CountAtLeast(x, n)
  {
    forall x | x in xs ensures AtLeast(Num(n), x) <==> CountAtLeast(x, n) {
      AtLeastMatches(n, x);
    }
  }

  /** The order counts a path `a.b` reaches: that of an object at `a`, or of each object in an array at `a`. */
  lemma DottedCount(r: Record, a: string, b: string, n: int)
    requires '.' !in a && '.' !in b
    ensures var h := Get(r, a);
      (exists x | x in Reach(r, a + "." + b) :: CountAtLeast(x, n)) <==>
        || (h.Obj? && CountAtLeast(Get(h.fields, b), n))
        || (h.Arr? && exists e | e in h.items :: e.Obj? && CountAtLeast(Get(e.fields, b), n))
  {
    ResolveDotted(r, a, b);
    var xs := Reach(r, a + "." + b);
    var h := Get(r, a);
    if h.Obj? {
      assert xs == [Get(h.fields, b)];
    } else if h.Arr? {
      if exists e | e in h.items :: e.Obj? && CountAtLeast(Get(e.fields, b), n) {
        var e :| e in h.items && e.Obj? && CountAtLeast(Get(e.fields, b), n);
        assert Get(e.fields, b) in xs;
      }
    } else {
      assert xs == [Undefined];
    }
  }

  /**
   * A client is VIP exactly when its order history (an object, or one
   * object of an array of them) has an order count of at least the
   * threshold, which is 10 when the query names none.
   */
  lemma VipSelection(query: map<string, Value>, r: Record)
    requires "seuil" !in query
    ensures var h := Get(r, "historiqueCommandes");
      Matches(Query(VipOptions(query).filter, None), r) <==>
        || (h.Obj? && CountAtLeast(Get(h.fields, "nombre"), 10))
        || (h.Arr? && exists e | e in h.items :: e.Obj? && CountAtLeast(Get(e.fields, "nombre"), 10))
  {
    VipDefaultThreshold(query);
    MatchesSingle(OrderCountPath, Range(Some(Num(10)), None), r);
    CountPathMatches(Reach(r, OrderCountPath), 10);
    DottedCount(r, "historiqueCommandes", "nombre", 10);
  }

  method FindBySecteurActivite(ctl: CrudController, req: Request, res: Response, order: seq<Id>)
    requires res.Fresh() && Enumerates(order, ctl.service.collection.docs)
    modifies res
    ensures res.finished && res.headers == old(res.headers)
    ensures var r := ctl.service.FindAll(FilterOptions(TextFilter("secteurActivite", Param(req, "secteur"))), order);
      && (r.Listed? ==> res.status == 200 && res.body == Json(ListingJson(r, "Clients trouvés pour le secteur: " + Param(req, "secteur"), false)))
      && (r.ListFailed? ==> res.status == 400)
  {
    var secteur := Param(req, "secteur");
    ctl.ListBy(FilterOptions(TextFilter("secteurActivite", secteur)), order, res, "Clients trouvés pour le secteur: " + secteur);
  }

  method FindByTailleEntreprise(ctl: CrudController, req: Request, res: Response, order: seq<Id>)
    requires res.Fresh() && Enumerates(order, ctl.service.collection.docs)
    modifies res
    ensures res.finished && res.headers == old(res.headers)
    ensures var r := ctl.service.FindAll(FilterOptions(EqFilter("tailleEntreprise", Param(req, "taille"))), order);
      && (r.Listed? ==> res.status == 200 && res.body == Json(ListingJson(r, "Clients trouvés pour la taille: " + Param(req, "taille"), false)))
      && (r.ListFailed? ==> res.status == 400)
  {
    var taille := Param(req, "taille");
    ctl.ListBy(FilterOptions(EqFilter("tailleEntreprise", taille)), order, res, "Clients trouvés pour la taille: " + taille);
  }

  method FindByStatut(ctl: CrudController, req: Request, res: Response, order: seq<Id>)
    requires res.Fresh() && Enumerates(order, ctl.service.collection.docs)
    modifies res
    ensures res.finished && res.headers == old(res.headers)
    ensures var r := ctl.service.FindAll(FilterOptions(EqFilter("statutClient", Param(req, "statut"))), order);
      && (r.Listed? ==> res.status == 200 && res.body == Json(ListingJson(r, "Clients trouvés pour le statut: " + Param(req, "statut"), false)))
      && (r.ListFailed? ==> res.status == 400)
  {
    var statut := Param(req, "statut");
    ctl.ListBy(FilterOptions(EqFilter("statutClient", statut)), order, res, "Clients trouvés pour le statut: " + statut);
  }

  /** `getClientsVIP`, the cursor order of the order-count sort being `order`. */
  method GetClientsVIP(ctl: CrudController, req: Request, res: Response, order: seq<Id>)
    requires res.Fresh() && Enumerates(order, ctl.service.collection.docs)
    modifies res
    ensures res.finished && res.headers == old(res.headers)
    ensures var r := ctl.service.FindAll(VipOptions(req.query), order);
      && (r.Listed? ==> res.status == 200 && res.body == Json(ListingJson(r,
            "Clients VIP trouvés (seuil: " + ToJsString(QueryParam(req.query, "seuil", Num(10))) + " commandes)", false)))
      && (r.ListFailed? ==> res.status == 400)
  {
    var seuil := QueryParam(req.query, "seuil", Num(10));
    ctl.ListBy(VipOptions(req.query), order, res, "Clients VIP trouvés (seuil: " + ToJsString(seuil) + " commandes)");
  }

  // ---------------------------------------------------------- status update

  /** Updating only `statutClient` never trips the service's validation. */
  lemma StatutPayloadValid(required: seq<string>, statut: Value)
    ensures Validate(required, map["statutClient" := statut], true) == Ok(Validation(true, []))
  {
    var data := map["statutClient" := statut];
    assert Get(data, "email") == Undefined && Get(data, "phone") == Undefined;
  }

  /**
   * `updateStatut`: a falsy `statutClient` is refused with 400 and no
   * update; otherwise only `statutClient` (and `updatedAt`) is written,
   * with 404 for an unknown id.
   */
  method UpdateStatut(ctl: CrudController, req: Request, res: Response, now: int)
    requires ctl.Valid() && res.Fresh()
    modifies ctl.service.collection, res
    ensures ctl.Valid() && res.finished && res.headers == old(res.headers)
    ensures var id := Param(req, "id");
      var statut := Get(req.body, "statutClient");
      && (!Truthy(statut) ==>
            && res.status == 400
            && res.body == Json(FailureJson("Statut manquant", "Le statut client est requis"))
            && ctl.service.collection.docs == old(ctl.service.collection.docs))
      && (Truthy(statut) && !ValidId(id) ==>
            && res.status == 400
            && res.body == Json(FailureJson(InvalidIdError, InvalidIdMessage))
            && ctl.service.collection.docs == old(ctl.service.collection.docs))
      && (Truthy(statut) && ValidId(id) && ObjectIdOf(id) !in old(ctl.service.collection.docs) ==>
            && res.status == 404
            && res.body == Json(FailureJson(NotFoundError, ctl.service.NotFoundMessage()))
            && ctl.service.collection.docs == old(ctl.service.collection.docs))
      && (Truthy(statut) && ValidId(id) && ObjectIdOf(id) in old(ctl.service.collection.docs) ==>
            var k := ObjectIdOf(id);
            && res.status == 200
            && ctl.service.collection.docs ==
                 old(ctl.service.collection.docs)[k := old(ctl.service.collection.docs)[k] + map["statutClient" := statut, "updatedAt" := Date(now)]]
            && res.body == Json(SuccessJson(DocValue(k, ctl.service.collection.docs[k]), "Statut du client mis à jour: " + ToJsString(statut))))
  {
    var id := Param(req, "id");
    var statut := Get(req.body, "statutClient");
    if !Truthy(statut) {
      res.Reply(400, FailureJson("Statut manquant", "Le statut client est requis"));
      return;
    }
    StatutPayloadValid(ctl.service.requiredFields, statut);
    var payload := map["statutClient" := statut];
    assert Get(payload, "password") == Undefined;
    assert Patch(payload, now) == map["statutClient" := statut, "updatedAt" := Date(now)];
    var result := ctl.service.Update(id, payload, now);
    if result.Success? {
      res.SendJson(SuccessJson(result.data, "Statut du client mis à jour: " + ToJsString(statut)));
    } else {
      res.Reply(StatusFor(result.error), FailureJson(result.error, result.message));
    }
  }

  // ------------------------------------------------- statistics and sectors

  /** `getStatsBySecteur` as written: the aggregation is asked of a collection the controller does not hold, so the answer is always the internal error. */
  method GetStatsBySecteurAsWritten(res: Response)
    requires res.Fresh()
    modifies res
    ensures res.finished && res.status == 500
    ensures res.body == Json(FailureJson(InternalError, "Erreur lors de la récupération des statistiques par secteur"))
  {
    UnsetCollectionReply(res, "Erreur lors de la récupération des statistiques par secteur");
  }

  /** `getStatsByTaille` as written: likewise always the internal error. */
  method GetStatsByTailleAsWritten(res: Response)
    requires res.Fresh()
    modifies res
    ensures res.finished && res.status == 500
    ensures res.body == Json(FailureJson(InternalError, "Erreur lors de la récupération des statistiques par taille"))
  {
    UnsetCollectionReply(res, "Erreur lors de la récupération des statistiques par taille");
  }

  const SecteursFailure: string := "Erreur lors de la récupération des secteurs d'activité"

  /** `getSecteursActivite` as written: always the internal error. */
  method GetSecteursActiviteAsWritten(res: Response)
    requires res.Fresh()
    modifies res
    ensures res.finished && res.status == 500
    ensures res.body == Json(FailureJson(InternalError, SecteursFailure))
  {
    UnsetCollectionReply(res, SecteursFailure);
  }

  /** `getSecteursActivite` reading the client collection: every truthy stored sector, once each. */
  method GetSecteursActivite(ctl: CrudController, listed: seq<Value>, res: Response)
    requires res.Fresh() && ListsOnce(listed, DistinctValues(ctl.service.collection.docs, "secteurActivite"))
    modifies res
    ensures res.finished && res.status == 200
    ensures res.body == Json(SuccessJson(Arr(KeepTruthy(listed)), "Secteurs d'activité récupérés"))
  {
    DistinctTruthy(ctl, "secteurActivite", listed, res, "Secteurs d'activité récupérés");
  }
}

=== FILE: commissionnaires.dfy ===
/**
 * The freight-forwarder controller: its field lists, its `customValidation`
 * hook (SIRET, VAT number, postal code) and its finders by speciality and
 * country.
 */
module Commissionnaires {
  import opened Wrappers
  import opened JsValues
  import opened Seqs
  import opened Documents
  import opened Http
  import opened Service
  import opened Formats
  import opened Controller

  const RequiredFields: seq<string> := ["nom", "prenom", "email", "telephone", "adresse", "ville", "codePostal", "pays"]
  const OptionalFields: seq<string> := ["siret", "tva", "siteWeb", "notes", "specialites", "langues", "certifications"]
  const SearchFields: seq<string> := ["nom", "prenom", "email", "telephone", "ville", "pays", "siret"]

  const Checks: seq<Check> := [
    Check("siret", MatchesSiret, SiretMessage),
    Check("tva", MatchesTva, TvaMessage),
    Check("codePostal", MatchesCodePostal, CodePostalMessage)]

  method NewController(collection: Collection) returns (c: CrudController)
    ensures fresh(c) && fresh(c.service) && c.service.collection == collection
    ensures c.entityName == "Commissionnaire" && c.service.entityName == "Commissionnaire"
    ensures c.service.requiredFields == RequiredFields && c.service.optionalFields == OptionalFields
    ensures c.searchFields == SearchFields
  {
    c := new CrudController(collection, "Commissionnaire", RequiredFields, OptionalFields, SearchFields);
  }

  /** `customValidation(data)`: one message per truthy field whose format is rejected. */
  method CustomValidation(data: Record) returns (v: Validation)
    ensures v == CheckResult(Checks, data)
  {
    var errors: seq<string> := [];
    assert Checks[..0] == [];
    var siret := Get(data, "siret");
    if Truthy(siret) && !MatchesSiret(siret) {
      errors := errors + [SiretMessage];
    }
    FieldErrorsSnoc(Checks[..0], Checks[0], data);
    assert Checks[..1] == Checks[..0] + [Checks[0]];
    assert errors == FieldErrors(Checks[..1], data);
    var tva := Get(data, "tva");
    if Truthy(tva) && !MatchesTva(tva) {
      errors := errors + [TvaMessage];
    }
    FieldErrorsSnoc(Checks[..1], Checks[1], data);
    assert Checks[..2] == Checks[..1] + [Checks[1]];
    assert errors == FieldErrors(Checks[..2], data);
    var codePostal := Get(data, "codePostal");
    if Truthy(codePostal) && !MatchesCodePostal(codePostal) {
      errors := errors + [CodePostalMessage];
    }
    FieldErrorsSnoc(Checks[..2], Checks[2], data);
    assert Checks == Checks[..2] + [Checks[2]];
    assert errors == FieldErrors(Checks, data);
    v := Validation(|errors| == 0, errors);
  }

  /** Each field is checked only when truthy, yields its own message when rejected, and the messages keep the check order. */
  lemma CustomValidationSpec(data: Record)
    ensures var errs := CheckResult(Checks, data).errors;
      && (SiretMessage in errs <==> Truthy(Get(data, "siret")) && !MatchesSiret(Get(data, "siret")))
      && (TvaMessage in errs <==> Truthy(Get(data, "tva")) && !MatchesTva(Get(data, "tva")))
      && (CodePostalMessage in errs <==> Truthy(Get(data, "codePostal")) && !MatchesCodePostal(Get(data, "codePostal")))
      && InOrder(errs, [SiretMessage, TvaMessage, CodePostalMessage])
  {
    assert Messages(Checks) == [SiretMessage, TvaMessage, CodePostalMessage];
    FieldErrorsExact(Checks, data);
    FieldErrorsInOrder(Checks, data);
    assert Checks[0].message == SiretMessage && Checks[1].message == TvaMessage;
    assert Checks[2].message == CodePostalMessage;
  }

  /**
   * Creating a forwarder without a first name fails, whatever else the
   * body holds, and the reason names the missing field.
   */
  lemma CreateWithoutPrenom(data: Record)
    requires !Truthy(Get(data, "prenom"))
    ensures var v := Validate(RequiredFields, data, false);
      v.Ok? ==> !v.value.isValid && RequiredMessage("prenom") in v.value.errors
  {
    assert Distinct(RequiredFields);
    CreateValidationReportsMissing(RequiredFields, data);
    assert "prenom" in RequiredFields;
  }

  // ------------------------------------------------------------------ finders

  method FindBySpecialite(ctl: CrudController, req: Request, res: Response, order: seq<Id>)
    requires res.Fresh() && Enumerates(order, ctl.service.collection.docs)
    modifies res
    ensures res.finished && res.headers == old(res.headers)
    ensures var r := ctl.service.FindAll(FilterOptions(ContainsFilter("specialites", Param(req, "specialite"))), order);
      && (r.Listed? ==> res.status == 200 && res.body == Json(ListingJson(r, "Commissionnaires trouvés pour la spécialité: " + Param(req, "specialite"), false)))
      && (r.ListFailed? ==> res.status == 400)
  {
    var specialite := Param(req, "specialite");
    ctl.ListBy(FilterOptions(ContainsFilter("specialites", specialite)), order, res,
      "Commissionnaires trouvés pour la spécialité: " + specialite);
  }

  method FindByPays(ctl: CrudController, req: Request, res: Response, order: seq<Id>)
    requires res.Fresh() && Enumerates(order, ctl.service.collection.docs)
    modifies res
    ensures res.finished && res.headers == old(res.headers)
    ensures var r := ctl.service.FindAll(FilterOptions(TextFilter("pays", Param(req, "pays"))), order);
      && (r.Listed? ==> res.status == 200 && res.body == Json(ListingJson(r, "Commissionnaires trouvés pour le pays: " + Param(req, "pays"), false)))
      && (r.ListFailed? ==> res.status == 400)
  {
    var pays := Param(req, "pays");
    ctl.ListBy(FilterOptions(TextFilter("pays", pays)), order, res, "Commissionnaires trouvés pour le pays: " + pays);
  }

  // ------------------------------------------------- statistics and listings

  /** `getStatsByPays` as written: the aggregation is asked of a collection the controller does not hold. */
  method GetStatsByPaysAsWritten(res: Response)
    requires res.Fresh()
    modifies res
    ensures res.finished && res.status == 500
    ensures res.body == Json(FailureJson(InternalError, "Erreur lors de la récupération des statistiques par pays"))
  {
    UnsetCollectionReply(res, "Erreur lors de la récupération des statistiques par pays");
  }

  /** `getSpecialites` as written: always the internal error. */
  method GetSpecialitesAsWritten(res: Response)
    requires res.Fresh()
    modifies res
    ensures res.finished && res.status == 500
    ensures res.body == Json(FailureJson(InternalError, "Erreur lors de la récupération des spécialités"))
  {
    UnsetCollectionReply(res, "Erreur lors de la récupération des spécialités");
  }

  /** `getSpecialites` reading the forwarder collection: every truthy stored speciality, once each. */
  method GetSpecialites(ctl: CrudController, listed: seq<Value>, res: Response)
    requires res.Fresh() && ListsOnce(listed, DistinctValues(ctl.service.collection.docs, "specialites"))
    modifies res
    ensures res.finished && res.status == 200
    ensures res.body == Json(SuccessJson(Arr(KeepTruthy(listed)), "Spécialités récupérées"))
  {
    DistinctTruthy(ctl, "specialites", listed, res, "Spécialités récupérées");
  }
}

=== FILE: crud_controller.dfy ===
/**
 * The generic controller in front of the CRUD service: it turns the query
 * string into listing options, answers with the service's envelope and
 * picks the status code from the outcome.
 */
module Controller {
  import opened Wrappers
  import opened JsValues
  import opened Seqs
  import opened Documents
  import opened Http
  import opened Service
  import opened Formats

  const DefaultSearchFields: seq<string> := ["name", "email", "phone"]
  const InternalError: string := "Erreur interne du serveur"
  const EntitiesMessage: string := "Le champ 'entities' doit être un tableau non vide"
  const ListedSuffix: string := "s récupérés avec succès"
  const StatsPrefix: string := "Statistiques de "
  const StatsSuffix: string := " récupérées"

  /** The query keys `findAll` consumes itself; every other key becomes an equality filter. */
  const ReservedKeys: set<string> := {"page", "limit", "sort", "order", "search"}

  /** A destructured query parameter: its default applies when the key is absent or undefined. */
  function QueryParam(query: map<string, Value>, key: string, default: Value): (v: Value)
    ensures key in query && query[key] != Undefined ==> v == query[key]
    ensures key !in query || query[key] == Undefined ==> v == default
  {
    if key in query && query[key] != Undefined then query[key] else default
  }

  /** The options `findAll` builds from `req.query` and the controller's search fields. */
  function FindAllOptions(query: map<string, Value>, searchFields: seq<string>): (o: FindOptions)
    ensures o.filter.Keys == query.Keys - ReservedKeys
    ensures forall k | k in o.filter :: o.filter[k] == Eq(query[k])
    ensures o.sort.direction == -1 <==> QueryParam(query, "order", Str("desc")) == Str("desc")
    ensures o.sort.direction == -1 || o.sort.direction == 1
    ensures o.sort.field == ToJsString(QueryParam(query, "sort", Str("createdAt")))
    ensures o.search == (if Truthy(QueryParam(query, "search", Null)) then query["search"] else Null)
    ensures o.searchFields == searchFields
    ensures o.page == ParseInt(QueryParam(query, "page", Num(1)))
    ensures o.limit == ParseInt(QueryParam(query, "limit", Num(10)))
  {
    var sortKey := ToJsString(QueryParam(query, "sort", Str("createdAt")));
    var direction := if QueryParam(query, "order", Str("desc")) == Str("desc") then -1 else 1;
    FindOptions(
      ParseInt(QueryParam(query, "page", Num(1))),
      ParseInt(QueryParam(query, "limit", Num(10))),
      SortSpec(sortKey, direction),
      map k | k in query && k !in ReservedKeys :: Eq(query[k]),
      Or(QueryParam(query, "search", Null), Null),
      searchFields)
  }

  /** Without page, limit, sort and order in the query, the listing uses page 1 of 10, newest first. */
  lemma FindAllDefaults(query: map<string, Value>, searchFields: seq<string>)
    requires "page" !in query && "limit" !in query && "sort" !in query && "order" !in query
    ensures var o := FindAllOptions(query, searchFields);
      o.page == Num(1) && o.limit == Num(10) && o.sort == SortSpec("createdAt", -1)
  {
    ParseIntRoundTrip(1);
    ParseIntRoundTrip(10);
  }

  /** A page number given as decimal text is the page listed. */
  lemma FindAllPageFromText(query: map<string, Value>, searchFields: seq<string>, page: int)
    requires "page" in query && query["page"] == Str(IntToString(page))
    ensures FindAllOptions(query, searchFields).page == Num(page)
  {
    ParseIntRoundTrip(page);
  }

  /** The status of a failed read, update or delete: 404 for "not found", 400 otherwise. */
  function StatusFor(error: string): (code: int)
    ensures code == 404 <==> error == NotFoundError
    ensures code == 400 <==> error != NotFoundError
  {
    if error == NotFoundError then 404 else 400
  }

  /** `{ success: false, error, message }` */
  function FailureJson(error: string, message: string): Value {
    Obj(JsonObject([("success", Bool(false)), ("error", Str(error)), ("message", Str(message))]))
  }

  /** `{ success: true, data, message }` */
  function SuccessJson(data: Value, message: string): Value {
    Obj(JsonObject([("success", Bool(true)), ("data", data), ("message", Str(message))]))
  }

  function PaginationJson(p: Pagination): Value {
    Obj(JsonObject([
      ("page", Num(p.page)), ("limit", Num(p.limit)), ("total", Num(p.total)),
      // JSON writes the non-finite `Math.ceil(total / 0)` as null
      ("totalPages", if p.totalPages.Some? then Num(p.totalPages.value) else Null),
      ("hasNext", Bool(p.hasNext)), ("hasPrev", Bool(p.hasPrev))]))
  }

  /** The `entities` array `bulkCreate` accepts, or None when the guard rejects the body. */
  function BulkEntities(body: Record): (r: Option<seq<Value>>)
    ensures r.Some? <==> Get(body, "entities").Arr? && |Get(body, "entities").items| > 0
    ensures r.Some? ==> r.value == Get(body, "entities").items
  {
    match Get(body, "entities")
    case Arr(items) => if |items| == 0 then None else Some(items)
    case _ => None
  }

  /** `entities.map(entity => ({ ...entity }))` */
  function SpreadAll(vs: seq<Value>): (rs: seq<Record>)
    ensures |rs| == |vs| && forall i | 0 <= i < |vs| :: rs[i] == Spread(vs[i])
  {
    seq(|vs|, i requires 0 <= i < |vs| => Spread(vs[i]))
  }

  /** The ids as JSON writes them: their hex text. */
  function IdValues(ids: seq<Id>): (vs: seq<Value>)
    ensures |vs| == |ids| && forall i | 0 <= i < |ids| :: vs[i] == Str(ids[i])
  {
    seq(|ids|, i requires 0 <= i < |ids| => Str(ids[i]))
  }

  /**
   * The `InsertManyResult` as JSON writes it: acknowledged, the count, and
   * `insertedIds` mapping each index of the batch to the id inserted there.
   */
  function InsertManyResultJson(ids: seq<Id>): Value {
    Obj(map["acknowledged" := Bool(true), "insertedCount" := Num(|ids|), "insertedIds" := Obj(Indexed(IdValues(ids)))])
  }

  /**
   * The reply's `insertedIds` holds one entry per inserted document, so
   * `insertedCount` is its size, and each index names the id stored there.
   */
  lemma InsertedIdsByIndex(ids: seq<Id>)
    ensures var r := InsertManyResultJson(ids).fields;
      && r["insertedCount"] == Num(|r["insertedIds"].fields|)
      && forall i: nat | i < |ids| :: r["insertedIds"].fields[NatToString(i)] == Str(ids[i])
  {
    IndexKeysCount(|ids|);
  }

  /** The default `customValidation` hook accepts every body. */
  function DefaultCustomValidation(data: Record): (v: Validation)
    ensures v.isValid && v.errors == []
  {
    CheckResult([], data)
  }

  /** The body of a listing answer: the page, with its pagination when `withPagination`. */
  function ListingJson(r: Listing, message: string, withPagination: bool): Value
    requires r.Listed?
  {
    if withPagination then
      Obj(JsonObject([("success", Bool(true)), ("data", Arr(r.data)), ("pagination", PaginationJson(r.pagination)), ("message", Str(message))]))
    else SuccessJson(Arr(r.data), message)
  }

  class CrudController {
    const service: CrudService
    const entityName: string
    /** What `getSearchFields()` returns for this controller. */
    const searchFields: seq<string>

    constructor (collection: Collection, entityName: string, requiredFields: seq<string>, optionalFields: seq<string>, searchFields: seq<string>)
      ensures fresh(service)
      ensures service.collection == collection && service.entityName == entityName
      ensures service.requiredFields == requiredFields && service.optionalFields == optionalFields
      ensures this.entityName == entityName && this.searchFields == searchFields
    {
      service := new CrudService(collection, entityName, requiredFields, optionalFields);
      this.entityName := entityName;
      this.searchFields := searchFields;
    }

    /** Both names come from the same constructor argument. */
    ghost predicate Valid()
      reads this, service, service.collection
    {
      service.entityName == entityName && service.collection.Valid()
    }

    /** `create(req, res)`: 201 with the stored document, or 400 with the service's error. */
    method Create(req: Request, res: Response, now: int, newId: Id)
      requires Valid() && res.Fresh() && CanonicalId(newId) && newId !in service.collection.docs
      modifies service.collection, res
      ensures Valid() && res.finished && res.headers == old(res.headers)
      ensures var v := Validate(service.requiredFields, req.body, false);
        if v.Ok? && v.value.isValid && PasswordAccepted(req.body) then
          && res.status == 201
          && res.body == Json(SuccessJson(DocValue(newId, Stamped(req.body, now)), entityName + CreatedSuffix))
          && service.collection.docs == old(service.collection.docs)[newId := Stamped(req.body, now)]
        else
          && res.status == 400
          && service.collection.docs == old(service.collection.docs)
          && res.body == Json(FailureJson(
               if v.Err? then v.error
               else if !v.value.isValid then ValidationFailedPrefix + Join(v.value.errors, ", ")
               else BcryptWrongType,
               CreateErrorPrefix + entityName))
    {
      var result := service.Create(req.body, now, newId);
      if result.Success? {
        res.Reply(201, SuccessJson(result.data, result.message));
      } else {
        res.Reply(400, FailureJson(result.error, result.message));
      }
    }

    /** `findAll(req, res)`, the cursor order of the requested sort being `order`. */
    method FindAll(req: Request, res: Response, order: seq<Id>)
      requires res.Fresh() && Enumerates(order, service.collection.docs)
      modifies res
      ensures res.finished && res.headers == old(res.headers)
      ensures var r := service.FindAll(FindAllOptions(req.query, searchFields), order);
        && (r.Listed? ==> res.status == 200 && res.body == Json(ListingJson(r, entityName + ListedSuffix, true)))
        && (r.ListFailed? ==> res.status == 400 && res.body == Json(FailureJson(r.error, r.message)))
    {
      var options := FindAllOptions(req.query, searchFields);
      var result := service.FindAll(options, order);
      if result.Listed? {
        res.SendJson(ListingJson(result, entityName + ListedSuffix, true));
      } else {
        res.Reply(400, FailureJson(result.error, result.message));
      }
    }

    /** `findById(req, res)` */
    method FindById(req: Request, res: Response)
      requires res.Fresh()
      modifies res
      ensures res.finished && res.headers == old(res.headers)
      ensures var r := service.FindById(Param(req, "id"));
        && (r.Success? ==> res.status == 200 && res.body == Json(SuccessJson(r.data, r.message)))
        && (r.Failure? ==> res.status == StatusFor(r.error) && res.body == Json(FailureJson(r.error, r.message)))
    {
      var result := service.FindById(Param(req, "id"));
      if result.Success? {
        res.SendJson(SuccessJson(result.data, result.message));
      } else {
        res.Reply(StatusFor(result.error), FailureJson(result.error, result.message));
      }
    }

    /** `update(req, res)`: 200 with the updated document, 404 when the id is unknown, 400 otherwise. */
    method Update(req: Request, res: Response, now: int)
      requires Valid() && res.Fresh()
      modifies service.collection, res
      ensures Valid() && res.finished && res.headers == old(res.headers)
      ensures var id := Param(req, "id");
        var v := Validate(service.requiredFields, req.body, true);
        var accepted := ValidId(id) && v.Ok? && v.value.isValid && PasswordAccepted(req.body);
        && (!ValidId(id) ==> res.status == 400 && res.body == Json(FailureJson(InvalidIdError, InvalidIdMessage)))
        && (ValidId(id) && v.Err? ==>
              res.status == 400 && res.body == Json(FailureJson(v.error, UpdateErrorPrefix + entityName)))
        && (ValidId(id) && v.Ok? && !v.value.isValid ==>
              res.status == 400 && res.body == Json(FailureJson(Join(v.value.errors, ", "), InvalidDataError)))
        && (ValidId(id) && v.Ok? && v.value.isValid && !PasswordAccepted(req.body) ==>
              res.status == 400 && res.body == Json(FailureJson(BcryptWrongType, UpdateErrorPrefix + entityName)))
        && (accepted && ObjectIdOf(id) !in old(service.collection.docs) ==>
              res.status == 404 && res.body == Json(FailureJson(NotFoundError, entityName + " non trouvé")))
        && (accepted && ObjectIdOf(id) in old(service.collection.docs) ==>
              var k := ObjectIdOf(id);
              && res.status == 200
              && service.collection.docs == old(service.collection.docs)[k := old(service.collection.docs)[k] + Patch(req.body, now)]
              && res.body == Json(SuccessJson(DocValue(k, service.collection.docs[k]), entityName + UpdatedSuffix)))
        && (!(accepted && ObjectIdOf(id) in old(service.collection.docs)) ==> service.collection.docs == old(service.collection.docs))
    {
      var result := service.Update(Param(req, "id"), req.body, now);
      if result.Success? {
        res.SendJson(SuccessJson(result.data, result.message));
      } else {
        res.Reply(StatusFor(result.error), FailureJson(result.error, result.message));
      }
    }

    /** `delete(req, res)` */
    method Delete(req: Request, res: Response)
      requires Valid() && res.Fresh()
      modifies service.collection, res
      ensures Valid() && res.finished && res.headers == old(res.headers)
      ensures var id := Param(req, "id");
        && (!ValidId(id) ==>
              && res.status == 400
              && res.body == Json(FailureJson(InvalidIdError, InvalidIdMessage))
              && service.collection.docs == old(service.collection.docs))
        && (ValidId(id) && ObjectIdOf(id) !in old(service.collection.docs) ==>
              && res.status == 404
              && res.body == Json(FailureJson(NotFoundError, entityName + " non trouvé"))
              && service.collection.docs == old(service.collection.docs))
        && (ValidId(id) && ObjectIdOf(id) in old(service.collection.docs) ==>
              && res.status == 200
              && service.collection.docs == old(service.collection.docs) - {ObjectIdOf(id)}
              && res.body == Json(Obj(JsonObject([("success", Bool(true)), ("message", Str(entityName + DeletedSuffix))]))))
    {
      var result := service.Delete(Param(req, "id"));
      if result.Success? {
        res.SendJson(Obj(JsonObject([("success", Bool(true)), ("message", Str(result.message))])));
      } else {
        res.Reply(StatusFor(result.error), FailureJson(result.error, result.message));
      }
    }

    /** `bulkCreate(req, res)`: a missing, non-array or empty `entities` is refused before the service is called. */
    method BulkCreate(req: Request, res: Response, now: int, ids: seq<Id>)
      requires Valid() && res.Fresh() && FreshIds(ids, service.collection.docs)
      requires BulkEntities(req.body).Some? ==> |ids| == |BulkEntities(req.body).value|
      modifies service.collection, res
      ensures Valid() && res.finished && res.headers == old(res.headers)
      ensures BulkEntities(req.body).None? ==>
        && res.status == 400
        && res.body == Json(FailureJson(InvalidDataError, EntitiesMessage))
        && service.collection.docs == old(service.collection.docs)
      ensures BulkEntities(req.body).Some? ==>
        var entities := BulkEntities(req.body).value;
        && res.status == 201
        && service.collection.docs == old(service.collection.docs) + Keyed(ids, TimestampedAll(SpreadAll(entities), now))
        && res.body == Json(SuccessJson(InsertManyResultJson(ids), NatToString(|entities|) + " " + entityName + BulkCreatedSuffix))
    {
      var entities := BulkEntities(req.body);
      if entities.None? {
        res.Reply(400, FailureJson(InvalidDataError, EntitiesMessage));
        return;
      }
      var result := service.BulkCreate(SpreadAll(entities.value), now, ids);
      // the guard leaves a non-empty batch, which the service always inserts
      assert result.Success?;
      res.Reply(201, SuccessJson(InsertManyResultJson(result.data), result.message));
    }

    /** `getStats(req, res)` at time `now`. */
    method GetStats(res: Response, now: int)
      requires res.Fresh()
      modifies res
      ensures res.finished && res.status == 200 && res.headers == old(res.headers)
      ensures var s := service.GetStats(now);
        res.body == Json(SuccessJson(
          Obj(map["total" := Num(s.total), "recent24h" := Num(s.recent24h), "entityName" := Str(s.entityName)]),
          StatsPrefix + entityName + StatsSuffix))
    {
      var s := service.GetStats(now);
      res.SendJson(SuccessJson(
        Obj(map["total" := Num(s.total), "recent24h" := Num(s.recent24h), "entityName" := Str(s.entityName)]),
        StatsPrefix + entityName + StatsSuffix));
    }

    /**
     * The specialised finders: `findAll` with their own filter (and sort),
     * the default page of 10, answering the page or the service's error.
     */
    method ListBy(opts: FindOptions, order: seq<Id>, res: Response, message: string)
      requires res.Fresh() && Enumerates(order, service.collection.docs)
      modifies res
      ensures res.finished && res.headers == old(res.headers)
      ensures var r := service.FindAll(opts, order);
        && (r.Listed? ==> res.status == 200 && res.body == Json(ListingJson(r, message, false)))
        && (r.ListFailed? ==> res.status == 400 && res.body == Json(FailureJson(r.error, r.message)))
    {
      var result := service.FindAll(opts, order);
      if result.Listed? {
        res.SendJson(ListingJson(result, message, false));
      } else {
        res.Reply(400, FailureJson(result.error, result.message));
      }
    }
  }

  /** The listing options of a specialised finder: the defaults with its filter. */
  function FilterOptions(filter: map<string, Cond>): (o: FindOptions)
    ensures o.filter == filter && o.page == Num(1) && o.limit == Num(10)
    ensures o.search == Null && o.searchFields == []
  {
    DefaultFindOptions.(filter := filter)
  }

  /** `{ field: { $in: [value] } }` */
  function ContainsFilter(field: string, value: string): map<string, Cond> {
    map[field := In([Str(value)])]
  }

  /** A record is selected when its field is that text or an array holding it. */
  lemma ContainsFilterMatches(field: string, value: string, r: Record)
    requires '.' !in field
    ensures Matches(Query(ContainsFilter(field, value), None), r) <==>
      Get(r, field) == Str(value) || (Get(r, field).Arr? && Str(value) in Get(r, field).items)
  {
    MatchesSingle(field, In([Str(value)]), r);
    ResolvePlain(r, field);
    PathMatchesOne(In([Str(value)]), Get(r, field));
    assert CondMatches(In([Str(value)]), Get(r, field)) <==> EqMatches(Str(value), Get(r, field)) by {
      assert Str(value) in [Str(value)];
    }
  }

  /** `{ field: value }` for a text value */
  function EqFilter(field: string, value: string): map<string, Cond> {
    map[field := Eq(Str(value))]
  }

  /** A record is selected when its field is that text or an array holding it. */
  lemma EqFilterMatches(field: string, value: string, r: Record)
    requires '.' !in field
    ensures Matches(Query(EqFilter(field, value), None), r) <==>
      Get(r, field) == Str(value) || (Get(r, field).Arr? && Str(value) in Get(r, field).items)
  {
    MatchesSingle(field, Eq(Str(value)), r);
    ResolvePlain(r, field);
    PathMatchesOne(Eq(Str(value)), Get(r, field));
  }

  /** `{ field: { $regex: pattern, $options: 'i' } }` */
  function TextFilter(field: string, pattern: string): map<string, Cond> {
    map[field := RegexI(pattern)]
  }

  /**
   * A record is selected when its field is a text containing the pattern
   * in any letter case, or an array holding such a text.
   */
  lemma TextFilterMatches(field: string, pattern: string, r: Record)
    requires '.' !in field
    ensures Matches(Query(TextFilter(field, pattern), None), r) <==>
      || (Get(r, field).Str? && IsSubstring(Lower(pattern), Lower(Get(r, field).s)))
      || (Get(r, field).Arr? && exists e | e in Get(r, field).items :: e.Str? && IsSubstring(Lower(pattern), Lower(e.s)))
  {
    MatchesSingle(field, RegexI(pattern), r);
    ResolvePlain(r, field);
    PathMatchesOne(RegexI(pattern), Get(r, field));
  }

  // ------------------------------------------------------ distinct listings

  /** The values `distinct(field)` collects from one field: each element of an array, nothing for a missing field. */
  function FieldValues(x: Value): set<Value> {
    match x
    case Undefined => {}
    case Arr(items) => set e | e in items
    case _ => {x}
  }

  /** `distinct(field)` over the collection, as a set. */
  function DistinctValues(docs: map<Id, Record>, field: string): set<Value> {
    set id, v | id in docs && v in FieldValues(Get(docs[id], field)) :: v
  }

  /** `listed` gives each value of `values` once (the order the database uses is not modelled). */
  predicate ListsOnce(listed: seq<Value>, values: set<Value>) {
    Distinct(listed) && (forall v | v in listed :: v in values) && (forall v | v in values :: v in listed)
  }

  /** `xs.filter(s => s)` */
  function KeepTruthy(xs: seq<Value>): (ys: seq<Value>)
    ensures forall v :: v in ys <==> v in xs && Truthy(v)
    ensures |ys| <= |xs|
  {
    if xs == [] then []
    else
      var last := xs[|xs| - 1];
      assert forall v | v in xs :: v in xs[..|xs| - 1] || v == last;
      KeepTruthy(xs[..|xs| - 1]) + (if Truthy(last) then [last] else [])
  }

  lemma {:induction false} KeepTruthyDistinct(xs: seq<Value>)
    requires Distinct(xs)
    ensures Distinct(KeepTruthy(xs))
  {
    if xs != [] {
      var pre := xs[..|xs| - 1];
      assert Distinct(pre);
      KeepTruthyDistinct(pre);
      assert xs[|xs| - 1] !in pre;
    }
  }

  /** The corrected listing holds every truthy value stored in the field, once each, and nothing else. */
  lemma DistinctTruthyListing(docs: map<Id, Record>, field: string, listed: seq<Value>)
    requires ListsOnce(listed, DistinctValues(docs, field))
    ensures Distinct(KeepTruthy(listed))
    ensures forall v :: v in KeepTruthy(listed) <==>
      Truthy(v) && exists id | id in docs :: v in FieldValues(Get(docs[id], field))
  {
    KeepTruthyDistinct(listed);
    forall v ensures v in KeepTruthy(listed) <==> Truthy(v) && exists id | id in docs :: v in FieldValues(Get(docs[id], field))
    {
      if Truthy(v) && exists id | id in docs :: v in FieldValues(Get(docs[id], field)) {
        var id :| id in docs && v in FieldValues(Get(docs[id], field));
        assert v in DistinctValues(docs, field);
      }
    }
  }

  /**
   * A route that reads `this.collection` (a distinct or an aggregation),
   * as written: the controller never sets that field, so the call throws
   * and the only answer is the internal error.
   */
  method UnsetCollectionReply(res: Response, failureMessage: string)
    requires res.Fresh()
    modifies res
    ensures res.finished && res.headers == old(res.headers)
    ensures res.status == 500 && res.body == Json(FailureJson(InternalError, failureMessage))
  {
    res.Reply(500, FailureJson(InternalError, failureMessage));
  }

  /** A distinct-values route reading the service's collection, as intended: the stored values, falsy ones dropped. */
  method DistinctTruthy(ctl: CrudController, field: string, listed: seq<Value>, res: Response, message: string)
    requires res.Fresh() && ListsOnce(listed, DistinctValues(ctl.service.collection.docs, field))
    modifies res
    ensures res.finished && res.headers == old(res.headers)
    ensures res.status == 200 && res.body == Json(SuccessJson(Arr(KeepTruthy(listed)), message))
  {
    res.SendJson(SuccessJson(Arr(KeepTruthy(listed)), message));
  }
}

=== FILE: crud_service.dfy ===
/**
 * The generic CRUD service every entity controller delegates to: field
 * validation that collects every error, creation with timestamps and a
 * hashed password, a paginated listing with an optional text search,
 * id-checked read / update / delete, bulk creation and statistics.
 */
module Service {
  import opened Wrappers
  import opened JsValues
  import opened Seqs
  import opened Documents

  const NotFoundError: string := "Entité non trouvée"
  const InvalidIdError: string := "ID invalide"
  const InvalidIdMessage: string := "Format d'ID invalide"
  const EmailError: string := "Format d'email invalide"
  const PhoneError: string := "Format de téléphone invalide"
  /** The `TypeError` thrown when `email` is truthy but has no `includes` method. */
  const EmailTypeError: string := "email.includes is not a function"
  /** What the database answers when it rejects a listing (negative skip, a non-numeric page size, a non-string pattern); its wording is not modelled. */
  const QueryRejected: string := "query rejected by the database"
  /** What the driver throws for `insertMany([])`. */
  const EmptyBatchError: string := "Invalid BulkOperation, Batch cannot be empty"
  const DayMs: int := 24 * 60 * 60 * 1000

  /** The envelope every service call returns. */
  datatype Outcome<T> = Success(data: T, message: string) | Failure(error: string, message: string)

  datatype Validation = Validation(isValid: bool, errors: seq<string>)

  // --------------------------------------------------------------- validation

  function RequiredMessage(field: string): string {
    "Le champ '" + field + "' est requis"
  }

  lemma RequiredMessageInjective(f: string, g: string)
    requires RequiredMessage(f) == RequiredMessage(g)
    ensures f == g
  {
    var m := RequiredMessage(f);
    assert f == m[10..|m| - 12];
    assert g == RequiredMessage(g)[10..|RequiredMessage(g)| - 12];
  }

  /** The fields of `fields`, in order, whose value in `data` is missing or falsy. */
  function MissingFields(fields: seq<string>, data: Record): seq<string> {
    if fields == [] then []
    else
      var last := fields[|fields| - 1];
      MissingFields(fields[..|fields| - 1], data) + (if Truthy(Get(data, last)) then [] else [last])
  }

  /** A field is reported missing exactly when it is required and its value is falsy. */
  lemma {:induction false} MissingFieldsMembership(fields: seq<string>, data: Record)
    ensures forall f :: f in MissingFields(fields, data) <==> f in fields && !Truthy(Get(data, f))
  {
    if fields != [] {
      var pre := fields[..|fields| - 1];
      MissingFieldsMembership(pre, data);
      assert fields == pre + [fields[|fields| - 1]];
    }
  }

  /** Missing fields are reported once each, in declaration order. */
  lemma {:induction false} MissingFieldsInOrder(fields: seq<string>, data: Record)
    requires Distinct(fields)
    ensures InOrder(MissingFields(fields, data), fields)
  {
    if fields != [] {
      var pre := fields[..|fields| - 1];
      var last := fields[|fields| - 1];
      assert Distinct(pre);
      MissingFieldsInOrder(pre, data);
      MissingFieldsMembership(pre, data);
      var m := MissingFields(pre, data);
      assert forall x | x in pre :: Position(fields, x) == Position(pre, x) by {
        forall x | x in pre ensures Position(fields, x) == Position(pre, x) {
          PositionPrefix(pre, last, x);
        }
      }
      assert InOrder(m, fields) by {
        forall i, j | 0 <= i < j < |m|
          ensures m[i] in fields && m[j] in fields && Position(fields, m[i]) < Position(fields, m[j])
        {
          assert m[i] in pre && m[j] in pre;
        }
      }
      if !Truthy(Get(data, last)) {
        assert Position(fields, last) == |fields| - 1 by {
          assert last !in pre;
        }
        forall y | y in m ensures Position(fields, y) < Position(fields, last) {
          assert y in pre;
        }
        InOrderAppend(m, last, fields);
      }
    }
  }

  lemma {:induction false} PositionPrefix(pre: seq<string>, last: string, x: string)
    requires x in pre
    ensures Position(pre + [last], x) == Position(pre, x)
  {
    if pre[0] != x {
      assert (pre + [last])[1..] == pre[1..] + [last];
      PositionPrefix(pre[1..], last, x);
    }
  }

  function RequiredMessages(missing: seq<string>): (msgs: seq<string>)
    ensures |msgs| == |missing|
  {
    seq(|missing|, i requires 0 <= i < |missing| => RequiredMessage(missing[i]))
  }

  /** The three non-empty runs `^[^\s@]+@[^\s@]+\.[^\s@]+$` demands. */
  predicate PlainRun(s: string) {
    forall k | 0 <= k < |s| :: !IsJsSpace(s[k]) && s[k] != '@'
  }

  /** `/^[^\s@]+@[^\s@]+\.[^\s@]+$/.test(s)` */
  predicate EmailPattern(s: string) {
    exists i, j | 0 < i && i + 1 < j && j + 1 < |s| ::
      s[i] == '@' && s[j] == '.' && PlainRun(s[..i]) && PlainRun(s[i + 1..j]) && PlainRun(s[j + 1..])
  }

  /** An address the pattern accepts holds exactly one '@', with text on both sides. */
  lemma EmailPatternOneAt(s: string)
    requires EmailPattern(s)
    ensures exists i | 0 < i < |s| - 1 :: s[i] == '@' && '@' !in s[..i] && '@' !in s[i + 1..]
  {
    var i, j :| 0 < i && i + 1 < j && j + 1 < |s| && s[i] == '@' && s[j] == '.'
      && PlainRun(s[..i]) && PlainRun(s[i + 1..j]) && PlainRun(s[j + 1..]);
    forall k | i + 1 <= k < |s| ensures s[k] != '@' {
      if k < j {
        assert s[i + 1..j][k - i - 1] == s[k];
      } else if k > j {
        assert s[j + 1..][k - j - 1] == s[k];
      }
    }
    forall k | 0 <= k < i ensures s[k] != '@' {
      assert s[..i][k] == s[k];
    }
  }

  /**
   * `isValidEmail(email)`: falsy values and text without '@' pass; text
   * with '@' must match the pattern. `includes` on an array looks for an
   * element equal to "@", and the pattern then tests the array's text.
   * Other truthy values have no `includes` and make the call throw.
   */
  function IsValidEmail(email: Value): (r: Result<bool, string>)
    ensures !Truthy(email) ==> r == Ok(true)
    ensures email.Str? ==> r == Ok('@' !in email.s || EmailPattern(email.s))
    ensures r.Err? <==> Truthy(email) && !(email.Str? || email.Arr? || email.Hashed?)
  {
    if !Truthy(email) then Ok(true)
    else match email
      case Str(s) => Ok('@' !in s || EmailPattern(s))
      case Hashed(_) =>
        var s := ToJsString(email);
        Ok('@' !in s || EmailPattern(s))
      case Arr(items) => Ok(Str("@") !in items || EmailPattern(ToJsString(email)))
      case _ => Err(EmailTypeError)
  }

  /** `isValidPhone` accepts every value. */
  function IsValidPhone(phone: Value): (ok: bool)
    ensures ok
  {
    true
  }

  /** The format errors `validateData` adds after the required-field errors, or the exception it throws. */
  function FormatErrors(data: Record): (r: Result<seq<string>, string>)
    ensures r.Ok? ==> forall e | e in r.value :: e == EmailError
  {
    var email := Get(data, "email");
    var phone := Get(data, "phone");
    var phoneErrors := if Truthy(phone) && !IsValidPhone(phone) then [PhoneError] else [];
    if !Truthy(email) then Ok(phoneErrors)
    else match IsValidEmail(email)
      case Err(e) => Err(e)
      case Ok(valid) => Ok((if valid then [] else [EmailError]) + phoneErrors)
  }

  /** `validateData(data, isUpdate)` against the field list `required`. */
  function Validate(required: seq<string>, data: Record, isUpdate: bool): (r: Result<Validation, string>)
    ensures r.Ok? ==> (r.value.isValid <==> r.value.errors == [])
    ensures r.Err? <==> Truthy(Get(data, "email")) && IsValidEmail(Get(data, "email")).Err?
  {
    var missing := if isUpdate then [] else RequiredMessages(MissingFields(required, data));
    match FormatErrors(data)
    case Err(e) => Err(e)
    case Ok(format) => Ok(Validation(missing + format == [], missing + format))
  }

  /**
   * On creation, the errors begin with one "requis" message per missing or
   * falsy required field, in declaration order, followed only by format
   * errors; the phone never produces one.
   */
  lemma CreateValidationReportsMissing(required: seq<string>, data: Record)
    requires Distinct(required)
    ensures var r := Validate(required, data, false);
      r.Ok? ==>
        && (forall f :: RequiredMessage(f) in r.value.errors <==> f in required && !Truthy(Get(data, f)))
        && r.value.errors[..|MissingFields(required, data)|] == RequiredMessages(MissingFields(required, data))
        && InOrder(MissingFields(required, data), required)
        && PhoneError !in r.value.errors
  {
    var r := Validate(required, data, false);
    MissingFieldsMembership(required, data);
    MissingFieldsInOrder(required, data);
    if r.Ok? {
      var missing := MissingFields(required, data);
      var msgs := RequiredMessages(missing);
      var format := FormatErrors(data).value;
      assert r.value.errors == msgs + format;
      RequiredMessagesMembership(missing);
      forall f ensures RequiredMessage(f) !in format {
        assert RequiredMessage(f)[0] == 'L';
      }
    }
  }

  /** The message list names exactly the missing fields and never holds a format error. */
  lemma RequiredMessagesMembership(missing: seq<string>)
    ensures forall f :: RequiredMessage(f) in RequiredMessages(missing) <==> f in missing
    ensures EmailError !in RequiredMessages(missing) && PhoneError !in RequiredMessages(missing)
  {
    var msgs := RequiredMessages(missing);
    forall f ensures RequiredMessage(f) in msgs <==> f in missing {
      if f in missing {
        var k :| 0 <= k < |missing| && missing[k] == f;
        assert msgs[k] == RequiredMessage(f);
      }
      if RequiredMessage(f) in msgs {
        var k :| 0 <= k < |msgs| && msgs[k] == RequiredMessage(f);
        RequiredMessageInjective(f, missing[k]);
      }
    }
    forall k | 0 <= k < |msgs| ensures msgs[k] != EmailError && msgs[k] != PhoneError {
      assert msgs[k][0] == 'L';
    }
  }

  /** On update no required-field error is ever reported. */
  lemma UpdateValidationIgnoresRequired(required: seq<string>, data: Record)
    ensures var r := Validate(required, data, true);
      r.Ok? ==> forall f :: RequiredMessage(f) !in r.value.errors
  {
    var r := Validate(required, data, true);
    if r.Ok? {
      forall f ensures RequiredMessage(f) !in r.value.errors {
        assert RequiredMessage(f)[0] == 'L';
        assert r.value.errors == FormatErrors(data).value;
      }
    }
  }

  // -------------------------------------------------------------- pagination

  datatype SortSpec = SortSpec(field: string, direction: int)

  /** The options `findAll` accepts; an `undefined` page or limit takes its default. */
  datatype FindOptions = FindOptions(
    page: Value,
    limit: Value,
    sort: SortSpec,
    filter: map<string, Cond>,
    search: Value,
    searchFields: seq<string>)

  const DefaultSort: SortSpec := SortSpec("createdAt", -1)
  const DefaultFindOptions: FindOptions := FindOptions(Num(1), Num(10), DefaultSort, map[], Null, [])

  datatype Pagination = Pagination(
    page: int,
    limit: int,
    total: nat,
    totalPages: Option<int>,   // None: `Math.ceil(total / 0)` is not finite
    hasNext: bool,
    hasPrev: bool)

  datatype Listing = Listed(data: seq<Value>, pagination: Pagination) | ListFailed(error: string, message: string)

  function Abs(n: int): nat {
    if n < 0 then -n else n
  }

  /** `Math.ceil(total / limit)`, when it is finite. */
  function CeilDiv(total: nat, limit: int): (t: Option<int>)
    ensures limit == 0 <==> t.None?
  {
    if limit == 0 then None
    else
      var m := Abs(limit);
      if limit > 0 then Some((total + m - 1) / m) else Some(-(total / m))
  }

  /**
   * For a positive limit, the page count is the least one covering `total`;
   * for a negative one, the division rounds toward zero before the sign flips.
   */
  lemma CeilDivBounds(total: nat, limit: int)
    ensures var t := CeilDiv(total, limit);
      && (limit > 0 ==> (t.value - 1) * limit < total <= t.value * limit)
      && (limit < 0 ==> t.value * limit <= total < (t.value - 1) * limit)
  {
    if limit != 0 {
      var m := Abs(limit);
      var q := (total + m - 1) / m;
      assert (q - 1) * m < total <= q * m by {
        assert total + m - 1 == q * m + (total + m - 1) % m;
      }
    }
  }

  /** The `pagination` object of a listing. */
  function Paginate(page: int, limit: int, total: nat): (p: Pagination)
    ensures p.page == page && p.limit == limit && p.total == total
    ensures p.totalPages == CeilDiv(total, limit)
    ensures p.hasNext <==> page * limit < total
    ensures p.hasPrev <==> page > 1
  {
    Pagination(page, limit, total, CeilDiv(total, limit), page * limit < total, page > 1)
  }

  /**
   * With `count` documents on page `page` of size `limit` (the whole page,
   * part of it or none), `hasNext` holds exactly when matches remain after them.
   */
  lemma PageHasNext(p: Pagination, page: int, limit: int, count: int)
    requires limit > 0 && page >= 1 && (p.hasNext <==> page * limit < p.total)
    requires var skip := (page - 1) * limit;
      count == if p.total <= skip then 0 else if skip + limit <= p.total then limit else p.total - skip
    ensures p.hasNext <==> (page - 1) * limit + count < p.total
  {
    var skip := (page - 1) * limit;
    assert page * limit == skip + limit;
  }

  /** The `$or` of case-insensitive pattern clauses, one per search field. */
  function SearchClauses(pattern: string, fields: seq<string>): (cs: seq<Clause>)
    ensures |cs| == |fields|
    ensures forall i | 0 <= i < |cs| :: cs[i] == Clause(fields[i], RegexI(pattern))
  {
    seq(|fields|, i requires 0 <= i < |fields| => Clause(fields[i], RegexI(pattern)))
  }

  /** The filter `findAll` sends, or None when the database would refuse it (a non-string pattern). */
  function BuildQuery(filter: map<string, Cond>, search: Value, searchFields: seq<string>): (q: Option<Query>)
    ensures q.Some? ==> q.value.conds == filter
    ensures q.Some? ==> (q.value.any.Some? <==> Truthy(search) && |searchFields| > 0)
    ensures q.Some? && q.value.any.Some? ==> search.Str? && q.value.any.value == SearchClauses(search.s, searchFields)
    ensures q.None? <==> Truthy(search) && |searchFields| > 0 && !search.Str?
  {
    if Truthy(search) && |searchFields| > 0 then
      if search.Str? then Some(Query(filter, Some(SearchClauses(search.s, searchFields)))) else None
    else Some(Query(filter, None))
  }

  /** Some clause of the `$or` holds exactly when one search field holds the pattern's text. */
  lemma SearchClausesMatch(pattern: string, fields: seq<string>, r: Record)
    ensures (exists c | c in SearchClauses(pattern, fields) :: ClauseMatches(c, r)) <==>
            exists i | 0 <= i < |fields| :: PathMatches(RegexI(pattern), Reach(r, fields[i]))
  {
    var cs := SearchClauses(pattern, fields);
    if exists i | 0 <= i < |fields| :: PathMatches(RegexI(pattern), Reach(r, fields[i])) {
      var i :| 0 <= i < |fields| && PathMatches(RegexI(pattern), Reach(r, fields[i]));
      assert ClauseMatches(cs[i], r);
    }
    if exists c | c in cs :: ClauseMatches(c, r) {
      var c :| c in cs && ClauseMatches(c, r);
      var i :| 0 <= i < |cs| && cs[i] == c;
      assert PathMatches(RegexI(pattern), Reach(r, fields[i]));
    }
  }

  /** A document matches the search exactly when one search field holds the pattern's text, ignoring letter case. */
  lemma SearchMatches(filter: map<string, Cond>, pattern: string, fields: seq<string>, r: Record)
    requires pattern != "" && |fields| > 0
    ensures var q := BuildQuery(filter, Str(pattern), fields).value;
      Matches(q, r) <==>
        (Matches(Query(filter, None), r)
         && exists i | 0 <= i < |fields| :: PathMatches(RegexI(pattern), Reach(r, fields[i])))
  {
    SearchClausesMatch(pattern, fields, r);
  }

  /** `ids[skip..][..take]`, clipped to the list. */
  function Window(ids: seq<Id>, skip: nat, take: nat): (w: seq<Id>)
    ensures |w| <= take
    ensures skip <= |ids| ==> |w| == if skip + take <= |ids| then take else |ids| - skip
    ensures skip > |ids| ==> w == []
    ensures forall k | 0 <= k < |w| :: w[k] == ids[skip + k]
  {
    if skip >= |ids| then []
    else if skip + take <= |ids| then ids[skip..skip + take]
    else ids[skip..]
  }

  /** A time-stamped copy: `{ ...data, createdAt: now, updatedAt: now }` without an `_id`. */
  function Timestamped(data: Record, now: int): (r: Record)
    ensures "_id" !in r && "createdAt" in r && "updatedAt" in r && r["createdAt"] == Date(now) && r["updatedAt"] == Date(now)
    ensures r.Keys == data.Keys - {"_id"} + {"createdAt", "updatedAt"}
    ensures forall f | f in data && f !in {"_id", "createdAt", "updatedAt"} :: r[f] == data[f]
  {
    WithoutId(data["createdAt" := Date(now)]["updatedAt" := Date(now)])
  }

  /** bcrypt takes the password a body carries: a falsy one is not hashed, and a truthy one is text. */
  predicate PasswordAccepted(data: Record) {
    !Truthy(Get(data, "password")) || IsText(Get(data, "password"))
  }

  /**
   * `if (e.password) e.password = await bcrypt.hash(e.password, 10)`: the
   * record with a truthy password replaced by its digest, or bcrypt's
   * refusal of a password that is not text.
   */
  function HashPassword(e: Record): (r: Result<Record, string>)
    ensures r.Ok? <==> PasswordAccepted(e)
    ensures r.Err? ==> r.error == BcryptWrongType
    ensures r.Ok? ==> r.value.Keys == e.Keys && forall f | f in e && f != "password" :: r.value[f] == e[f]
    ensures r.Ok? && Truthy(Get(e, "password")) ==> r.value["password"] == Hash(e["password"])
    ensures r.Ok? && !Truthy(Get(e, "password")) ==> r.value == e
  {
    var p := Get(e, "password");
    if !Truthy(p) then Ok(e)
    else match BcryptHash(p)
      case Ok(digest) => Ok(e["password" := digest])
      case Err(message) => Err(message)
  }

  /** What `create` stores for `data`: the time-stamped copy with a truthy password hashed. */
  function Stamped(data: Record, now: int): (r: Record)
    requires PasswordAccepted(data)
    ensures "_id" !in r && "createdAt" in r && "updatedAt" in r && r["createdAt"] == Date(now) && r["updatedAt"] == Date(now)
    ensures r.Keys == data.Keys - {"_id"} + {"createdAt", "updatedAt"}
    ensures Truthy(Get(data, "password")) ==> r["password"] == Hash(data["password"])
    ensures forall f | f in data && f !in {"_id", "createdAt", "updatedAt"} && (f != "password" || !Truthy(data[f])) :: r[f] == data[f]
  {
    var e := Timestamped(data, now);
    assert Get(e, "password") == Get(data, "password");
    HashPassword(e).value
  }

  /** The `$set` that `update` sends: `{ ...data, updatedAt: now }` without `_id`, a truthy password hashed. */
  function Patch(data: Record, now: int): (p: Record)
    requires PasswordAccepted(data)
    ensures "_id" !in p && "updatedAt" in p && p["updatedAt"] == Date(now)
    ensures p.Keys == data.Keys - {"_id"} + {"updatedAt"}
    ensures Truthy(Get(data, "password")) ==> p["password"] == Hash(data["password"])
    ensures forall f | f in data && f !in {"_id", "updatedAt"} && (f != "password" || !Truthy(data[f])) :: p[f] == data[f]
  {
    var u := WithoutId(data["updatedAt" := Date(now)]);
    if Truthy(Get(u, "password")) then u["password" := Hash(u["password"])] else u
  }

  /** The documents `bulkCreate` prepares: every entity time-stamped, nothing hashed, nothing validated. */
  function TimestampedAll(entities: seq<Record>, now: int): (rs: seq<Record>)
    ensures |rs| == |entities|
    ensures forall i | 0 <= i < |rs| :: rs[i] == Timestamped(entities[i], now)
  {
    seq(|entities|, i requires 0 <= i < |entities| => Timestamped(entities[i], now))
  }

  datatype Stats = Stats(total: nat, recent24h: nat, entityName: string)

  /** `{ createdAt: { $gte: new Date(now - 24h) } }` */
  function RecentQuery(now: int): Query {
    Query(map["createdAt" := Range(Some(Date(now - DayMs)), None)], None)
  }

  lemma SubsetCard(a: set<Id>, b: set<Id>)
    requires a <= b
    ensures |a| <= |b|
  {
    if a != {} {
      var x :| x in a;
      SubsetCard(a - {x}, b - {x});
    }
  }

  // The message texts of the service.
  const CreateErrorPrefix: string := "Erreur lors de la création de "
  const ReadErrorPrefix: string := "Erreur lors de la lecture de "
  const UpdateErrorPrefix: string := "Erreur lors de la mise à jour de "
  const BulkErrorPrefix: string := "Erreur lors de la création en lot de "
  const ValidationFailedPrefix: string := "Validation échouée: "
  const CreatedSuffix: string := " créé avec succès"
  const UpdatedSuffix: string := " mis à jour avec succès"
  const DeletedSuffix: string := " supprimé avec succès"
  const BulkCreatedSuffix: string := "(s) créé(s) avec succès"
  const InvalidDataError: string := "Données invalides"

  class CrudService {
    const collection: Collection
    const entityName: string
    const requiredFields: seq<string>
    const optionalFields: seq<string>

    constructor (collection: Collection, entityName: string, requiredFields: seq<string>, optionalFields: seq<string>)
      ensures this.collection == collection && this.entityName == entityName
      ensures this.requiredFields == requiredFields && this.optionalFields == optionalFields
    {
      this.collection := collection;
      this.entityName := entityName;
      this.requiredFields := requiredFields;
      this.optionalFields := optionalFields;
    }

    function NotFoundMessage(): string {
      entityName + " non trouvé"
    }

    /** `validateData(data, isUpdate)`: errors are pushed field by field. */
    method ValidateData(data: Record, isUpdate: bool) returns (r: Result<Validation, string>)
      ensures r == Validate(requiredFields, data, isUpdate)
    {
      var errors: seq<string> := [];
      if !isUpdate {
        for i := 0 to |requiredFields|
          invariant errors == RequiredMessages(MissingFields(requiredFields[..i], data))
        {
          assert requiredFields[..i + 1][..i] == requiredFields[..i];
          if !Truthy(Get(data, requiredFields[i])) {
            errors := errors + [RequiredMessage(requiredFields[i])];
          }
        }
        assert requiredFields[..|requiredFields|] == requiredFields;
      }
      ghost var missing := errors;
      var email := Get(data, "email");
      if Truthy(email) {
        var verdict := IsValidEmail(email);
        if verdict.Err? {
          return Err(verdict.error);
        }
        if !verdict.value {
          errors := errors + [EmailError];
        }
      }
      var phone := Get(data, "phone");
      if Truthy(phone) && !IsValidPhone(phone) {
        errors := errors + [PhoneError];
      }
      assert errors == missing + FormatErrors(data).value;
      r := Ok(Validation(|errors| == 0, errors));
    }

    /** `create(data)`, inserting under the fresh ObjectId `newId` at time `now`. */
    method Create(data: Record, now: int, newId: Id) returns (r: Outcome<Value>)
      requires collection.Valid() && CanonicalId(newId) && newId !in collection.docs
      modifies collection
      ensures collection.Valid()
      ensures var v := Validate(requiredFields, data, false);
        && (r.Success? <==> v.Ok? && v.value.isValid && PasswordAccepted(data))
        && (v.Err? ==> r == Failure(v.error, CreateErrorPrefix + entityName))
        && (v.Ok? && !v.value.isValid ==>
              r == Failure(ValidationFailedPrefix + Join(v.value.errors, ", "), CreateErrorPrefix + entityName))
        && (v.Ok? && v.value.isValid && !PasswordAccepted(data) ==> r == Failure(BcryptWrongType, CreateErrorPrefix + entityName))
      ensures r.Failure? ==> collection.docs == old(collection.docs)
      ensures r.Success? ==>
        && collection.docs == old(collection.docs)[newId := Stamped(data, now)]
        && r == Success(DocValue(newId, Stamped(data, now)), entityName + CreatedSuffix)
        && FindById(newId) == Success(r.data, entityName + " trouvé")
    {
      var validation := ValidateData(data, false);
      if validation.Err? {
        return Failure(validation.error, CreateErrorPrefix + entityName);
      }
      if !validation.value.isValid {
        return Failure(ValidationFailedPrefix + Join(validation.value.errors, ", "), CreateErrorPrefix + entityName);
      }
      r := InsertStamped(data, now, newId);
    }

    /** The part of `create` after validation: hash the password, insert, read the document back. */
    method InsertStamped(data: Record, now: int, newId: Id) returns (r: Outcome<Value>)
      requires collection.Valid() && CanonicalId(newId) && newId !in collection.docs
      modifies collection
      ensures collection.Valid()
      ensures r.Success? <==> PasswordAccepted(data)
      ensures r.Failure? ==> r == Failure(BcryptWrongType, CreateErrorPrefix + entityName) && collection.docs == old(collection.docs)
      ensures r.Success? ==>
        && collection.docs == old(collection.docs)[newId := Stamped(data, now)]
        && r == Success(DocValue(newId, Stamped(data, now)), entityName + CreatedSuffix)
        && FindById(newId) == Success(r.data, entityName + " trouvé")
    {
      var entity := Timestamped(data, now);
      assert Get(entity, "password") == Get(data, "password");
      var hashed := HashPassword(entity);
      if hashed.Err? {
        return Failure(hashed.error, CreateErrorPrefix + entityName);
      }
      entity := hashed.value;
      assert WithoutId(entity) == Stamped(data, now);
      collection.InsertOne(newId, entity);
      ObjectIdOfCanonical(newId);
      var created := collection.FindOne(newId);
      r := Success(DocValue(newId, created.value), entityName + CreatedSuffix);
    }

    /**
     * `findAll(options)`: one page of the documents matching the filter and
     * search, listed in the cursor order `order`, and the count of all of them.
     */
    function FindAll(opts: FindOptions, order: seq<Id>): (r: Listing)
      reads collection
      requires Enumerates(order, collection.docs)
      ensures r.Listed? <==>
        && (opts.page.Undefined? || opts.page.Num?) && (opts.limit.Undefined? || opts.limit.Num?)
        && BuildQuery(opts.filter, opts.search, opts.searchFields).Some?
        && (PageOf(opts) - 1) * LimitOf(opts) >= 0
      ensures r.ListFailed? ==> r == ListFailed(QueryRejected, ReadErrorPrefix + entityName)
      ensures r.Listed? ==>
        var q := BuildQuery(opts.filter, opts.search, opts.searchFields).value;
        var m := MatchingIds(order, collection.docs, q);
        var skip := (PageOf(opts) - 1) * LimitOf(opts);
        var take := if LimitOf(opts) == 0 then |order| else Abs(LimitOf(opts));
        && r.pagination == Paginate(PageOf(opts), LimitOf(opts), |MatchSet(collection.docs, q)|)
        && |r.data| == (if |m| <= skip then 0 else if skip + take <= |m| then take else |m| - skip)
        && (forall v | v in r.data :: exists id | id in collection.docs :: v == DocValue(id, collection.docs[id]) && Matches(q, collection.docs[id]))
        && r.data == PageValues(Window(m, skip, take), q)
    {
      var query := BuildQuery(opts.filter, opts.search, opts.searchFields);
      if !(opts.page.Undefined? || opts.page.Num?) || !(opts.limit.Undefined? || opts.limit.Num?) || query.None? then
        ListFailed(QueryRejected, ReadErrorPrefix + entityName)
      else
        var skip := (PageOf(opts) - 1) * LimitOf(opts);
        if skip < 0 then ListFailed(QueryRejected, ReadErrorPrefix + entityName)
        else
          var take := if LimitOf(opts) == 0 then |order| else Abs(LimitOf(opts));
          var matching := MatchingIds(order, collection.docs, query.value);
          var ids := Window(matching, skip, take);
          Listed(PageValues(ids, query.value), Paginate(PageOf(opts), LimitOf(opts), |MatchSet(collection.docs, query.value)|))
    }

    /** The documents of the page, as the driver returns them; each is a stored document that matches. */
    function PageValues(ids: seq<Id>, q: Query): (data: seq<Value>)
      reads collection
      requires forall i | 0 <= i < |ids| :: ids[i] in collection.docs && Matches(q, collection.docs[ids[i]])
      ensures |data| == |ids|
      ensures forall i | 0 <= i < |ids| :: data[i] == DocValue(ids[i], collection.docs[ids[i]])
      ensures forall v | v in data :: exists id | id in collection.docs :: v == DocValue(id, collection.docs[id]) && Matches(q, collection.docs[id])
    {
      var docs := collection.docs;
      var data := seq(|ids|, i requires 0 <= i < |ids| => DocValue(ids[i], docs[ids[i]]));
      assert forall v | v in data :: exists id | id in docs :: v == DocValue(id, docs[id]) && Matches(q, docs[id]) by {
        forall v | v in data
          ensures exists id | id in docs :: v == DocValue(id, docs[id]) && Matches(q, docs[id])
        {
          var i :| 0 <= i < |data| && data[i] == v;
          assert v == DocValue(ids[i], docs[ids[i]]);
        }
      }
      data
    }

    /**
     * The page holds the matching documents in cursor order, starting after
     * the `(page - 1) * limit` that come first.
     */
    lemma FindAllPage(opts: FindOptions, order: seq<Id>)
      requires Enumerates(order, collection.docs) && FindAll(opts, order).Listed?
      ensures var r := FindAll(opts, order);
        var q := BuildQuery(opts.filter, opts.search, opts.searchFields).value;
        var m := MatchingIds(order, collection.docs, q);
        var skip := (PageOf(opts) - 1) * LimitOf(opts);
        skip >= 0 &&
        forall k | 0 <= k < |r.data| :: skip + k < |m| && r.data[k] == DocValue(m[skip + k], collection.docs[m[skip + k]])
    {
      var q := BuildQuery(opts.filter, opts.search, opts.searchFields).value;
      var m := MatchingIds(order, collection.docs, q);
      var skip := (PageOf(opts) - 1) * LimitOf(opts);
      var take := if LimitOf(opts) == 0 then |order| else Abs(LimitOf(opts));
      PageWindow(m, skip, take, q);
    }

    /** The `k`-th document of a window is the `(skip + k)`-th matching document. */
    lemma PageWindow(m: seq<Id>, skip: nat, take: nat, q: Query)
      requires forall i | 0 <= i < |m| :: m[i] in collection.docs && Matches(q, collection.docs[m[i]])
      ensures var data := PageValues(Window(m, skip, take), q);
        forall k | 0 <= k < |data| :: skip + k < |m| && data[k] == DocValue(m[skip + k], collection.docs[m[skip + k]])
    {
      var ids := Window(m, skip, take);
      var data := PageValues(ids, q);
      forall k | 0 <= k < |data|
        ensures skip + k < |m| && data[k] == DocValue(m[skip + k], collection.docs[m[skip + k]])
      {
        assert ids[k] == m[skip + k];
      }
    }

    /**
     * For a positive page size and a page from 1 on, `hasNext` holds exactly
     * when matching documents remain after the ones returned.
     */
    lemma HasNextMeansMoreMatches(opts: FindOptions, order: seq<Id>)
      requires Enumerates(order, collection.docs)
      requires FindAll(opts, order).Listed? && LimitOf(opts) > 0 && PageOf(opts) >= 1
      ensures var r := FindAll(opts, order);
        r.pagination.hasNext <==> (PageOf(opts) - 1) * LimitOf(opts) + |r.data| < r.pagination.total
    {
      FindAllCounts(opts, order);
      var r := FindAll(opts, order);
      PageHasNext(r.pagination, PageOf(opts), LimitOf(opts), |r.data|);
    }

    /** The page size and the total of a listing, in terms of the count of all matches. */
    lemma FindAllCounts(opts: FindOptions, order: seq<Id>)
      requires Enumerates(order, collection.docs)
      requires FindAll(opts, order).Listed? && LimitOf(opts) > 0
      ensures var r := FindAll(opts, order);
        var page, limit, total := PageOf(opts), LimitOf(opts), r.pagination.total;
        var skip := (page - 1) * limit;
        && (r.pagination.hasNext <==> page * limit < total)
        && |r.data| == if total <= skip then 0 else if skip + limit <= total then limit else total - skip
    {
      var q := BuildQuery(opts.filter, opts.search, opts.searchFields).value;
      MatchingIdsCount(order, collection.docs, q);
    }

    /** `findById(id)`: the id text is read as `new ObjectId(id)` reads it, in either letter case. */
    function FindById(id: string): (r: Outcome<Value>)
      reads collection
      ensures !ValidId(id) ==> r == Failure(InvalidIdError, InvalidIdMessage)
      ensures ValidId(id) && ObjectIdOf(id) !in collection.docs ==> r == Failure(NotFoundError, NotFoundMessage())
      ensures r.Success? <==> ValidId(id) && ObjectIdOf(id) in collection.docs
      ensures r.Success? ==>
        && r.data == DocValue(ObjectIdOf(id), collection.docs[ObjectIdOf(id)])
        && r.message == entityName + " trouvé"
    {
      if !ValidId(id) then Failure(InvalidIdError, InvalidIdMessage)
      else if ObjectIdOf(id) !in collection.docs then Failure(NotFoundError, NotFoundMessage())
      else Success(DocValue(ObjectIdOf(id), collection.docs[ObjectIdOf(id)]), entityName + " trouvé")
    }

    /** Two id texts that spell the same number, in any letter case, find the same document. */
    lemma FindByIdSameNumber(s: string, t: string)
      requires ValidId(s) && ValidId(t) && HexValue(s) == HexValue(t)
      ensures FindById(s) == FindById(t)
    {
      SameObjectId(s, t);
    }

    /** `update(id, data)` at time `now`. */
    method Update(id: string, data: Record, now: int) returns (r: Outcome<Value>)
      requires collection.Valid()
      modifies collection
      ensures collection.Valid()
      ensures !ValidId(id) ==> r == Failure(InvalidIdError, InvalidIdMessage)
      ensures var v := Validate(requiredFields, data, true);
        var ok := v.Ok? && v.value.isValid;
        && (ValidId(id) && v.Err? ==> r == Failure(v.error, UpdateErrorPrefix + entityName))
        && (ValidId(id) && v.Ok? && !v.value.isValid ==> r == Failure(Join(v.value.errors, ", "), InvalidDataError))
        && (ValidId(id) && ok && !PasswordAccepted(data) ==> r == Failure(BcryptWrongType, UpdateErrorPrefix + entityName))
        && (ValidId(id) && ok && PasswordAccepted(data) && ObjectIdOf(id) !in old(collection.docs) ==>
              r == Failure(NotFoundError, NotFoundMessage()))
        && (r.Success? <==> ValidId(id) && ok && PasswordAccepted(data) && ObjectIdOf(id) in old(collection.docs))
      ensures r.Failure? ==> collection.docs == old(collection.docs)
      ensures r.Success? ==>
        var k := ObjectIdOf(id);
        && collection.docs == old(collection.docs)[k := old(collection.docs)[k] + Patch(data, now)]
        && r == Success(DocValue(k, collection.docs[k]), entityName + UpdatedSuffix)
        && FindById(id).data == r.data
    {
      if !ValidId(id) {
        return Failure(InvalidIdError, InvalidIdMessage);
      }
      var validation := ValidateData(data, true);
      if validation.Err? {
        return Failure(validation.error, UpdateErrorPrefix + entityName);
      }
      if !validation.value.isValid {
        return Failure(Join(validation.value.errors, ", "), InvalidDataError);
      }
      var updateData := data["updatedAt" := Date(now)];
      updateData := updateData - {"_id"};
      if Truthy(Get(updateData, "password")) {
        var digest := BcryptHash(updateData["password"]);
        if digest.Err? {
          return Failure(digest.error, UpdateErrorPrefix + entityName);
        }
        updateData := updateData["password" := digest.value];
      }
      assert updateData == Patch(data, now);
      var key := ObjectIdOf(id);
      var result := collection.UpdateOne(key, updateData);
      if result == NoMatch {
        return Failure(NotFoundError, NotFoundMessage());
      }
      var updated := collection.FindOne(key);
      r := Success(DocValue(key, updated.value), entityName + UpdatedSuffix);
    }

    /** `delete(id)` */
    method Delete(id: string) returns (r: Outcome<()>)
      requires collection.Valid()
      modifies collection
      ensures collection.Valid()
      ensures !ValidId(id) ==> r == Failure(InvalidIdError, InvalidIdMessage) && collection.docs == old(collection.docs)
      ensures ValidId(id) ==> collection.docs == old(collection.docs) - {ObjectIdOf(id)}
      ensures ValidId(id) && ObjectIdOf(id) !in old(collection.docs) ==> r == Failure(NotFoundError, NotFoundMessage())
      ensures r.Success? <==> ValidId(id) && ObjectIdOf(id) in old(collection.docs)
      ensures r.Success? ==> r.message == entityName + DeletedSuffix && FindById(id).Failure?
    {
      if !ValidId(id) {
        return Failure(InvalidIdError, InvalidIdMessage);
      }
      var deleted := collection.DeleteOne(ObjectIdOf(id));
      if !deleted {
        return Failure(NotFoundError, NotFoundMessage());
      }
      r := Success((), entityName + DeletedSuffix);
    }

    /** `bulkCreate(entities)`, inserting under the fresh ObjectIds `ids` at time `now`. */
    method BulkCreate(entities: seq<Record>, now: int, ids: seq<Id>) returns (r: Outcome<seq<Id>>)
      requires collection.Valid() && |ids| == |entities| && FreshIds(ids, collection.docs)
      modifies collection
      ensures collection.Valid()
      ensures r.Success? <==> |entities| > 0
      ensures r.Success? ==>
        && collection.docs == old(collection.docs) + Keyed(ids, TimestampedAll(entities, now))
        && r == Success(ids, NatToString(|entities|) + " " + entityName + BulkCreatedSuffix)
      ensures r.Failure? ==>
        && collection.docs == old(collection.docs)
        && r == Failure(EmptyBatchError, BulkErrorPrefix + entityName)
    {
      var prepared := TimestampedAll(entities, now);
      var ok := collection.InsertMany(ids, prepared);
      if !ok {
        return Failure(EmptyBatchError, BulkErrorPrefix + entityName);
      }
      r := Success(ids, NatToString(|entities|) + " " + entityName + BulkCreatedSuffix);
    }

    /** `getStats()` at time `now`: `recent24h` counts documents created in the last 24 hours, never more than `total`. */
    function GetStats(now: int): (s: Stats)
      reads collection
      ensures s.total == |collection.docs|
      ensures s.recent24h == |MatchSet(collection.docs, RecentQuery(now))|
      ensures s.recent24h <= s.total
      ensures s.entityName == entityName
    {
      MatchAllCount(collection.docs);
      SubsetCard(MatchSet(collection.docs, RecentQuery(now)), MatchSet(collection.docs, MatchAll));
      Stats(|MatchSet(collection.docs, MatchAll)|, |MatchSet(collection.docs, RecentQuery(now))|, entityName)
    }
  }

  /** The page number `findAll` uses: the given number, 1 when undefined. */
  function PageOf(opts: FindOptions): int {
    if opts.page.Num? then opts.page.n else 1
  }

  function LimitOf(opts: FindOptions): int {
    if opts.limit.Num? then opts.limit.n else 10
  }

  /**
   * A record counts as recent exactly when its `createdAt` is a date at
   * most 24 hours before `now`, or an array holding such a date.
   */
  lemma RecentMeansLastDay(now: int, r: Record)
    ensures var c := Get(r, "createdAt");
      Matches(RecentQuery(now), r) <==>
        (c.Date? && c.ms >= now - DayMs) || (c.Arr? && exists e | e in c.items :: e.Date? && e.ms >= now - DayMs)
  {
    MatchesSingle("createdAt", Range(Some(Date(now - DayMs)), None), r);
    ResolvePlain(r, "createdAt");
    PathMatchesOne(Range(Some(Date(now - DayMs)), None), Get(r, "createdAt"));
    SinceMatches(now - DayMs, Get(r, "createdAt"));
  }
}

=== FILE: documents.dfy ===
/**
 * A MongoDB collection as the handlers use it: documents keyed by their
 * ObjectId, the equality / `$in` / range / case-insensitive `$regex`
 * filters the controllers build, and the driver calls `insertOne`,
 * `insertMany`, `findOne`, `updateOne` (with and without upsert) and
 * `deleteOne`.
 */
module Documents {
  import opened Wrappers
  import opened JsValues
  import opened Seqs

  /** An ObjectId, written as its hexadecimal text. */
  type Id = string

  /** `ObjectId.isValid(s)` for text: 24 hexadecimal characters, in either letter case. */
  predicate ValidId(s: string) {
    |s| == 24 && forall i | 0 <= i < |s| :: IsHexDigit(s[i])
  }

  /** The text the driver writes for an ObjectId: 24 lower-case hexadecimal characters. */
  predicate CanonicalId(s: string) {
    |s| == 24 && forall i | 0 <= i < |s| :: IsDigit(s[i]) || 'a' <= s[i] <= 'f'
  }

  /** Letter case does not change the value of a hexadecimal text. */
  lemma {:induction false} LowerHexValue(s: string)
    requires forall i | 0 <= i < |s| :: IsHexDigit(s[i])
    ensures forall i | 0 <= i < |s| :: IsHexDigit(Lower(s)[i])
    ensures HexValue(Lower(s)) == HexValue(s)
  {
    if s != [] {
      var n := |s| - 1;
      assert Lower(s)[..n] == Lower(s[..n]);
      LowerHexValue(s[..n]);
    }
  }

  /**
   * `new ObjectId(s)` for a valid text, written back as the driver writes
   * it: the same number, spelt in lower case.
   */
  function ObjectIdOf(s: string): (k: Id)
    requires ValidId(s)
    ensures CanonicalId(k)
    ensures HexValue(k) == HexValue(s)
  {
    LowerHexValue(s);
    Lower(s)
  }

  /** The driver's own spelling of an ObjectId is its own ObjectId. */
  lemma ObjectIdOfCanonical(k: Id)
    requires CanonicalId(k)
    ensures ObjectIdOf(k) == k
  {
    assert forall i | 0 <= i < |k| :: LowerChar(k[i]) == k[i];
  }

  lemma Base16Digits(x: nat, d: nat, y: nat, e: nat)
    requires d < 16 && e < 16 && x * 16 + d == y * 16 + e
    ensures x == y && d == e
  {
  }

  lemma LowerHexDigitInjective(c: char, d: char)
    requires IsDigit(c) || 'a' <= c <= 'f'
    requires IsDigit(d) || 'a' <= d <= 'f'
    requires HexDigitValue(c) == HexDigitValue(d)
    ensures c == d
  {
  }

  /** Two lower-case hexadecimal texts of one length with the same value are the same text. */
  lemma {:induction false} HexValueInjective(a: string, b: string)
    requires |a| == |b|
    requires forall i | 0 <= i < |a| :: IsDigit(a[i]) || 'a' <= a[i] <= 'f'
    requires forall i | 0 <= i < |b| :: IsDigit(b[i]) || 'a' <= b[i] <= 'f'
    requires HexValue(a) == HexValue(b)
    ensures a == b
  {
    if a != [] {
      var n := |a| - 1;
      var a', b' := a[..n], b[..n];
      assert HexValue(a) == HexValue(a') * 16 + HexDigitValue(a[n]);
      assert HexValue(b) == HexValue(b') * 16 + HexDigitValue(b[n]);
      Base16Digits(HexValue(a'), HexDigitValue(a[n]), HexValue(b'), HexDigitValue(b[n]));
      LowerHexDigitInjective(a[n], b[n]);
      HexValueInjective(a', b');
      assert a == a' + [a[n]] && b == b' + [b[n]];
    }
  }

  /** Two valid texts name the same ObjectId exactly when they spell the same number. */
  lemma SameObjectId(s: string, t: string)
    requires ValidId(s) && ValidId(t)
    ensures ObjectIdOf(s) == ObjectIdOf(t) <==> HexValue(s) == HexValue(t)
  {
    if HexValue(s) == HexValue(t) {
      HexValueInjective(ObjectIdOf(s), ObjectIdOf(t));
    }
  }

  /** A stored document without its `_id`, which is the collection key. */
  type Record = map<string, Value>

  /** `r[f]`, `undefined` when the field is absent. */
  function Get(r: Record, f: string): (v: Value)
    ensures f !in r ==> v == Undefined
    ensures f in r ==> v == r[f]
  {
    if f in r then r[f] else Undefined
  }

  /**
   * The values a path reaches in `r`, as MongoDB follows a dotted path: a
   * plain name reads that field; `a.rest` follows `rest` into the object
   * held in `a`, or into each object element of an array held in `a`; any
   * other value in `a` reaches only `undefined`.
   */
  function Reach(r: Record, path: string): seq<Value>
    decreases |path|, 0
  {
    match IndexOf(path, '.')
    case None => [Get(r, path)]
    case Some(i) =>
      match Get(r, path[..i])
      case Obj(sub) => Reach(sub, path[i + 1..])
      case Arr(items) => ReachEach(items, path[i + 1..])
      case _ => [Undefined]
  }

  /** The values `path` reaches in each object element of `items`, in order. */
  function ReachEach(items: seq<Value>, path: string): seq<Value>
    decreases |path|, 1, |items|
  {
    if items == [] then []
    else (if items[0].Obj? then Reach(items[0].fields, path) else []) + ReachEach(items[1..], path)
  }

  /** A path without a dot reaches the top-level field, and only it. */
  lemma ResolvePlain(r: Record, f: string)
    requires '.' !in f
    ensures Reach(r, f) == [Get(r, f)]
  {
  }

  lemma {:induction false} ReachEachPlain(items: seq<Value>, b: string)
    requires '.' !in b
    ensures forall x :: x in ReachEach(items, b) <==> exists e | e in items :: e.Obj? && x == Get(e.fields, b)
  {
    if items != [] {
      ReachEachPlain(items[1..], b);
      if items[0].Obj? {
        ResolvePlain(items[0].fields, b);
      }
      assert forall e :: e in items <==> e == items[0] || e in items[1..];
    }
  }

  /**
   * A path `a.b` reaches field `b` of the object in `a`; when `a` holds an
   * array, field `b` of each of its object elements; otherwise `undefined`.
   */
  lemma ResolveDotted(r: Record, a: string, b: string)
    requires '.' !in a && '.' !in b
    ensures Get(r, a).Obj? ==> Reach(r, a + "." + b) == [Get(Get(r, a).fields, b)]
    ensures Get(r, a).Arr? ==> forall x :: x in Reach(r, a + "." + b) <==>
      exists e | e in Get(r, a).items :: e.Obj? && x == Get(e.fields, b)
    ensures !Get(r, a).Obj? && !Get(r, a).Arr? ==> Reach(r, a + "." + b) == [Undefined]
  {
    var path := a + "." + b;
    assert path[|a|] == '.';
    var i := IndexOf(path, '.').value;
    assert i == |a|;
    assert path[..i] == a && path[i + 1..] == b;
    match Get(r, a)
    case Obj(sub) => ResolvePlain(sub, b);
    case Arr(items) => ReachEachPlain(items, b);
    case _ =>
  }

  /** The document as the driver returns it: the record with its `_id`. */
  function DocValue(id: Id, r: Record): (v: Value)
    ensures v.Obj? && "_id" in v.fields && v.fields["_id"] == Str(id)
    ensures forall f | f in r && f != "_id" :: f in v.fields && v.fields[f] == r[f]
  {
    Obj(r["_id" := Str(id)])
  }

  /** The body the driver stores for an inserted object: its own `_id`, if any, is not kept. */
  function WithoutId(r: Record): (s: Record)
    ensures "_id" !in s
    ensures forall f | f != "_id" :: (f in s <==> f in r) && (f in s ==> s[f] == r[f])
  {
    r - {"_id"}
  }

  // ------------------------------------------------------------------ filters

  /** The condition a filter puts on one field. */
  datatype Cond =
    | Eq(v: Value)                              // { f: v }
    | In(vs: seq<Value>)                        // { f: { $in: vs } }
    | Range(lo: Option<Value>, hi: Option<Value>) // { f: { $gte: lo, $lte: hi } }
    | RegexI(pattern: string)                   // { f: { $regex: pattern, $options: 'i' } }

  /** One branch of an `$or`. */
  datatype Clause = Clause(path: string, cond: Cond)

  /** A filter document: per-path conditions, and an optional `$or`. */
  datatype Query = Query(conds: map<string, Cond>, any: Option<seq<Clause>>)

  const MatchAll: Query := Query(map[], None)

  /** Equality against a field, where an array field matches when one element is equal and `null` matches a missing field. */
  predicate EqMatches(v: Value, x: Value) {
    x == v || (x.Arr? && v in x.items) || (v.Null? && x.Undefined?)
  }

  /**
   * BSON comparison for `$gte` / `$lte`: only numbers with numbers and
   * dates with dates; `NaN` is comparable with `NaN` alone.
   */
  predicate LessEq(a: Value, b: Value) {
    (a.Num? && b.Num? && a.n <= b.n) || (a.Date? && b.Date? && a.ms <= b.ms) || (a.NaN? && b.NaN?)
  }

  /** `{ $gte: lo }` at one value: the value, or one element of an array value, is at least `lo`. */
  predicate AtLeast(lo: Value, x: Value) {
    LessEq(lo, x) || (x.Arr? && exists e | e in x.items :: LessEq(lo, e))
  }

  /** `{ $lte: hi }` at one value: the value, or one element of an array value, is at most `hi`. */
  predicate AtMost(x: Value, hi: Value) {
    LessEq(x, hi) || (x.Arr? && exists e | e in x.items :: LessEq(e, hi))
  }

  /**
   * The case-insensitive pattern match, read as text containment in any
   * ASCII letter case. This is what `$regex` with option `i` does for a
   * pattern free of metacharacters and non-ASCII letters. Every pattern is
   * read this way here: metacharacters and anchors are taken literally, and
   * a pattern MongoDB would refuse as invalid still matches by containment.
   */
  predicate TextMatches(pattern: string, x: Value) {
    match x
    case Str(s) => IsSubstring(Lower(pattern), Lower(s))
    case _ => false
  }

  predicate CondMatches(c: Cond, x: Value) {
    match c
    case Eq(v) => EqMatches(v, x)
    case In(vs) => exists v | v in vs :: EqMatches(v, x)
    case Range(lo, hi) =>
      (lo.Some? || hi.Some?)
      && (lo.None? || AtLeast(lo.value, x))
      && (hi.None? || AtMost(x, hi.value))
    case RegexI(p) =>
      TextMatches(p, x) || (x.Arr? && exists e | e in x.items :: TextMatches(p, e))
  }

  /**
   * A condition on a path holds when one reached value satisfies it; the
   * two bounds of a range are separate conditions, so each may be met by a
   * different value or array element.
   */
  predicate PathMatches(c: Cond, xs: seq<Value>) {
    match c
    case Range(lo, hi) =>
      (lo.Some? || hi.Some?)
      && (lo.None? || exists x | x in xs :: AtLeast(lo.value, x))
      && (hi.None? || exists x | x in xs :: AtMost(x, hi.value))
    case _ => exists x | x in xs :: CondMatches(c, x)
  }

  /** On a path that reaches a single value, a condition holds exactly when it holds of that value. */
  lemma PathMatchesOne(c: Cond, x: Value)
    ensures PathMatches(c, [x]) <==> CondMatches(c, x)
  {
    assert x in [x];
  }

  predicate ClauseMatches(c: Clause, r: Record) {
    PathMatches(c.cond, Reach(r, c.path))
  }

  predicate Matches(q: Query, r: Record) {
    && (forall path | path in q.conds :: PathMatches(q.conds[path], Reach(r, path)))
    && (q.any.None? || exists c | c in q.any.value :: ClauseMatches(c, r))
  }

  /** A filter on one path, without `$or`, matches exactly when its condition holds for the values at that path. */
  lemma MatchesSingle(path: string, c: Cond, r: Record)
    ensures Matches(Query(map[path := c], None), r) <==> PathMatches(c, Reach(r, path))
  {
    assert path in map[path := c];
  }

  /**
   * `{ $gte: lo }` for a number `lo` holds of a number at least `lo`, or of
   * an array holding one, and of nothing else.
   */
  lemma AtLeastMatches(lo: int, x: Value)
    ensures CondMatches(Range(Some(Num(lo)), None), x) <==>
      (x.Num? && x.n >= lo) || (x.Arr? && exists e | e in x.items :: e.Num? && e.n >= lo)
  {
  }

  /** `{ $gte: date }` holds of a date no earlier than `date`, or of an array holding one, and of nothing else. */
  lemma SinceMatches(lo: int, x: Value)
    ensures CondMatches(Range(Some(Date(lo)), None), x) <==>
      (x.Date? && x.ms >= lo) || (x.Arr? && exists e | e in x.items :: e.Date? && e.ms >= lo)
  {
  }

  // ------------------------------------------------------------ enumerations

  /**
   * `order` lists every key of `docs` exactly once. Cursor order (natural
   * order or a sort) is not modelled: callers receive it as such a list.
   */
  predicate Enumerates(order: seq<Id>, docs: map<Id, Record>) {
    && Distinct(order)
    && (forall i | 0 <= i < |order| :: order[i] in docs)
    && (forall id | id in docs :: id in order)
  }

  /** The ids in `order` whose documents satisfy `q`, in that order. */
  function MatchingIds(order: seq<Id>, docs: map<Id, Record>, q: Query): (ids: seq<Id>)
    requires forall i | 0 <= i < |order| :: order[i] in docs
    ensures forall i | 0 <= i < |ids| :: ids[i] in docs && ids[i] in order && Matches(q, docs[ids[i]])
    ensures forall id | id in order && Matches(q, docs[id]) :: id in ids
    ensures |ids| <= |order|
  {
    if order == [] then []
    else
      var rest := MatchingIds(order[..|order| - 1], docs, q);
      var last := order[|order| - 1];
      assert forall id | id in order :: id in order[..|order| - 1] || id == last;
      if Matches(q, docs[last]) then rest + [last] else rest
  }

  /** The set of ids whose documents satisfy `q` (what `countDocuments(q)` counts). */
  function MatchSet(docs: map<Id, Record>, q: Query): set<Id> {
    set id | id in docs && Matches(q, docs[id])
  }

  lemma {:induction false} MatchingIdsDistinct(order: seq<Id>, docs: map<Id, Record>, q: Query)
    requires Distinct(order) && forall i | 0 <= i < |order| :: order[i] in docs
    ensures Distinct(MatchingIds(order, docs, q))
  {
    if order != [] {
      var pre := order[..|order| - 1];
      MatchingIdsDistinct(pre, docs, q);
      var rest := MatchingIds(pre, docs, q);
      var last := order[|order| - 1];
      assert last !in pre;
      assert last !in rest;
    }
  }

  lemma PositionInPrefix(s: seq<Id>, n: nat, x: Id)
    requires n <= |s| && x in s[..n]
    ensures Position(s, x) == Position(s[..n], x)
  {
    var k, k' := Position(s, x), Position(s[..n], x);
    assert s[k'] == x;
  }

  /** The cursor keeps the order of `order`: the matching ids come out in the order it lists them. */
  lemma {:induction false} MatchingIdsInOrder(order: seq<Id>, docs: map<Id, Record>, q: Query)
    requires Distinct(order) && forall i | 0 <= i < |order| :: order[i] in docs
    ensures InOrder(MatchingIds(order, docs, q), order)
  {
    if order != [] {
      var n := |order| - 1;
      var pre, last := order[..n], order[n];
      assert Distinct(pre);
      MatchingIdsInOrder(pre, docs, q);
      var rest := MatchingIds(pre, docs, q);
      forall x | x in rest
        ensures x in order && Position(order, x) == Position(pre, x) < n
      {
        assert order[..n] == pre;
        PositionInPrefix(order, n, x);
      }
      assert InOrder(rest, order) by {
        forall i, j | 0 <= i < j < |rest|
          ensures rest[i] in order && rest[j] in order && Position(order, rest[i]) < Position(order, rest[j])
        {
          assert rest[i] in rest && rest[j] in rest;
        }
      }
      if Matches(q, docs[last]) {
        assert order[n] == last;
        InOrderAppend(rest, last, order);
      }
    }
  }

  lemma {:induction false} DistinctCard(s: seq<Id>)
    requires Distinct(s)
    ensures |set x | x in s| == |s|
  {
    if s != [] {
      var pre := s[..|s| - 1];
      var last := s[|s| - 1];
      DistinctCard(pre);
      assert last !in pre;
      assert (set x | x in s) == (set x | x in pre) + {last};
    }
  }

  /** Listing the matching documents yields as many as `countDocuments` reports. */
  lemma MatchingIdsCount(order: seq<Id>, docs: map<Id, Record>, q: Query)
    requires Enumerates(order, docs)
    ensures |MatchingIds(order, docs, q)| == |MatchSet(docs, q)|
  {
    var ids := MatchingIds(order, docs, q);
    MatchingIdsDistinct(order, docs, q);
    DistinctCard(ids);
    assert (set x | x in ids) == MatchSet(docs, q);
  }

  /** `countDocuments()` with an empty filter counts the whole collection. */
  lemma MatchAllCount(docs: map<Id, Record>)
    ensures |MatchSet(docs, MatchAll)| == |docs|
  {
    assert MatchSet(docs, MatchAll) == docs.Keys;
  }

  // ------------------------------------------------------------- the store

  /** What `updateOne(filter, { $set: patch })` reports. */
  datatype UpdateResult =
    | NoMatch        // matchedCount === 0
    | Matched        // matchedCount === 1
    | ImmutableId    // the driver throws: "Performing an update on the path '_id' would modify the immutable field '_id'"

  /** The documents `ids[i] := WithoutId(batch[i])` that `insertMany` adds. */
  function Keyed(ids: seq<Id>, batch: seq<Record>): (m: map<Id, Record>)
    requires |ids| == |batch|
    ensures m.Keys == set i | 0 <= i < |ids| :: ids[i]
  {
    if ids == [] then map[]
    else Keyed(ids[..|ids| - 1], batch[..|batch| - 1])[ids[|ids| - 1] := WithoutId(batch[|batch| - 1])]
  }

  lemma {:induction false} KeyedAt(ids: seq<Id>, batch: seq<Record>, i: nat)
    requires |ids| == |batch| && Distinct(ids) && i < |ids|
    ensures ids[i] in Keyed(ids, batch) && Keyed(ids, batch)[ids[i]] == WithoutId(batch[i])
  {
    if i < |ids| - 1 {
      KeyedAt(ids[..|ids| - 1], batch[..|batch| - 1], i);
    }
  }

  predicate FreshIds(ids: seq<Id>, docs: map<Id, Record>) {
    Distinct(ids) && forall i | 0 <= i < |ids| :: CanonicalId(ids[i]) && ids[i] !in docs
  }

  class Collection {
    var docs: map<Id, Record>

    /** Keys are ObjectIds as the driver writes them, and no stored body repeats its `_id`. */
    ghost predicate Valid()
      reads this
    {
      forall id | id in docs :: CanonicalId(id) && "_id" !in docs[id]
    }

    constructor (initial: map<Id, Record>)
      requires forall id | id in initial :: CanonicalId(id) && "_id" !in initial[id]
      ensures Valid() && docs == initial
    {
      docs := initial;
    }

    /** `insertOne(doc)` with the driver-generated ObjectId `id`. */
    method InsertOne(id: Id, doc: Record)
      requires Valid() && CanonicalId(id) && id !in docs
      modifies this
      ensures Valid()
      ensures docs == old(docs)[id := WithoutId(doc)]
    {
      docs := docs[id := WithoutId(doc)];
    }

    /** `insertMany(batch)`; an empty batch makes the driver throw. */
    method InsertMany(ids: seq<Id>, batch: seq<Record>) returns (ok: bool)
      requires Valid() && |ids| == |batch| && FreshIds(ids, docs)
      modifies this
      ensures Valid()
      ensures ok <==> |batch| > 0
      ensures docs == if ok then old(docs) + Keyed(ids, batch) else old(docs)
    {
      if |batch| == 0 {
        return false;
      }
      var added := Keyed(ids, batch);
      forall id | id in added
        ensures CanonicalId(id) && "_id" !in added[id]
      {
        var i :| 0 <= i < |ids| && ids[i] == id;
        KeyedAt(ids, batch, i);
      }
      docs := docs + added;
      ok := true;
    }

    /** `findOne({ _id })` for the ObjectId `id` */
    method FindOne(id: Id) returns (r: Option<Record>)
      ensures id in docs ==> r == Some(docs[id])
      ensures id !in docs ==> r == None
    {
      if id in docs {
        r := Some(docs[id]);
      } else {
        r := None;
      }
    }

    /** `findOne({ [field]: v })` on a top-level field: some document whose field equals `v`, if any. */
    method FindOneWhere(field: string, v: Value) returns (r: Option<Id>)
      ensures r.Some? ==> r.value in docs && EqMatches(v, Get(docs[r.value], field))
      ensures r.None? ==> forall id | id in docs :: !EqMatches(v, Get(docs[id], field))
    {
      if id :| id in docs && EqMatches(v, Get(docs[id], field)) {
        r := Some(id);
      } else {
        r := None;
      }
    }

    /** `findOne({})`: some document, if the collection has any. */
    method FindAny() returns (r: Option<Id>)
      ensures r.Some? ==> r.value in docs
      ensures r.None? <==> docs == map[]
    {
      if id :| id in docs {
        r := Some(id);
      } else {
        r := None;
        assert docs.Keys == {};
      }
    }

    /** `updateOne({ _id }, { $set: patch })` */
    method UpdateOne(id: Id, patch: Record) returns (r: UpdateResult)
      requires Valid()
      modifies this
      ensures Valid()
      ensures r == (if id !in old(docs) then NoMatch else if "_id" in patch then ImmutableId else Matched)
      ensures docs == if r == Matched then old(docs)[id := old(docs)[id] + patch] else old(docs)
    {
      if id !in docs {
        return NoMatch;
      }
      if "_id" in patch {
        return ImmutableId;
      }
      docs := docs[id := docs[id] + patch];
      r := Matched;
    }

    /**
     * `updateOne({ [key]: v }, { $set: patch }, { upsert: true })`: the
     * first matching document is merged with `patch`; without one, a new
     * document `{ [key]: v, ...patch }` is inserted under `newId`.
     */
    method Upsert(key: string, v: Value, patch: Record, newId: Id) returns (updated: Option<Id>)
      requires Valid() && CanonicalId(newId) && newId !in docs && "_id" !in patch && key != "_id"
      modifies this
      ensures Valid()
      ensures updated.Some? ==>
        && updated.value in old(docs) && EqMatches(v, Get(old(docs)[updated.value], key))
        && docs == old(docs)[updated.value := old(docs)[updated.value] + patch]
      ensures updated.None? ==>
        && (forall id | id in old(docs) :: !EqMatches(v, Get(old(docs)[id], key)))
        && docs == old(docs)[newId := map[key := v] + patch]
    {
      if id :| id in docs && EqMatches(v, Get(docs[id], key)) {
        docs := docs[id := docs[id] + patch];
        updated := Some(id);
      } else {
        docs := docs[newId := map[key := v] + patch];
        updated := None;
      }
    }

    /** `deleteOne({ _id })` */
    method DeleteOne(id: Id) returns (deleted: bool)
      requires Valid()
      modifies this
      ensures Valid()
      ensures deleted <==> id in old(docs)
      ensures docs == old(docs) - {id}
    {
      deleted := id in docs;
      docs := docs - {id};
    }
  }
}

=== FILE: formats.dfy ===
/**
 * The format rules the entity controllers share (SIRET, VAT number,
 * postal code) and the shape of their `customValidation` hooks: a list of
 * optional fields, each checked only when truthy, each contributing one
 * message when its value is rejected.
 */
module Formats {
  import opened JsValues
  import opened Seqs
  import opened Documents
  import opened Service

  const SiretMessage: string := "Format SIRET invalide"
  const TvaMessage: string := "Format numéro de TVA invalide"
  const CodePostalMessage: string := "Format code postal invalide"

  predicate AllDigits(s: string) {
    forall k | 0 <= k < |s| :: IsDigit(s[k])
  }

  /** `/^[0-9]{14}$/` */
  predicate SiretText(s: string) {
    |s| == 14 && AllDigits(s)
  }

  /** `/^[0-9]{5}$/` */
  predicate CodePostalText(s: string) {
    |s| == 5 && AllDigits(s)
  }

  /** `/^[A-Z]{2}[0-9A-Z]+$/` */
  predicate TvaText(s: string) {
    |s| >= 3 && IsUpper(s[0]) && IsUpper(s[1])
    && forall k | 2 <= k < |s| :: IsUpper(s[k]) || IsDigit(s[k])
  }

  /** `siretRegex.test(v)`: the test applies to the value's text. */
  predicate MatchesSiret(v: Value) {
    SiretText(ToJsString(v))
  }

  predicate MatchesTva(v: Value) {
    TvaText(ToJsString(v))
  }

  predicate MatchesCodePostal(v: Value) {
    CodePostalText(ToJsString(v))
  }

  function Pow10(k: nat): (p: nat)
    ensures p >= 1
  {
    if k == 0 then 1 else 10 * Pow10(k - 1)
  }

  lemma {:induction false} NatToStringLength(n: nat, k: nat)
    requires k >= 1
    ensures |NatToString(n)| <= k <==> n < Pow10(k)
  {
    if n >= 10 {
      if k >= 2 {
        NatToStringLength(n / 10, k - 1);
      } else {
        assert |NatToString(n)| >= 2;
      }
    } else if k >= 2 {
      Pow10Grows(k);
    }
  }

  lemma {:induction false} Pow10Grows(k: nat)
    requires k >= 1
    ensures Pow10(k) >= 10
  {
    if k > 1 {
      Pow10Grows(k - 1);
    }
  }

  /**
   * A number passes the SIRET test exactly when it has 14 decimal digits,
   * i.e. lies in [10^13, 10^14): `String(n)` is what the pattern sees.
   */
  lemma NumericSiret(n: int)
    ensures MatchesSiret(Num(n)) <==> Pow10(13) <= n < Pow10(14)
  {
    if n >= 0 {
      NatToStringLength(n, 14);
      NatToStringLength(n, 13);
    } else {
      assert ToJsString(Num(n))[0] == '-';
    }
  }

  /** Neither the empty text nor a missing value (read as "undefined") has any of the three formats. */
  lemma EmptyRejected()
    ensures !MatchesSiret(Str("")) && !MatchesTva(Str("")) && !MatchesCodePostal(Str(""))
    ensures !MatchesSiret(Undefined) && !MatchesTva(Undefined) && !MatchesCodePostal(Undefined)
  {
    assert ToJsString(Undefined)[0] == 'u';
  }

  // ------------------------------------------------------------- field checks

  /** `if (data[field] && !valid(data[field])) errors.push(message)` */
  datatype Check = Check(field: string, valid: Value -> bool, message: string)

  predicate Flags(c: Check, data: Record) {
    Truthy(Get(data, c.field)) && !c.valid(Get(data, c.field))
  }

  /** The message a single check pushes, if any. */
  function Pushed(c: Check, data: Record): seq<string> {
    if Flags(c, data) then [c.message] else []
  }

  /** The messages the checks push, in check order. */
  function FieldErrors(checks: seq<Check>, data: Record): seq<string> {
    if checks == [] then []
    else Pushed(checks[0], data) + FieldErrors(checks[1..], data)
  }

  /** Adding a check at the end adds at most its own message at the end. */
  lemma {:induction false} FieldErrorsSnoc(checks: seq<Check>, c: Check, data: Record)
    ensures FieldErrors(checks + [c], data) == FieldErrors(checks, data) + Pushed(c, data)
  {
    if checks != [] {
      assert (checks + [c])[1..] == checks[1..] + [c];
      FieldErrorsSnoc(checks[1..], c, data);
    } else {
      assert [c][1..] == [];
    }
  }

  function Messages(checks: seq<Check>): (ms: seq<string>)
    ensures |ms| == |checks|
    ensures forall i | 0 <= i < |checks| :: ms[i] == checks[i].message
  {
    seq(|checks|, i requires 0 <= i < |checks| => checks[i].message)
  }

  /** A message is reported exactly when some check carrying it flags its field. */
  lemma {:induction false} FieldErrorsMembership(checks: seq<Check>, data: Record)
    ensures forall m :: m in FieldErrors(checks, data) <==>
      exists i | 0 <= i < |checks| :: checks[i].message == m && Flags(checks[i], data)
  {
    if checks != [] {
      var rest := checks[1..];
      FieldErrorsMembership(rest, data);
      forall m | m in FieldErrors(rest, data)
        ensures exists i | 0 <= i < |checks| :: checks[i].message == m && Flags(checks[i], data)
      {
        var j :| 0 <= j < |rest| && rest[j].message == m && Flags(rest[j], data);
        assert checks[j + 1] == rest[j];
      }
      forall m, i | 1 <= i < |checks| && checks[i].message == m && Flags(checks[i], data)
        ensures m in FieldErrors(rest, data)
      {
        assert rest[i - 1] == checks[i];
      }
    }
  }

  /** With distinct messages, a check's message is reported exactly when that check flags its field. */
  lemma FieldErrorsExact(checks: seq<Check>, data: Record)
    requires Distinct(Messages(checks))
    ensures forall i | 0 <= i < |checks| :: checks[i].message in FieldErrors(checks, data) <==> Flags(checks[i], data)
  {
    FieldErrorsMembership(checks, data);
    var ms := Messages(checks);
    forall i | 0 <= i < |checks| && checks[i].message in FieldErrors(checks, data)
      ensures Flags(checks[i], data)
    {
      var j :| 0 <= j < |checks| && checks[j].message == checks[i].message && Flags(checks[j], data);
      assert ms[j] == ms[i];
    }
  }

  /** With distinct messages, the reports keep the check order, each at most once. */
  lemma {:induction false} FieldErrorsInOrder(checks: seq<Check>, data: Record)
    requires Distinct(Messages(checks))
    ensures InOrder(FieldErrors(checks, data), Messages(checks))
  {
    if checks != [] {
      var rest := checks[1..];
      var ms := Messages(checks);
      assert Messages(rest) == ms[1..];
      FieldErrorsInOrder(rest, data);
      FieldErrorsMembership(rest, data);
      var tail := FieldErrors(rest, data);
      assert FieldErrors(checks, data) == (if Flags(checks[0], data) then [ms[0]] + tail else tail);
      assert ms[0] !in tail;
      InOrderShift(tail, ms);
    }
  }

  /** The `{ isValid, errors }` a hook built from `checks` returns. */
  function CheckResult(checks: seq<Check>, data: Record): (v: Validation)
    ensures v.isValid <==> v.errors == []
    ensures v.errors == FieldErrors(checks, data)
  {
    var errs := FieldErrors(checks, data);
    Validation(errs == [], errs)
  }
}

=== FILE: http.dfy ===
/**
 * The Express request and response as the handlers see them. A handler
 * answers by setting a status and sending one body; Express refuses a
 * second send on the same response, so every send requires an unfinished
 * response.
 */
module Http {
  import opened JsValues
  import opened Documents

  /** `req.params`, `req.query`, `req.body`, `req.headers` and the `req.user` that authentication attached. */
  datatype Request = Request(
    verb: string,
    params: map<string, string>,
    query: map<string, Value>,
    body: Record,
    headers: map<string, string>,
    user: Value)

  /** `req.params[name]`; routing always supplies the declared parameters. */
  function Param(req: Request, name: string): string {
    if name in req.params then req.params[name] else ""
  }

  /** What a handler sent: nothing, `res.json`, `res.send` with text, or `res.sendFile` with a stored file name. */
  datatype Body = NoBody | Json(value: Value) | Text(text: string) | File(name: string)

  /**
   * The object literal `{ k1: v1, k2: v2, ... }` as `res.json` serialises
   * it: a later key overrides an earlier one, and a key whose value is
   * `undefined` does not appear.
   */
  function JsonObject(entries: seq<(string, Value)>): (o: map<string, Value>)
    ensures forall k | k in o :: o[k] != Undefined
    ensures forall i | 0 <= i < |entries| && entries[i].1 != Undefined
              && (forall j | i < j < |entries| :: entries[j].0 != entries[i].0)
              :: entries[i].0 in o && o[entries[i].0] == entries[i].1
  {
    if entries == [] then map[]
    else
      var (k, v) := entries[|entries| - 1];
      var o := JsonObject(entries[..|entries| - 1]);
      if v == Undefined then o - {k} else o[k := v]
  }

  class Response {
    var status: int
    var headers: map<string, string>
    var body: Body
    var finished: bool

    constructor ()
      ensures status == 200 && headers == map[] && body == NoBody && !finished
    {
      status := 200;
      headers := map[];
      body := NoBody;
      finished := false;
    }

    /** Nothing has been set or sent yet (headers may already carry what the middleware added). */
    predicate Fresh()
      reads this
    {
      status == 200 && body == NoBody && !finished
    }

    /** `res.status(code)` */
    method Status(code: int)
      requires !finished
      modifies this
      ensures status == code
      ensures headers == old(headers) && body == old(body) && finished == old(finished)
    {
      status := code;
    }

    /** `res.header(name, value)` */
    method Header(name: string, value: string)
      requires !finished
      modifies this
      ensures headers == old(headers)[name := value]
      ensures status == old(status) && body == old(body) && finished == old(finished)
    {
      headers := headers[name := value];
    }

    /** `res.json(v)` */
    method SendJson(v: Value)
      requires !finished
      modifies this
      ensures body == Json(v) && finished
      ensures status == old(status) && headers == old(headers)
    {
      body := Json(v);
      finished := true;
    }

    /** `res.send(text)` */
    method SendText(t: string)
      requires !finished
      modifies this
      ensures body == Text(t) && finished
      ensures status == old(status) && headers == old(headers)
    {
      body := Text(t);
      finished := true;
    }

    /** `res.sendStatus(code)` / `res.end()` after a status */
    method End()
      requires !finished
      modifies this
      ensures body == NoBody && finished
      ensures status == old(status) && headers == old(headers)
    {
      body := NoBody;
      finished := true;
    }

    /** `res.sendFile(path)` for the stored file `name` */
    method SendFile(name: string)
      requires !finished
      modifies this
      ensures body == File(name) && finished
      ensures status == old(status) && headers == old(headers)
    {
      body := File(name);
      finished := true;
    }

    /** `res.status(code).json(v)` */
    method Reply(code: int, v: Value)
      requires !finished
      modifies this
      ensures status == code && body == Json(v) && finished
      ensures headers == old(headers)
    {
      Status(code);
      SendJson(v);
    }

    /** `res.status(code).send(t)` */
    method ReplyText(code: int, t: string)
      requires !finished
      modifies this
      ensures status == code && body == Text(t) && finished
      ensures headers == old(headers)
    {
      Status(code);
      SendText(t);
    }
  }
}

=== FILE: js_values.dfy ===
/**
 * The JavaScript values that the request bodies, query strings and stored
 * documents carry, and the few JavaScript coercions the handlers rely on:
 * truthiness, conversion to text (what `RegExp.prototype.test` and
 * `parseInt` see), `parseInt` itself, `.length`, `startsWith` and `split`.
 */
module JsValues {
  import opened Wrappers

  /**
   * A JSON / JavaScript value. Numbers are integers (the handlers only ever
   * compare, count and parse integers); `NaN` is the one non-finite number
   * kept because `parseInt` produces it. `Date(ms)` is a `Date` object at
   * `ms` milliseconds since the epoch; `Hashed(plain)` is the bcrypt digest
   * string computed from `plain`.
   */
  datatype Value =
    | Undefined
    | Null
    | Bool(b: bool)
    | Num(n: int)
    | NaN
    | Str(s: string)
    | Arr(items: seq<Value>)
    | Obj(fields: map<string, Value>)
    | Date(ms: int)
    | Hashed(plain: Value)

  /** JavaScript truthiness (`!!v`). */
  predicate Truthy(v: Value) {
    match v
    case Undefined => false
    case Null => false
    case Bool(b) => b
    case Num(n) => n != 0
    case NaN => false
    case Str(s) => s != ""
    case _ => true
  }

  /** `a || b` */
  function Or(a: Value, b: Value): (r: Value)
    ensures Truthy(a) ==> r == a
    ensures !Truthy(a) ==> r == b
  {
    if Truthy(a) then a else b
  }

  /** The bcrypt digest of `plain` (cost factor 10). The random salt is not modelled. */
  function Hash(plain: Value): (digest: Value)
    ensures Truthy(digest) && digest != plain
  {
    assert plain < Hashed(plain);
    Hashed(plain)
  }

  /** JavaScript strings: texts, and the digests bcrypt returns, which are texts too. */
  predicate IsText(v: Value) {
    v.Str? || v.Hashed?
  }

  /** bcrypt's refusals of a missing argument and of an argument of the wrong type. */
  const BcryptMissingArgument: string := "data and salt arguments required"
  const BcryptWrongType: string := "data must be a string or Buffer and salt must either be a salt string or a number of rounds"

  /**
   * `bcrypt.hash(v, 10)`: the digest of a text; `null` and `undefined` are
   * refused as missing and any other value as being of the wrong type.
   */
  function BcryptHash(v: Value): (r: Result<Value, string>)
    ensures r.Ok? <==> IsText(v)
    ensures r.Ok? ==> Truthy(r.value) && r.value != v
    ensures r.Err? ==> r.error == if v.Null? || v.Undefined? then BcryptMissingArgument else BcryptWrongType
  {
    if IsText(v) then Ok(Hash(v))
    else if v.Null? || v.Undefined? then Err(BcryptMissingArgument)
    else Err(BcryptWrongType)
  }

  // ---------------------------------------------------------------- characters

  predicate IsDigit(c: char) { '0' <= c <= '9' }

  predicate IsUpper(c: char) { 'A' <= c <= 'Z' }

  predicate IsHexDigit(c: char) { IsDigit(c) || 'a' <= c <= 'f' || 'A' <= c <= 'F' }

  /** The characters of the regular-expression class `\s` (also what `parseInt` skips). */
  predicate IsJsSpace(c: char) {
    var k := c as int;
    k == 0x09 || k == 0x0A || k == 0x0B || k == 0x0C || k == 0x0D || k == 0x20
    || k == 0xA0 || k == 0x1680 || (0x2000 <= k <= 0x200A) || k == 0x2028 || k == 0x2029
    || k == 0x202F || k == 0x205F || k == 0x3000 || k == 0xFEFF
  }

  function DigitChar(d: nat): (c: char)
    requires d < 10
    ensures IsDigit(c)
  {
    ['0', '1', '2', '3', '4', '5', '6', '7', '8', '9'][d]
  }

  function DigitValue(c: char): (d: nat)
    requires IsDigit(c)
    ensures d < 10
  {
    (c as int - '0' as int) as nat
  }

  function HexDigitValue(c: char): (d: nat)
    requires IsHexDigit(c)
    ensures d < 16
  {
    if IsDigit(c) then DigitValue(c)
    else if 'a' <= c <= 'f' then (c as int - 'a' as int + 10) as nat
    else (c as int - 'A' as int + 10) as nat
  }

  // ------------------------------------------------------------------- numbers

  /** The decimal text of a natural number, as `String(n)` writes it. */
  function NatToString(n: nat): (s: string)
    ensures |s| > 0
    ensures forall i | 0 <= i < |s| :: IsDigit(s[i])
  {
    (if n < 10 then "" else NatToString(n / 10)) + [DigitChar(n % 10)]
  }

  function IntToString(n: int): string {
    if n < 0 then "-" + NatToString(-n) else NatToString(n)
  }

  /** The number a string of decimal digits denotes. */
  function DecimalValue(s: string): nat
    requires forall i | 0 <= i < |s| :: IsDigit(s[i])
  {
    if s == [] then 0 else DecimalValue(s[..|s| - 1]) * 10 + DigitValue(s[|s| - 1])
  }

  function HexValue(s: string): nat
    requires forall i | 0 <= i < |s| :: IsHexDigit(s[i])
  {
    if s == [] then 0 else HexValue(s[..|s| - 1]) * 16 + HexDigitValue(s[|s| - 1])
  }

  lemma {:induction false} DigitRoundTrip(d: nat)
    requires d < 10
    ensures DigitValue(DigitChar(d)) == d
  {
  }

  /** Reading back the decimal text of `n` gives `n`. */
  lemma {:induction false} DecimalValueOfNatToString(n: nat)
    ensures DecimalValue(NatToString(n)) == n
  {
    var s := NatToString(n);
    assert s[..|s| - 1] == (if n < 10 then "" else NatToString(n / 10));
    DigitRoundTrip(n % 10);
    if n >= 10 {
      DecimalValueOfNatToString(n / 10);
    }
  }

  /** Only the number zero is written with a leading zero digit. */
  lemma {:induction false} NatToStringNoLeadingZero(n: nat)
    requires n >= 10
    ensures NatToString(n)[0] != '0'
  {
    var q := n / 10;
    if q >= 10 {
      NatToStringNoLeadingZero(q);
      assert NatToString(n)[0] == NatToString(q)[0];
    } else {
      assert NatToString(n)[0] == DigitChar(q);
    }
  }

  // --------------------------------------------------------------------- texts

  /** `parts.join(sep)` */
  function Join(parts: seq<string>, sep: string): string {
    if |parts| == 0 then ""
    else if |parts| == 1 then parts[0]
    else parts[0] + sep + Join(parts[1..], sep)
  }

  /** The text `String(new Date(ms))` would show is not modelled; every date renders as this. */
  const DateText: string := "Date object"

  /** Every bcrypt digest made with cost 10 starts with this; the rest of the digest is not modelled. */
  const BcryptPrefix: string := "$2b$10$"

  /** The string conversion `String(v)` that `RegExp.prototype.test` and `parseInt` apply. */
  function ToJsString(v: Value): string {
    match v
    case Undefined => "undefined"
    case Null => "null"
    case Bool(b) => if b then "true" else "false"
    case Num(n) => IntToString(n)
    case NaN => "NaN"
    case Str(s) => s
    case Arr(items) =>
      // `Array.prototype.join` writes null and undefined elements as empty text
      Join(seq(|items|, i requires 0 <= i < |items| =>
                 if items[i].Null? || items[i].Undefined? then "" else ToJsString(items[i])), ",")
    case Obj(_) => "[object Object]"
    case Date(_) => DateText
    case Hashed(_) => BcryptPrefix
  }

  function StartsWith(s: string, prefix: string): bool {
    |prefix| <= |s| && s[..|prefix|] == prefix
  }

  function IndexOf(s: string, c: char): (r: Option<nat>)
    ensures r.Some? ==> r.value < |s| && s[r.value] == c && c !in s[..r.value]
    ensures r.None? ==> c !in s
  {
    if |s| == 0 then None
    else if s[0] == c then Some(0)
    else match IndexOf(s[1..], c)
      case None => None
      case Some(i) => Some(i + 1)
  }

  /** `s.split(sep)` for a one-character separator. */
  function Split(s: string, sep: char): (parts: seq<string>)
    ensures |parts| >= 1
    decreases |s|
  {
    match IndexOf(s, sep)
    case None => [s]
    case Some(i) => [s[..i]] + Split(s[i + 1..], sep)
  }

  function LowerChar(c: char): char {
    if IsUpper(c) then (c as int - 'A' as int + 'a' as int) as char else c
  }

  function Lower(s: string): (t: string)
    ensures |t| == |s|
  {
    seq(|s|, i requires 0 <= i < |s| => LowerChar(s[i]))
  }

  predicate OccursAt(needle: string, hay: string, i: int) {
    0 <= i <= |hay| - |needle| && hay[i..i + |needle|] == needle
  }

  predicate IsSubstring(needle: string, hay: string) {
    exists i | 0 <= i <= |hay| - |needle| :: OccursAt(needle, hay, i)
  }

  /**
   * `v.length` for a value that is not null or undefined: the size of a
   * text or an array, an object's own `length` field, and `undefined` for
   * every other value (numbers, booleans, dates and digests have none).
   */
  function LengthProperty(v: Value): Value {
    match v
    case Str(s) => Num(|s|)
    case Arr(items) => Num(|items|)
    case Obj(fields) => if "length" in fields then fields["length"] else Undefined
    case _ => Undefined
  }

  /**
   * `v > 0`: the value is converted to a number first, so `true` counts as
   * 1, a date as its milliseconds, and `undefined`, `null`, `NaN`, an
   * object and a digest (text starting with `$`) are never above zero.
   */
  predicate AboveZero(v: Value) {
    match v
    case Num(n) => n > 0
    case Bool(b) => b
    case Date(ms) => ms > 0
    case _ => false
  }

  // ------------------------------------------------------------------ parseInt

  /** The longest prefix of `s` made of decimal digits. */
  function LeadingDigits(s: string): (d: string)
    ensures |d| <= |s| && d == s[..|d|]
    ensures forall i | 0 <= i < |d| :: IsDigit(d[i])
  {
    if s == [] || !IsDigit(s[0]) then "" else [s[0]] + LeadingDigits(s[1..])
  }

  function LeadingHexDigits(s: string): (d: string)
    ensures |d| <= |s| && d == s[..|d|]
    ensures forall i | 0 <= i < |d| :: IsHexDigit(d[i])
  {
    if s == [] || !IsHexDigit(s[0]) then "" else [s[0]] + LeadingHexDigits(s[1..])
  }

  function TrimStart(s: string): (t: string)
    ensures |t| == 0 || !IsJsSpace(t[0])
  {
    if |s| > 0 && IsJsSpace(s[0]) then TrimStart(s[1..]) else s
  }

  /** The digits `parseInt` reads after an optional sign: `0x`/`0X` selects base 16. */
  function ParseUnsigned(s: string): Option<nat> {
    if |s| >= 2 && s[0] == '0' && (s[1] == 'x' || s[1] == 'X') then
      var h := LeadingHexDigits(s[2..]);
      if h == "" then None else Some(HexValue(h))
    else
      var d := LeadingDigits(s);
      if d == "" then None else Some(DecimalValue(d))
  }

  function ParseIntText(s: string): Value {
    var t := TrimStart(s);
    if |t| > 0 && (t[0] == '-' || t[0] == '+') then
      match ParseUnsigned(t[1..])
      case None => NaN
      case Some(n) => var m: int := n; Num(if t[0] == '-' then -m else m)
    else
      match ParseUnsigned(t)
      case None => NaN
      case Some(n) => Num(n)
  }

  /** `parseInt(v)` with no radix. */
  function ParseInt(v: Value): (r: Value)
    ensures r.Num? || r.NaN?
  {
    ParseIntText(ToJsString(v))
  }

  lemma {:induction false} LeadingDigitsOfDigits(s: string)
    requires forall i | 0 <= i < |s| :: IsDigit(s[i])
    ensures LeadingDigits(s) == s
  {
    if s != [] {
      LeadingDigitsOfDigits(s[1..]);
    }
  }

  lemma {:induction false} ParseUnsignedOfNatToString(n: nat)
    ensures ParseUnsigned(NatToString(n)) == Some(n)
  {
    var s := NatToString(n);
    if |s| >= 2 {
      assert n >= 10;
      NatToStringNoLeadingZero(n);
    }
    LeadingDigitsOfDigits(s);
    DecimalValueOfNatToString(n);
  }

  /** `parseInt(String(n)) === n`: parsing the decimal text of an integer gives it back. */
  lemma {:induction false} ParseIntRoundTrip(n: int)
    ensures ParseInt(Str(IntToString(n))) == Num(n)
    ensures ParseInt(Num(n)) == Num(n)
  {
    var s := IntToString(n);
    if n < 0 {
      ParseUnsignedOfNatToString(-n);
      assert s[1..] == NatToString(-n);
      assert TrimStart(s) == s;
    } else {
      ParseUnsignedOfNatToString(n);
      assert IsDigit(s[0]);
      assert TrimStart(s) == s;
    }
  }

  /** Different indices are written differently. */
  lemma NatToStringInjective(n: nat)
    ensures forall i: nat | i < n :: NatToString(i) != NatToString(n)
  {
    forall i: nat | i < n ensures NatToString(i) != NatToString(n) {
      DecimalValueOfNatToString(i);
      DecimalValueOfNatToString(n);
    }
  }

  /** The keys `"0"` to `String(n - 1)` of an array of length `n`. */
  function IndexKeys(n: nat): (ks: set<string>)
    ensures forall i: nat | i < n :: NatToString(i) in ks
  {
    if n == 0 then {} else IndexKeys(n - 1) + {NatToString(n - 1)}
  }

  /** The text of an index at or past the length is not among the keys. */
  lemma {:induction false} IndexKeysBelow(n: nat, m: nat)
    requires n <= m
    ensures NatToString(m) !in IndexKeys(n)
  {
    if n > 0 {
      IndexKeysBelow(n - 1, m);
      NatToStringInjective(m);
    }
  }

  /** An array of length `n` spreads to exactly `n` keys. */
  lemma {:induction false} IndexKeysCount(n: nat)
    ensures |IndexKeys(n)| == n
  {
    if n > 0 {
      IndexKeysCount(n - 1);
      IndexKeysBelow(n - 1, n - 1);
    }
  }

  /** Every index key is the decimal text of an index below the length. */
  lemma {:induction false} IndexKeysExact(n: nat, k: string)
    requires k in IndexKeys(n)
    ensures exists i: nat | i < n :: k == NatToString(i)
  {
    if k != NatToString(n - 1) {
      IndexKeysExact(n - 1, k);
    }
  }

  /** The object `{ ...xs }` makes of an array: one key per index, the index written in decimal. */
  function Indexed(xs: seq<Value>): (m: map<string, Value>)
    ensures m.Keys == IndexKeys(|xs|)
    ensures forall i: nat | i < |xs| :: m[NatToString(i)] == xs[i]
  {
    if xs == [] then map[]
    else
      var n := |xs| - 1;
      var prior := Indexed(xs[..n]);
      IndexedExtend(prior, xs);
      prior[NatToString(n) := xs[n]]
  }

  /** Adding the last element under its index keeps the keys of the others. */
  lemma IndexedExtend(prior: map<string, Value>, xs: seq<Value>)
    requires |xs| > 0
    requires prior.Keys == IndexKeys(|xs| - 1)
    requires forall i: nat | i < |xs| - 1 :: prior[NatToString(i)] == xs[..|xs| - 1][i]
    ensures var m := prior[NatToString(|xs| - 1) := xs[|xs| - 1]];
      m.Keys == IndexKeys(|xs|) && forall i: nat | i < |xs| :: m[NatToString(i)] == xs[i]
  {
    var n := |xs| - 1;
    var key := NatToString(n);
    var m := prior[key := xs[n]];
    assert m.Keys == prior.Keys + {key} == IndexKeys(|xs|);
    NatToStringInjective(n);
    forall i: nat | i < |xs|
      ensures m[NatToString(i)] == xs[i]
    {
      if i < n {
        assert NatToString(i) != key;
        assert m[NatToString(i)] == prior[NatToString(i)] == xs[..n][i];
      } else {
        assert i == n;
      }
    }
  }

  /** The characters of a text, each as a one-character text. */
  function Chars(s: string): (cs: seq<Value>)
    ensures |cs| == |s| && forall i | 0 <= i < |s| :: cs[i] == Str([s[i]])
  {
    seq(|s|, i requires 0 <= i < |s| => Str([s[i]]))
  }

  /**
   * `{ ...v }`: an object's own fields, the indices of an array or of a
   * text, and no key for any other value (a digest never arrives in a
   * request body).
   */
  function Spread(v: Value): (r: map<string, Value>)
    ensures v.Obj? ==> r == v.fields
    ensures v.Arr? ==>
      && r.Keys == IndexKeys(|v.items|)
      && forall i: nat | i < |v.items| :: r[NatToString(i)] == v.items[i]
    ensures v.Str? ==>
      && r.Keys == IndexKeys(|v.s|)
      && forall i: nat | i < |v.s| :: r[NatToString(i)] == Str([v.s[i]])
    ensures !(v.Obj? || v.Arr? || v.Str?) ==> r == map[]
  {
    match v
    case Obj(fields) => fields
    case Arr(items) => Indexed(items)
    case Str(s) => Indexed(Chars(s))
    case _ => map[]
  }
}

=== FILE: middleware.dfy ===
/**
 * The application middleware: the CORS origin allow-list, the middleware
 * that echoes the CORS headers and answers preflight requests, and the
 * `Bearer` token check in front of the protected routes.
 */
module Middleware {
  import opened Wrappers
  import opened JsValues
  import opened Http

  // ------------------------------------------------------------ allow-list

  const LocalhostPrefix: string := "http://localhost:"

  /** `http://localhost:${port}` */
  function LocalOrigin(port: nat): string {
    LocalhostPrefix + NatToString(port)
  }

  /** The origins of `n` consecutive ports from `first`, as `Array.from({ length: n }, ...)` writes them. */
  function PortOrigins(first: nat, n: nat): seq<string> {
    seq(n, i requires 0 <= i < n => LocalOrigin(first + i))
  }

  /**
   * The allow-list as written: port 3000, the ports 5173 to 5200 written
   * out one by one, then the hundred generated ports from 5173.
   */
  const AllowedOrigins: seq<string> := [LocalOrigin(3000)] + PortOrigins(5173, 28) + PortOrigins(5173, 100)

  /** Two local origins are the same text only for the same port. */
  lemma LocalOriginInjective(p: nat, q: nat)
    requires LocalOrigin(p) == LocalOrigin(q)
    ensures p == q
  {
    var a := LocalOrigin(p);
    assert a[|LocalhostPrefix|..] == NatToString(p);
    assert LocalOrigin(q)[|LocalhostPrefix|..] == NatToString(q);
    DecimalValueOfNatToString(p);
    DecimalValueOfNatToString(q);
  }

  /** A run of port origins holds exactly the origins of its ports. */
  lemma PortOriginsMembership(o: string, first: nat, n: nat)
    ensures o in PortOrigins(first, n) <==> exists p: nat | first <= p < first + n :: o == LocalOrigin(p)
  {
    var run := PortOrigins(first, n);
    if o in run {
      var i :| 0 <= i < n && run[i] == o;
      assert o == LocalOrigin(first + i);
    }
    if exists p: nat | first <= p < first + n :: o == LocalOrigin(p) {
      var p: nat :| first <= p < first + n && o == LocalOrigin(p);
      assert run[p - first] == o;
    }
  }

  /** The allowed origins are exactly port 3000 and the ports 5173 to 5272 of localhost. */
  lemma AllowedOriginsExactly(o: string)
    ensures o in AllowedOrigins <==> o == LocalOrigin(3000) || exists p: nat | 5173 <= p <= 5272 :: o == LocalOrigin(p)
  {
    PortOriginsMembership(o, 5173, 28);
    PortOriginsMembership(o, 5173, 100);
  }

  /** A localhost port is allowed exactly when it is 3000 or lies in 5173..5272. */
  lemma AllowedPorts(port: nat)
    ensures LocalOrigin(port) in AllowedOrigins <==> port == 3000 || 5173 <= port <= 5272
  {
    AllowedOriginsExactly(LocalOrigin(port));
    if LocalOrigin(port) == LocalOrigin(3000) {
      LocalOriginInjective(port, 3000);
    }
    if exists p: nat | 5173 <= p <= 5272 :: LocalOrigin(port) == LocalOrigin(p) {
      var p: nat :| 5173 <= p <= 5272 && LocalOrigin(port) == LocalOrigin(p);
      LocalOriginInjective(port, p);
    }
  }

  const CorsRejection: string := "Not allowed by CORS"

  /**
   * The `origin` option of the CORS setup: a request without an origin
   * (server to server) is allowed, a listed origin is allowed by exact
   * match, any other is refused with "Not allowed by CORS".
   */
  function CheckOrigin(origin: Option<string>): (r: Result<bool, string>)
    ensures r.Ok? ==> r.value
    ensures r.Err? ==> r.error == CorsRejection
    ensures r.Ok? <==>
      || origin.None? || origin.value == ""
      || origin.value == LocalOrigin(3000)
      || exists p: nat | 5173 <= p <= 5272 :: origin.value == LocalOrigin(p)
  {
    if origin.None? || origin.value == "" then Ok(true)
    else
      AllowedOriginsExactly(origin.value);
      if origin.value in AllowedOrigins then Ok(true) else Err(CorsRejection)
  }

  /** Ports just outside the ranges are refused; the ends of the range are allowed. */
  lemma RangeEdges()
    ensures CheckOrigin(Some(LocalOrigin(5173))).Ok? && CheckOrigin(Some(LocalOrigin(5272))).Ok?
    ensures CheckOrigin(Some(LocalOrigin(5172))).Err? && CheckOrigin(Some(LocalOrigin(5273))).Err?
    ensures CheckOrigin(Some(LocalOrigin(3001))).Err?
  {
    AllowedPorts(5173);
    AllowedPorts(5272);
    AllowedPorts(5172);
    AllowedPorts(5273);
    AllowedPorts(3001);
  }

  // ------------------------------------------------------- header echoing

  const AllowMethods: string := "GET, POST, PUT, DELETE, PATCH, OPTIONS"
  const AllowHeaders: string := "Origin, X-Requested-With, Content-Type, Accept, Authorization, Cache-Control, Pragma"
  const PreflightMaxAge: string := "86400"

  /** `req.headers[name]`: Express lower-cases the names; an absent header is `undefined`. */
  function HeaderValue(req: Request, name: string): Option<string> {
    if name in req.headers then Some(req.headers[name]) else None
  }

  /** `Access-Control-Allow-Origin`: the request origin when it is non-empty, `*` otherwise. */
  function AllowOrigin(origin: Option<string>): (v: string)
    ensures v == "*" <==> origin.None? || origin.value == "" || origin.value == "*"
    ensures origin.Some? && origin.value != "" ==> v == origin.value
  {
    if origin.Some? && origin.value != "" then origin.value else "*"
  }

  /**
   * The header middleware: five CORS headers on every response; a
   * preflight (`OPTIONS`) request is answered 200 with no body and goes no
   * further, any other request passes on (`next`) with nothing sent.
   */
  method CorsHeaders(req: Request, res: Response) returns (next: bool)
    requires res.Fresh()
    modifies res
    ensures res.headers == old(res.headers)[
      "Access-Control-Allow-Origin" := AllowOrigin(HeaderValue(req, "origin"))][
      "Access-Control-Allow-Methods" := AllowMethods][
      "Access-Control-Allow-Headers" := AllowHeaders][
      "Access-Control-Allow-Credentials" := "true"][
      "Access-Control-Max-Age" := PreflightMaxAge]
    ensures next <==> req.verb != "OPTIONS"
    ensures !next ==> res.finished && res.status == 200 && res.body == NoBody
    ensures next ==> res.Fresh()
  {
    var origin := HeaderValue(req, "origin");
    if origin.Some? && origin.value != "" {
      res.Header("Access-Control-Allow-Origin", origin.value);
    } else {
      res.Header("Access-Control-Allow-Origin", "*");
    }
    res.Header("Access-Control-Allow-Methods", AllowMethods);
    res.Header("Access-Control-Allow-Headers", AllowHeaders);
    res.Header("Access-Control-Allow-Credentials", "true");
    res.Header("Access-Control-Max-Age", PreflightMaxAge);
    if req.verb == "OPTIONS" {
      res.Status(200);
      res.End();
      return false;
    }
    return true;
  }

  // ---------------------------------------------------------- token check

  const BearerPrefix: string := "Bearer "

  /** `authHeader && authHeader.startsWith("Bearer ")` */
  predicate IsBearer(header: Option<string>) {
    header.Some? && header.value != "" && StartsWith(header.value, BearerPrefix)
  }

  /** `authHeader.split(" ")[1]` */
  function Token(header: string): string
    requires StartsWith(header, BearerPrefix)
  {
    BearerSplit(header);
    Split(header, ' ')[1]
  }

  /**
   * After the `Bearer ` prefix, splitting on spaces puts "Bearer" first and
   * the text up to the next space (or the end) second.
   */
  lemma BearerSplit(header: string)
    requires StartsWith(header, BearerPrefix)
    ensures var parts := Split(header, ' ');
      |parts| >= 2 && parts[0] == "Bearer" && parts[1] == Split(header[|BearerPrefix|..], ' ')[0]
  {
    assert header[6] == ' ';
    assert forall i | 0 <= i < 6 :: header[i] != ' ';
    var i := IndexOf(header, ' ').value;
    assert i == 6;
    assert header[..6] == "Bearer";
  }

  /** The first piece of a split is the text before the first separator, or all of it. */
  lemma SplitHead(s: string, sep: char)
    ensures var head := Split(s, sep)[0];
      && sep !in head
      && StartsWith(s, head)
      && (|head| == |s| || s[|head|] == sep)
  {
  }

  /**
   * The token is the text after `Bearer ` up to the next space: it holds no
   * space, follows the prefix directly, and ends the header or meets a
   * space.
   */
  lemma TokenShape(header: string)
    requires StartsWith(header, BearerPrefix)
    ensures var t := Token(header);
      && ' ' !in t
      && StartsWith(header, BearerPrefix + t)
      && (|BearerPrefix + t| == |header| || header[|BearerPrefix + t|] == ' ')
  {
    BearerSplit(header);
    var rest := header[|BearerPrefix|..];
    SplitHead(rest, ' ');
    var t := Token(header);
    assert header == BearerPrefix + rest;
    assert (BearerPrefix + t) == header[..|BearerPrefix + t|];
  }

  function ErrorJson(text: string): Value {
    Obj(map["error" := Str(text)])
  }

  /**
   * `verifyToken`: without a `Bearer ` header it answers 401 without
   * verifying; a token that `verify` (the signature and expiry check)
   * refuses gets 401; otherwise the request passes on with `req.user` set
   * to the decoded payload and nothing sent.
   */
  method VerifyToken(req: Request, res: Response, verify: string -> Option<Value>) returns (passed: Option<Request>)
    requires res.Fresh()
    modifies res
    ensures res.headers == old(res.headers)
    ensures var h := HeaderValue(req, "authorization");
      && (!IsBearer(h) ==>
            passed.None? && res.finished && res.status == 401 && res.body == Json(ErrorJson("Token manquant ou invalide")))
      && (IsBearer(h) && verify(Token(h.value)).None? ==>
            passed.None? && res.finished && res.status == 401 && res.body == Json(ErrorJson("Token invalide ou expiré")))
      && (IsBearer(h) && verify(Token(h.value)).Some? ==>
            passed == Some(req.(user := verify(Token(h.value)).value)) && res.Fresh())
  {
    var authHeader := HeaderValue(req, "authorization");
    if authHeader.None? || authHeader.value == "" || !StartsWith(authHeader.value, BearerPrefix) {
      res.Reply(401, ErrorJson("Token manquant ou invalide"));
      return None;
    }
    BearerSplit(authHeader.value);
    var token := Split(authHeader.value, ' ')[1];
    var decoded := verify(token);
    if decoded.None? {
      res.Reply(401, ErrorJson("Token invalide ou expiré"));
      return None;
    }
    return Some(req.(user := decoded.value));
  }
}

=== FILE: route_handlers.dfy ===
/**
 * The legacy collection handlers shared by the older routes: list
 * everything, insert after a required-field check, update after
 * required-field, id and empty-body checks, delete by id. They answer
 * with plain text on failure.
 */
module RouteHandlers {
  import opened Wrappers
  import opened JsValues
  import opened Seqs
  import opened Documents
  import opened Http
  import opened Service

  const InvalidIdText: string := "Invalid ID format."
  const NoDataText: string := "No data provided to update."
  const NoDocumentText: string := "No document found with the given ID."
  const InsertErrorText: string := "Error inserting data into the database."

  function MissingText(missing: seq<string>): string {
    "Missing required fields: " + Join(missing, ", ")
  }

  /** The documents of the collection, as the driver returns them, in cursor order. */
  function AllDocs(docs: map<Id, Record>, order: seq<Id>): (vs: seq<Value>)
    requires Enumerates(order, docs)
    ensures |vs| == |order| == |docs|
    ensures forall i | 0 <= i < |order| :: vs[i] == DocValue(order[i], docs[order[i]])
  {
    DistinctCard(order);
    assert (set x | x in order) == docs.Keys;
    seq(|order|, i requires 0 <= i < |order| => DocValue(order[i], docs[order[i]]))
  }

  /** Every stored document appears in the `handleGet` answer, once. */
  lemma AllDocsComplete(docs: map<Id, Record>, order: seq<Id>)
    requires Enumerates(order, docs)
    ensures forall id | id in docs :: DocValue(id, docs[id]) in AllDocs(docs, order)
    ensures forall v | v in AllDocs(docs, order) :: exists id | id in docs :: v == DocValue(id, docs[id])
  {
    var vs := AllDocs(docs, order);
    forall id | id in docs
      ensures DocValue(id, docs[id]) in vs
    {
      var k := Position(order, id);
      assert vs[k] == DocValue(id, docs[id]);
    }
  }

  /** `handleGet`: every document, the cursor order being `order`. */
  method HandleGet(c: Collection, res: Response, order: seq<Id>)
    requires res.Fresh() && Enumerates(order, c.docs)
    modifies res
    ensures res.finished && res.status == 200 && res.headers == old(res.headers)
    ensures res.body == Json(Arr(AllDocs(c.docs, order)))
  {
    res.SendJson(Arr(AllDocs(c.docs, order)));
  }

  /** The body `handlePost` stores: a truthy password replaced by its hash, nothing else changed. */
  function Hashed(data: Record): (r: Record)
    requires PasswordAccepted(data)
    ensures r.Keys == data.Keys
    ensures forall f | f in data :: r[f] == if f == "password" && Truthy(data[f]) then Hash(data[f]) else data[f]
  {
    HashPassword(data).value
  }

  /**
   * `handlePost(collection, req, res, requiredFields)`: 400 listing the
   * missing or falsy required fields and no insert; 500 and no insert when
   * bcrypt refuses the password; otherwise one insert and 201 with the
   * stored document.
   */
  method HandlePost(c: Collection, req: Request, res: Response, required: seq<string>, newId: Id)
    requires c.Valid() && res.Fresh() && CanonicalId(newId) && newId !in c.docs
    modifies c, res
    ensures c.Valid() && res.finished && res.headers == old(res.headers)
    ensures var missing := MissingFields(required, req.body);
      && (missing != [] ==> res.status == 400 && res.body == Text(MissingText(missing)) && c.docs == old(c.docs))
      && (missing == [] && !PasswordAccepted(req.body) ==>
            res.status == 500 && res.body == Text(InsertErrorText) && c.docs == old(c.docs))
      && (missing == [] && PasswordAccepted(req.body) ==>
            && c.docs == old(c.docs)[newId := WithoutId(Hashed(req.body))]
            && res.status == 201
            && res.body == Json(DocValue(newId, c.docs[newId])))
  {
    var data := req.body;
    var missing := MissingFields(required, data);
    if |missing| > 0 {
      res.ReplyText(400, MissingText(missing));
      return;
    }
    var hashed := HashPassword(data);
    if hashed.Err? {
      res.ReplyText(500, InsertErrorText);
      return;
    }
    data := hashed.value;
    c.InsertOne(newId, data);
    var created := c.FindOne(newId);
    res.Reply(201, DocValue(newId, created.value));
  }

  /** A post is refused exactly when a required field is missing or falsy, and the refusal names those fields in declaration order. */
  lemma PostRefusal(required: seq<string>, data: Record)
    ensures MissingFields(required, data) != [] <==> exists f | f in required :: !Truthy(Get(data, f))
    ensures forall f :: f in MissingFields(required, data) <==> f in required && !Truthy(Get(data, f))
    ensures Distinct(required) ==> InOrder(MissingFields(required, data), required)
  {
    MissingFieldsMembership(required, data);
    if Distinct(required) {
      MissingFieldsInOrder(required, data);
    }
  }

  /**
   * `handlePut(collection, req, res, requiredFields)`: missing required
   * fields, then a malformed id, then an empty body, each a 400 with the
   * store untouched; `_id` is stripped; 404 when no document matches.
   */
  method HandlePut(c: Collection, req: Request, res: Response, required: seq<string>)
    requires c.Valid() && res.Fresh()
    modifies c, res
    ensures c.Valid() && res.finished && res.headers == old(res.headers)
    ensures var id := Param(req, "id");
      var missing := MissingFields(required, req.body);
      && (missing != [] ==> res.status == 400 && res.body == Text(MissingText(missing)))
      && (missing == [] && !ValidId(id) ==> res.status == 400 && res.body == Text(InvalidIdText))
      && (missing == [] && ValidId(id) && req.body == map[] ==> res.status == 400 && res.body == Text(NoDataText))
      && (missing == [] && ValidId(id) && req.body != map[] && ObjectIdOf(id) !in old(c.docs) ==>
            res.status == 404 && res.body == Text(NoDocumentText))
      && (missing == [] && ValidId(id) && req.body != map[] && ObjectIdOf(id) in old(c.docs) ==>
            var k := ObjectIdOf(id);
            && res.status == 200
            && res.body == Json(Obj(map["message" := Str("Data updated successfully.")]))
            && c.docs == old(c.docs)[k := old(c.docs)[k] + WithoutId(req.body)])
      && (res.status != 200 ==> c.docs == old(c.docs))
  {
    var id := Param(req, "id");
    var updatedData := req.body;
    var missing := MissingFields(required, updatedData);
    if |missing| > 0 {
      res.ReplyText(400, MissingText(missing));
      return;
    }
    if !ValidId(id) {
      res.ReplyText(400, InvalidIdText);
      return;
    }
    if |updatedData| == 0 {
      res.ReplyText(400, NoDataText);
      return;
    }
    var dataToUpdate := WithoutId(updatedData);
    var result := c.UpdateOne(ObjectIdOf(id), dataToUpdate);
    if result == NoMatch {
      res.ReplyText(404, NoDocumentText);
      return;
    }
    res.SendJson(Obj(map["message" := Str("Data updated successfully.")]));
  }

  /** When some field is required, a body that passed the required-field check is never empty. */
  lemma EmptyBodyCaughtEarlier(required: seq<string>, data: Record)
    requires required != [] && MissingFields(required, data) == []
    ensures data != map[]
  {
    MissingFieldsMembership(required, data);
    assert required[0] in required;
  }

  /** `handleDelete(collection, req, res)`: 400 for a malformed id, 404 when absent, otherwise exactly that document goes. */
  method HandleDelete(c: Collection, req: Request, res: Response)
    requires c.Valid() && res.Fresh()
    modifies c, res
    ensures c.Valid() && res.finished && res.headers == old(res.headers)
    ensures var id := Param(req, "id");
      && (!ValidId(id) ==> res.status == 400 && res.body == Text(InvalidIdText) && c.docs == old(c.docs))
      && (ValidId(id) && ObjectIdOf(id) !in old(c.docs) ==>
            res.status == 404 && res.body == Text(NoDocumentText) && c.docs == old(c.docs))
      && (ValidId(id) && ObjectIdOf(id) in old(c.docs) ==>
            && res.status == 200
            && res.body == Json(Obj(map["message" := Str("Data deleted successfully.")]))
            && c.docs == old(c.docs) - {ObjectIdOf(id)})
  {
    var id := Param(req, "id");
    if !ValidId(id) {
      res.ReplyText(400, InvalidIdText);
      return;
    }
    var deleted := c.DeleteOne(ObjectIdOf(id));
    if !deleted {
      res.ReplyText(404, NoDocumentText);
      return;
    }
    res.SendJson(Obj(map["message" := Str("Data deleted successfully.")]));
  }
}

=== FILE: seqs.dfy ===
/** Order facts about sequences, used to state "in declaration order". */
module Seqs {

  predicate Distinct<T(==)>(s: seq<T>) {
    forall i, j | 0 <= i < j < |s| :: s[i] != s[j]
  }

  /** The first index of `x` in `s`. */
  function Position<T(==)>(s: seq<T>, x: T): (k: nat)
    requires x in s
    ensures k < |s| && s[k] == x && x !in s[..k]
  {
    if s[0] == x then 0 else 1 + Position(s[1..], x)
  }

  /**
   * Every element of `xs` comes from `canon`, and `xs` lists them in the
   * order `canon` does, each at most once.
   */
  predicate InOrder<T(==)>(xs: seq<T>, canon: seq<T>) {
    && (forall x | x in xs :: x in canon)
    && (forall i, j | 0 <= i < j < |xs| :: xs[i] in canon && xs[j] in canon && Position(canon, xs[i]) < Position(canon, xs[j]))
  }

  lemma InOrderAppend<T>(xs: seq<T>, x: T, canon: seq<T>)
    requires InOrder(xs, canon) && x in canon
    requires forall y | y in xs :: Position(canon, y) < Position(canon, x)
    ensures InOrder(xs + [x], canon)
  {
    var ys := xs + [x];
    forall i, j | 0 <= i < j < |ys|
      ensures ys[i] in canon && ys[j] in canon && Position(canon, ys[i]) < Position(canon, ys[j])
    {
      if j == |xs| {
        assert ys[i] == xs[i] && xs[i] in xs;
      }
    }
  }

  /** Order within the tail of `canon` is order within `canon`. */
  lemma InOrderShift<T>(xs: seq<T>, canon: seq<T>)
    requires |canon| > 0 && InOrder(xs, canon[1..]) && canon[0] !in xs
    ensures InOrder(xs, canon)
    ensures InOrder([canon[0]] + xs, canon)
  {
    forall x | x in xs ensures x in canon && Position(canon, x) == 1 + Position(canon[1..], x) {
      assert x != canon[0];
    }
    var ys := [canon[0]] + xs;
    forall i, j | 0 <= i < j < |ys|
      ensures ys[i] in canon && ys[j] in canon && Position(canon, ys[i]) < Position(canon, ys[j])
    {
      assert ys[j] == xs[j - 1];
      if i > 0 {
        assert ys[i] == xs[i - 1];
      }
    }
  }
}

=== FILE: transporteurs.dfy ===
/**
 * The carrier controller: its field lists, its `customValidation` hook
 * (lenient format validators plus a positive transport capacity), and its
 * finders by transport type, zone and capacity.
 */
module Transporteurs {
  import opened Wrappers
  import opened JsValues
  import opened Seqs
  import opened Documents
  import opened Http
  import opened Service
  import opened Formats
  import opened Controller

  const RequiredFields: seq<string> := ["nom_de_entreprise"]
  const OptionalFields: seq<string> :=
    ["representant", "registrationNumber", "street", "city", "zipCode", "country", "email", "phone", "taxID",
     "typesTransport", "zonesGeographiques", CapaciteField, "certifications", "contactPrincipal",
     "horairesDisponibilite"]
  const SearchFields: seq<string> :=
    ["nom_de_entreprise", "representant", "email", "phone", "city", "country", "registrationNumber", "typesTransport"]

  const CapaciteMessage: string := "Capacité de transport invalide"

  /** The lenient validators: an empty value is accepted, anything else must match the pattern. */
  predicate LenientSiret(v: Value) {
    !Truthy(v) || MatchesSiret(v)
  }

  predicate LenientTva(v: Value) {
    !Truthy(v) || MatchesTva(v)
  }

  predicate LenientCodePostal(v: Value) {
    !Truthy(v) || MatchesCodePostal(v)
  }

  /** `typeof capacite === 'number' && capacite > 0` */
  predicate IsValidCapacite(v: Value) {
    v.Num? && v.n > 0
  }

  const Checks: seq<Check> := [
    Check("registrationNumber", LenientSiret, SiretMessage),
    Check("taxID", LenientTva, TvaMessage),
    Check("zipCode", LenientCodePostal, CodePostalMessage),
    Check(CapaciteField, IsValidCapacite, CapaciteMessage)]

  /** The same rules with the strict patterns, as the client controller applies them. */
  const StrictChecks: seq<Check> := [
    Check("registrationNumber", MatchesSiret, SiretMessage),
    Check("taxID", MatchesTva, TvaMessage),
    Check("zipCode", MatchesCodePostal, CodePostalMessage),
    Check(CapaciteField, IsValidCapacite, CapaciteMessage)]

  method NewController(collection: Collection) returns (c: CrudController)
    ensures fresh(c) && fresh(c.service) && c.service.collection == collection
    ensures c.entityName == "Transporteur" && c.service.entityName == "Transporteur"
    ensures c.service.requiredFields == RequiredFields && c.service.optionalFields == OptionalFields
    ensures c.searchFields == SearchFields
  {
    c := new CrudController(collection, "Transporteur", RequiredFields, OptionalFields, SearchFields);
  }

  /**
   * `customValidation(data)`: one message per truthy field that its
   * validator rejects. (The empty `else if` branches of the source do
   * nothing.)
   */
  method CustomValidation(data: Record) returns (v: Validation)
    ensures v == CheckResult(Checks, data)
  {
    var errors: seq<string> := [];
    assert Checks[..0] == [];
    var registrationNumber := Get(data, "registrationNumber");
    if Truthy(registrationNumber) && !LenientSiret(registrationNumber) {
      errors := errors + [SiretMessage];
    }
    FieldErrorsSnoc(Checks[..0], Checks[0], data);
    assert Checks[..1] == Checks[..0] + [Checks[0]];
    assert errors == FieldErrors(Checks[..1], data);
    var taxID := Get(data, "taxID");
    if Truthy(taxID) && !LenientTva(taxID) {
      errors := errors + [TvaMessage];
    }
    FieldErrorsSnoc(Checks[..1], Checks[1], data);
    assert Checks[..2] == Checks[..1] + [Checks[1]];
    assert errors == FieldErrors(Checks[..2], data);
    var zipCode := Get(data, "zipCode");
    if Truthy(zipCode) && !LenientCodePostal(zipCode) {
      errors := errors + [CodePostalMessage];
    }
    FieldErrorsSnoc(Checks[..2], Checks[2], data);
    assert Checks[..3] == Checks[..2] + [Checks[2]];
    assert errors == FieldErrors(Checks[..3], data);
    var capacite := Get(data, CapaciteField);
    if Truthy(capacite) && !IsValidCapacite(capacite) {
      errors := errors + [CapaciteMessage];
    }
    FieldErrorsSnoc(Checks[..3], Checks[3], data);
    assert Checks == Checks[..3] + [Checks[3]];
    assert errors == FieldErrors(Checks, data);
    v := Validation(|errors| == 0, errors);
  }

  /**
   * The lenient validators are only ever asked about truthy values, so the
   * hook reports exactly what the strict patterns would.
   */
  lemma {:induction false} LenientIsStrict(data: Record)
    ensures CheckResult(Checks, data) == CheckResult(StrictChecks, data)
  {
    forall i | 0 <= i < 4
      ensures Flags(Checks[i], data) == Flags(StrictChecks[i], data)
    {
    }
    assert FieldErrors(Checks[3..], data) == FieldErrors(StrictChecks[3..], data) by {
      assert Checks[3..][1..] == [] && StrictChecks[3..][1..] == [];
    }
    assert FieldErrors(Checks[2..], data) == FieldErrors(StrictChecks[2..], data) by {
      assert Checks[2..][1..] == Checks[3..] && StrictChecks[2..][1..] == StrictChecks[3..];
    }
    assert FieldErrors(Checks[1..], data) == FieldErrors(StrictChecks[1..], data) by {
      assert Checks[1..][1..] == Checks[2..] && StrictChecks[1..][1..] == StrictChecks[2..];
    }
  }

  /**
   * Each field is checked only when truthy and yields its own message when
   * rejected; a capacity is rejected unless it is a positive number. The
   * messages keep the order of the checks.
   */
  lemma CustomValidationSpec(data: Record)
    ensures var errs := CheckResult(Checks, data).errors;
      var cap := Get(data, CapaciteField);
      && (SiretMessage in errs <==> Truthy(Get(data, "registrationNumber")) && !MatchesSiret(Get(data, "registrationNumber")))
      && (TvaMessage in errs <==> Truthy(Get(data, "taxID")) && !MatchesTva(Get(data, "taxID")))
      && (CodePostalMessage in errs <==> Truthy(Get(data, "zipCode")) && !MatchesCodePostal(Get(data, "zipCode")))
      && (CapaciteMessage in errs <==> Truthy(cap) && !(cap.Num? && cap.n > 0))
      && InOrder(errs, [SiretMessage, TvaMessage, CodePostalMessage, CapaciteMessage])
  {
    assert Messages(Checks) == [SiretMessage, TvaMessage, CodePostalMessage, CapaciteMessage];
    FieldErrorsExact(Checks, data);
    FieldErrorsInOrder(Checks, data);
    assert Checks[0].message == SiretMessage && Checks[1].message == TvaMessage;
    assert Checks[2].message == CodePostalMessage && Checks[3].message == CapaciteMessage;
  }

  // ------------------------------------------------------------------ finders

  /** The capacity field and the two query parameters that bound it. */
  const CapaciteField: string := "capaciteTransport"
  const MinParam: string := "capaciteMin"
  const MaxParam: string := "capaciteMax"

  /** The filter `findByCapacite` builds from `capaciteMin` and `capaciteMax`, each used only when truthy. */
  function CapaciteFilter(query: map<string, Value>): (f: map<string, Cond>)
    ensures f.Keys <= {CapaciteField}
    ensures CapaciteField in f <==>
      Truthy(QueryParam(query, MinParam, Undefined)) || Truthy(QueryParam(query, MaxParam, Undefined))
  {
    var min := QueryParam(query, MinParam, Undefined);
    var max := QueryParam(query, MaxParam, Undefined);
    if Truthy(min) && Truthy(max) then
      map[CapaciteField := Range(Some(ParseInt(min)), Some(ParseInt(max)))]
    else if Truthy(min) then
      map[CapaciteField := Range(Some(ParseInt(min)), None)]
    else if Truthy(max) then
      map[CapaciteField := Range(None, Some(ParseInt(max)))]
    else
      map[]
  }

  /** A query whose capacity bounds, when present, are decimal texts. */
  function BoundsQuery(lo: Option<int>, hi: Option<int>): map<string, Value> {
    (if lo.Some? then map[MinParam := Str(IntToString(lo.value))] else map[])
    + (if hi.Some? then map[MaxParam := Str(IntToString(hi.value))] else map[])
  }

  function NumBound(b: Option<int>): Option<Value> {
    if b.Some? then Some(Num(b.value)) else None
  }

  /** Decimal bounds reach the filter as the numbers they spell. */
  lemma CapaciteFilterOfBounds(lo: Option<int>, hi: Option<int>)
    ensures CapaciteFilter(BoundsQuery(lo, hi)) ==
      if lo.None? && hi.None? then map[] else map[CapaciteField := Range(NumBound(lo), NumBound(hi))]
  {
    var query := BoundsQuery(lo, hi);
    if lo.Some? {
      ParseIntRoundTrip(lo.value);
      assert QueryParam(query, MinParam, Undefined) == Str(IntToString(lo.value));
      assert |IntToString(lo.value)| > 0;
    } else {
      assert MinParam !in query;
    }
    if hi.Some? {
      ParseIntRoundTrip(hi.value);
      assert QueryParam(query, MaxParam, Undefined) == Str(IntToString(hi.value));
      assert |IntToString(hi.value)| > 0;
    } else {
      assert MaxParam !in query;
    }
  }

  /** `{ $gte: lo }` at a capacity: a number at least `lo`, or an array holding one. */
  predicate ReachesMin(x: Value, lo: int) {
    (x.Num? && lo <= x.n) || (x.Arr? && exists e | e in x.items :: e.Num? && lo <= e.n)
  }

  /** `{ $lte: hi }` at a capacity: a number at most `hi`, or an array holding one. */
  predicate WithinMax(x: Value, hi: int) {
    (x.Num? && x.n <= hi) || (x.Arr? && exists e | e in x.items :: e.Num? && e.n <= hi)
  }

  /**
   * With bounds given as decimal texts, a carrier is listed exactly when
   * its capacity meets every bound given (a numeric capacity lies between
   * them; an array capacity has an element above the minimum and an
   * element below the maximum, not necessarily the same one); with no
   * bound every carrier is listed.
   */
  lemma CapaciteSelection(lo: Option<int>, hi: Option<int>, r: Record)
    ensures var cap := Get(r, CapaciteField);
      Matches(Query(CapaciteFilter(BoundsQuery(lo, hi)), None), r) <==>
        (lo.None? && hi.None?) ||
        ((lo.None? || ReachesMin(cap, lo.value)) && (hi.None? || WithinMax(cap, hi.value)))
  {
    CapaciteFilterOfBounds(lo, hi);
    if lo.Some? || hi.Some? {
      ResolvePlain(r, CapaciteField);
      MatchesSingle(CapaciteField, Range(NumBound(lo), NumBound(hi)), r);
      PathMatchesOne(Range(NumBound(lo), NumBound(hi)), Get(r, CapaciteField));
      NumRangeMatches(lo, hi, Get(r, CapaciteField));
    }
  }

  lemma NumRangeMatches(lo: Option<int>, hi: Option<int>, x: Value)
    requires lo.Some? || hi.Some?
    ensures CondMatches(Range(NumBound(lo), NumBound(hi)), x) <==>
      (lo.None? || ReachesMin(x, lo.value)) && (hi.None? || WithinMax(x, hi.value))
  {
  }

  method FindByTypeTransport(ctl: CrudController, req: Request, res: Response, order: seq<Id>)
    requires res.Fresh() && Enumerates(order, ctl.service.collection.docs)
    modifies res
    ensures res.finished && res.headers == old(res.headers)
    ensures var r := ctl.service.FindAll(FilterOptions(ContainsFilter("typesTransport", Param(req, "typeTransport"))), order);
      && (r.Listed? ==> res.status == 200 && res.body == Json(ListingJson(r, "Transporteurs trouvés pour le type: " + Param(req, "typeTransport"), false)))
      && (r.ListFailed? ==> res.status == 400)
  {
    var typeTransport := Param(req, "typeTransport");
    ctl.ListBy(FilterOptions(ContainsFilter("typesTransport", typeTransport)), order, res,
      "Transporteurs trouvés pour le type: " + typeTransport);
  }

  method FindByZoneGeographique(ctl: CrudController, req: Request, res: Response, order: seq<Id>)
    requires res.Fresh() && Enumerates(order, ctl.service.collection.docs)
    modifies res
    ensures res.finished && res.headers == old(res.headers)
    ensures var r := ctl.service.FindAll(FilterOptions(ContainsFilter("zonesGeographiques", Param(req, "zone"))), order);
      && (r.Listed? ==> res.status == 200 && res.body == Json(ListingJson(r, "Transporteurs trouvés pour la zone: " + Param(req, "zone"), false)))
      && (r.ListFailed? ==> res.status == 400)
  {
    var zone := Param(req, "zone");
    ctl.ListBy(FilterOptions(ContainsFilter("zonesGeographiques", zone)), order, res,
      "Transporteurs trouvés pour la zone: " + zone);
  }

  method FindByCapacite(ctl: CrudController, req: Request, res: Response, order: seq<Id>)
    requires res.Fresh() && Enumerates(order, ctl.service.collection.docs)
    modifies res
    ensures res.finished && res.headers == old(res.headers)
    ensures var r := ctl.service.FindAll(FilterOptions(CapaciteFilter(req.query)), order);
      && (r.Listed? ==> res.status == 200 && res.body == Json(ListingJson(r, "Transporteurs trouvés par capacité", false)))
      && (r.ListFailed? ==> res.status == 400)
  {
    ctl.ListBy(FilterOptions(CapaciteFilter(req.query)), order, res, "Transporteurs trouvés par capacité");
  }

  // ------------------------------------------------- statistics and listings

  /** `getStatsByTypeTransport` as written: the aggregation is asked of a collection the controller does not hold. */
  method GetStatsByTypeTransportAsWritten(res: Response)
    requires res.Fresh()
    modifies res
    ensures res.finished && res.status == 500
    ensures res.body == Json(FailureJson(InternalError, "Erreur lors de la récupération des statistiques par type de transport"))
  {
    UnsetCollectionReply(res, "Erreur lors de la récupération des statistiques par type de transport");
  }

  /** `getTypesTransport` as written: always the internal error. */
  method GetTypesTransportAsWritten(res: Response)
    requires res.Fresh()
    modifies res
    ensures res.finished && res.status == 500
    ensures res.body == Json(FailureJson(InternalError, "Erreur lors de la récupération des types de transport"))
  {
    UnsetCollectionReply(res, "Erreur lors de la récupération des types de transport");
  }

  /** `getTypesTransport` reading the carrier collection: every truthy stored type (array elements included), once each. */
  method GetTypesTransport(ctl: CrudController, listed: seq<Value>, res: Response)
    requires res.Fresh() && ListsOnce(listed, DistinctValues(ctl.service.collection.docs, "typesTransport"))
    modifies res
    ensures res.finished && res.status == 200
    ensures res.body == Json(SuccessJson(Arr(KeepTruthy(listed)), "Types de transport récupérés"))
  {
    DistinctTruthy(ctl, "typesTransport", listed, res, "Types de transport récupérés");
  }

  /** `getZonesGeographiques` as written: always the internal error. */
  method GetZonesGeographiquesAsWritten(res: Response)
    requires res.Fresh()
    modifies res
    ensures res.finished && res.status == 500
    ensures res.body == Json(FailureJson(InternalError, "Erreur lors de la récupération des zones géographiques"))
  {
    UnsetCollectionReply(res, "Erreur lors de la récupération des zones géographiques");
  }

  /** `getZonesGeographiques` reading the carrier collection. */
  method GetZonesGeographiques(ctl: CrudController, listed: seq<Value>, res: Response)
    requires res.Fresh() && ListsOnce(listed, DistinctValues(ctl.service.collection.docs, "zonesGeographiques"))
    modifies res
    ensures res.finished && res.status == 200
    ensures res.body == Json(SuccessJson(Arr(KeepTruthy(listed)), "Zones géographiques récupérées"))
  {
    DistinctTruthy(ctl, "zonesGeographiques", listed, res, "Zones géographiques récupérées");
  }
}

=== FILE: wrappers.dfy ===
/** Optional values and results shared by every module. */
module Wrappers {

  datatype Option<+T> = None | Some(value: T)

  datatype Result<+T, +E> = Ok(value: T) | Err(error: E)
}
